=== FILE: README.md ===
# kahani-backend, modelled in Dafny

This project models the decision logic of the kahani-backend service. That
service turns a story script into a narrated audio file and keeps the users,
subscriptions and stories behind it. The model covers these parts:

- **Voice pipeline** (`VoiceItems`, `VoicePool`, `VoiceService`). Each script
  line is annotated. A pool of four workers drains the queue of lines,
  calling the speech service. The outcomes are sorted back into script order
  and handed to the merger.
  - The pool is one loop. A scheduler picks any live worker at each step, so
    every interleaving the event loop can produce is covered.
  - `VoicePool.DrainQueue` proves that every line is processed exactly once,
    whatever the schedule.
  - `VoiceService.GenerateVoiceForScript` proves that the pipeline computes
    the same result as a one-worker sequential reference.
- **Merger** (`Ffmpeg`). This is `merge_audio_files_async`:
  - the input checks;
  - the single-file copy;
  - the concat manifest, and how ffmpeg's concat demuxer reads it back;
  - the command line, and what ffmpeg makes of its arguments;
  - the removal of the manifest.
- **Helpers** (`Utils`, `Text`, `Numerals`, `Uuids`, `Sorting`).
  - `format_prompt` and `delete_files_by_pattern`.
  - Python's `str.replace`, `split`, `strip`, `lower`, `int(text, base)`
    and `uuid.UUID(hex=...)`.
  - Sorting by key. The model does not state that the sort is stable.
- **Request checks** (`Requests`, `Paging`). The body checks of the voice and
  script endpoints, and `get_pagination`.
- **Authentication** (`AuthMiddleware`, `AuthRoutes`).
  - The middleware parses the Authorization header. The scheme is matched
    without regard to case (section 2.1 of RFC 7235). The credential is
    base64 (section 4 of RFC 4648). Basic uses `user-id ":" password`
    (section 2 of RFC 7617).
  - Register, login and verify.
  - The token expiry check of section 4.1.4 of RFC 7519.
- **Record stores** (`Records`, `Stories`, `ClerkWebhook`, `Transactions`).
  - The caller's paged story listing, the partial update and the soft delete.
  - The identity provider's user events.
  - The idempotent subscription reset.
- **Model output post-processing** (`LlmOutput`, `Metadata`). Fence stripping
  and JSON fallback, and `generate_metadata_for_storyline`.

Tables are sequences of immutable records. Every operation is a pure function
from its inputs to a result and the tables afterwards.

The following are parameters, not modelled code:

- the speech service, the chat model, bcrypt, token signing, base64,
  UTF-8 decoding, `json.loads` and `os.path.abspath`;
- the ffmpeg child process and the filesystem;
- the clock and the database's `uuid4` defaults.

An exception that the framework turns into a 500 response is an
`Err(HttpError(500, reason))`.

## Model

| member | source | states |
|---|---|---|
| VoiceItems.MoveVoiceModel | modules/voice/service.py:74-76 | `voice_model` is removed from the voice configuration. Its value becomes `speaker`. `pace` becomes 1 whatever it was. Every other key keeps its value. |
| VoiceItems.AnnotateFrom | modules/voice/service.py:67-77 | Annotating the lines from a position on succeeds iff each of those lines can be annotated. Item k then comes from line `from + k`. Otherwise the error is the first line that fails. |
| VoiceItems.Annotate | modules/voice/service.py:66-77 | Succeeds iff every line is an object whose `voice_config` is an object holding `voice_model`. Item i then has index i, the shared request id and language, the rewritten configuration and the line's text. Otherwise the first bad line aborts the whole call. |
| VoiceItems.SegmentPathInjective | modules/voice/service.py:28 | Two indices of one request with the same zero-padded segment path are equal. |
| VoiceItems.FirstAudio | modules/voice/service.py:39 | A reply object without `audios` gives the default `None`. A list gives its first element, and an empty list raises. A reply that is not an object raises. |
| VoiceItems.Process | modules/voice/service.py:27-53 | Missing text, an unknown language or a configuration `VoiceConfig` rejects drops the item. So do a speech-service exception, a reply that is not an object, and an empty `audios` list. A reported item carries its segment path with the decoded audio, or the empty path with no audio. A reply without `audios` is reported with the empty path. |
| VoiceItems.ProcessFirstAudio | modules/voice/service.py:38-49 | After a reply, the first audio decides. No first audio drops the item, and a falsy one (`""`, `null`) is reported with the empty path and no audio. A truthy text that decodes is reported with the item's segment path and the decoded bytes. A truthy first audio that is not text, or does not decode, drops the item. |
| VoiceItems.SurvivorsMembers | modules/voice/service.py:104-116 | In the sequential run, the reported outcomes are exactly the items whose processing reported, each with its path, in strictly increasing index order. |
| VoiceItems.ReflectsStep | modules/voice/service.py:41-46 | Processing one more item keeps the filesystem exactly "the original plus the segment files of the processed items". This relies on distinct items having distinct paths. |
| VoiceItems.WriteSegmentsReflects | modules/voice/service.py:41-46 | The sequential run leaves exactly the original filesystem plus the segment file of every item that wrote one. |
| VoicePool.TakeStep | modules/voice/service.py:24-25 | A ready worker taking the head of the queue keeps the pool's bookkeeping. Every earlier position is finished or held by exactly one worker. |
| VoicePool.FinishStep | modules/voice/service.py:48-49 | A worker finishing its item marks exactly that position processed. |
| VoicePool.ExitStep | modules/voice/service.py:50-51 | A worker leaves its loop only when the queue is empty. |
| VoicePool.AllDone | modules/voice/service.py:102 | Once every worker has exited, every queue position has been processed. |
| VoicePool.CollectStep | modules/voice/service.py:48-49 | Putting a finished item's outcome on the results queue keeps "one outcome per processed reported item". |
| VoicePool.CollectedAll | modules/voice/service.py:104-110 | The collected results of a finished pool are a permutation of the sequential run's outcomes. |
| VoicePool.DrainQueue | modules/voice/service.py:79-110 | Under any schedule of the four workers, the results are a permutation of the sequential run's outcomes. The filesystem ends exactly as the sequential run leaves it. |
| Sorting.SortBy | modules/voice/service.py:113 | The result is a permutation of the input, sorted by the key. |
| Sorting.SortedPermutationUnique | modules/voice/service.py:113 | A sorted permutation of a sequence whose keys strictly increase is that sequence. |
| Sorting.SortRestoresOrder | modules/voice/service.py:113 | Sorting any arrival order of outcomes with distinct increasing indices gives back script order. |
| VoiceService.CompiledPathWritable | modules/voice/service.py:86 | After `os.makedirs`, the compiled file of a request id without a separator can be opened for writing, so a single-segment copy to it does not fail on the output. |
| VoiceService.Paths | modules/voice/service.py:116 | Path k is the path of outcome k. |
| VoiceService.NoSurvivors | modules/voice/service.py:116-119 | The outcome list is empty iff every item was dropped. |
| VoiceService.GenerateVoice | modules/voice/service.py:56-131 | A line that cannot be annotated fails the call before anything is written. A success returns the compiled path, which depends only on the request id. "failed to generate audio" comes iff every line was dropped. |
| VoiceService.GenerateVoiceForScript | modules/voice/service.py:56-131 | The concurrent pipeline (queue, worker pool, sort, merge, dry-run cleanup) returns exactly what the sequential reference computes, and leaves the same filesystem. |
| VoiceService.MissingInputIsEmpty | modules/voice/service.py:116-124 | Every non-empty reported path names a written segment file. So when an empty path is among them, the merger's first missing input is the empty path. |
| VoiceService.MergeOfEmptyPath | shared/ffmpeg.py:36-38 | When an item of the batch is reported with the empty path, there is at least one outcome, and merging the sorted outcomes fails with "input file not found" for the empty path. |
| VoiceService.EmptyPathFailsMerge | modules/voice/service.py:116-124 | A line reported with the empty path makes the merge fail with "input file not found" for the empty path. |
| Ffmpeg.FirstMissing | shared/ffmpeg.py:36-38 | There is no missing input iff every path exists. Otherwise the result is the first path, in list order, that does not exist. |
| Ffmpeg.MergeAudioFiles | shared/ffmpeg.py:31-108 | A non-list or an empty list is rejected; then a missing ffmpeg, then a missing input, each before anything is written. One regular input is copied byte for byte to an output that can be opened for writing, and no process runs; an output that cannot be opened fails with nothing changed, and copying the input onto itself empties it. Several inputs give the manifest as the source writes it (absolute paths between quotes, unescaped) and the fixed concat command. The exit code then decides, and the manifest is gone afterwards. Success returns the output path. Nothing but the output and the manifest changes. |
| Ffmpeg.CopySingle | shared/ffmpeg.py:41-46 | A directory as the source raises. A source file with an output that is empty, ends in a separator, is a directory or lies in a missing directory raises and nothing is written. Otherwise the output holds the source's bytes, or nothing when it is the source, and no other file changes. |
| Ffmpeg.RunConcat | shared/ffmpeg.py:48-106 | The manifest lists each absolute path in order, unescaped, and the command is the concat invocation. Success iff the exit code is 0; a failure carries that code. What ffmpeg wrote stays at the output, the manifest is removed, and no other file changes. |
| Ffmpeg.ManifestRoundTrip | shared/ffmpeg.py:55-57 | With quotes escaped, ffmpeg's concat demuxer reads back exactly the listed paths in order, whatever quotes they hold. |
| Ffmpeg.ReadOneLineAsWritten | shared/ffmpeg.py:57 | The demuxer reads a one-line manifest, as the source writes it, as the token of the quoted path. |
| Ffmpeg.UnescapedQuoteIsMisread | shared/ffmpeg.py:57 | As written, the path `a'b` is read back as `ab`. |
| Ffmpeg.EscapeIsIdentityWithoutQuotes | shared/ffmpeg.py:57 | For a path without quotes, the escaped line and the line as written are the same text. |
| Ffmpeg.ConcatCommandMeaning | shared/ffmpeg.py:60-72 | The command line means: overwrite the output, read one input (the manifest) with the concat format and `safe` 0, and write one output (the given path) with the copy codec. |
| Utils.FormatSequential | shared/utils.py:7-16 | Formatting with the arguments `a + b` is formatting with `a`, then formatting that result with `b`. |
| Utils.FormatLastKey | shared/utils.py:12-16 | The last key replaces its placeholder everywhere in the text the earlier keys produced, their values included. |
| Utils.FormatValueReformatted | shared/utils.py:12-16 | A value is itself formatted by the keys after it: the prompt `{k}` with `(k, v)` first becomes `v` formatted with the rest. |
| Utils.FormatEarlierKeyMissesLaterValue | shared/utils.py:12-16 | An earlier key never sees a later value: when the prompt lacks `{k1}`, formatting with `(k1, v1), (k2, v2)` only replaces `{k2}`, even when `v2` holds `{k1}`. |
| Utils.FormatUntouched | shared/utils.py:13-14 | A prompt holding no supplied key's placeholder is returned unchanged, whatever other braces it holds. |
| Utils.FormatOneKey | shared/utils.py:13-14 | One key: the prompt split at the placeholder and joined with the value. Joining the same pieces with the placeholder gives the prompt back, so every occurrence is replaced and nothing else. |
| Utils.FormatOrderMatters | shared/utils.py:13-14 | Three worked examples of key order: `{a}` with `a -> {b}, b -> x` gives `x`; `{b}` with `b -> {a}, a -> x` gives `x`; `{a}` with `b -> x, a -> {b}` gives `{b}`. |
| Utils.DeleteFilesByPattern | shared/utils.py:56-126 | A missing directory is an error and nothing changes. Otherwise the result lists each matching regular file once, directories never. In live mode it leaves out the files whose removal failed. A dry run changes nothing. A live run removes exactly the listed files. |
| Text.ReplaceIsSplitJoin | shared/utils.py:14 | `str.replace(p, r)` cuts the text at every occurrence of `p`, scanning left to right, and joins the pieces with `r`. |
| Text.JoinSplit | shared/utils.py:14 | Joining the pieces with `p` again gives the text back, so the replacement touches only the occurrences. |
| Text.TrimShape | routers/auth.py:116 | The text is a run of whitespace, then what `strip()` returns, then another run of whitespace; what `strip()` returns neither starts nor ends with whitespace. |
| Text.StripFindsCore | routers/auth.py:116 | Whitespace margins around a core that neither starts nor ends with whitespace strip to exactly that core. |
| Text.Words | shared/auth_middleware.py:29 | Every word `split()` returns is non-empty and holds no whitespace. |
| Text.WordsCoverText | shared/auth_middleware.py:29 | The words, concatenated, are the text with its whitespace removed. |
| Text.LowerMatchesIgnoringCase | shared/auth_middleware.py:31 | For a lower-case word, `a.lower() == word` iff `a` equals it ignoring the case of ASCII letters. |
| LlmOutput.StripFencesPlain | modules/metadata/service.py:38 | A reply without backticks is only trimmed. |
| LlmOutput.StripFencesFenced | modules/metadata/service.py:38 | A fenced `json` block, with whitespace around and inside the fences, comes out as exactly its content. |
| LlmOutput.OpeningFenceRemoved | modules/metadata/service.py:38 | The first replacement removes the opening fence and keeps the closing one. |
| LlmOutput.ClosingFenceRemoved | modules/metadata/service.py:38 | The second replacement removes the closing fence. |
| LlmOutput.StripFencesShape | modules/metadata/service.py:38 | The cleaned reply neither starts nor ends with whitespace and is no longer than the reply. |
| LlmOutput.FencedPayloadParsed | modules/script/service.py:74-80 | A reply that is a fenced `json` block whose content parses gives the parsed value. The persona and storyline services repeat this at modules/persona/service.py:59-65 and modules/storyline/service.py:61-67. |
| LlmOutput.PlainTextKept | modules/script/service.py:74-80 | A reply without backticks that does not parse is kept as its trimmed text, a JSON string. |
| Metadata.PromptIsOrderedFormat | modules/metadata/service.py:33-35 | The prompt is `format_prompt` with `language` supplied before `storyline`. |
| Metadata.PromptShape | modules/metadata/service.py:33-35 | The storyline appears verbatim, even when it holds `{language}`. A `{storyline}` inside the language value is expanded. The JSON example's brace is untouched. |
| Metadata.PromptPlain | modules/metadata/service.py:33-35 | A language without `{storyline}` appears verbatim. |
| Metadata.GenerateMetadata | modules/metadata/service.py:28-47 | Tags are always empty. A failed call, an unparsable reply, a reply that is not an object, or a field that is not a string gives empty metadata. Otherwise the title and description come from the reply, with "" for an absent key. |
| Metadata.FencedReplyGivesFields | modules/metadata/service.py:36-44 | A fenced reply holding both keys as strings gives exactly those two strings. |
| Requests.CheckVoiceBody | routers/voice.py:13-31 | The pipeline is reached iff: the body is a non-empty object; `script` is a non-empty list; `language` is a known language name. Failures, first one wins: an empty body is 422; an absent or empty `script` is 400 "'script' is required", checked before the type check; a non-list `script` is 400; an absent `language` is 400 "'language' is required"; an unknown language is 400. |
| Requests.RequestVoiceGeneration | routers/voice.py:11-35 | A failed check answers before anything is touched. Otherwise the answer is the pipeline's compiled path, or a 500. |
| Requests.CheckScriptBody | routers/script.py:15-31 | Succeeds iff the body is a non-empty object and the outline, persona and language are all given. The checks run in that order and the first failure wins. |
| Requests.RequestScriptGeneration | modules/script/service.py:62-80 | A refused body gets the check's error. A language that is not a string is a 500: the prompt's `str.replace` (shared/utils.py:14) raises before the model is asked. A failed model call is a 500. Otherwise the reply, parsed when it parses and kept as text when not, is answered as `{"script": ...}`. |
| Requests.FencedScriptIsParsed | routers/script.py:14-35 | A valid body with a string language whose model reply is a fenced JSON block that parses is answered with `{"script": <the parsed block>}`. |
| Paging.GetPagination | shared/pagination.py:11-20 | `page` is parsed before `limit`, and a value that `int` refuses raises. It succeeds iff `int` reads both values, whatever their signs, surrounding whitespace or leading zeros. Parsed values pass through with no range check. `user_query` is present iff `q` is. |
| Paging.Defaults | shared/pagination.py:12-18 | No parameters give page 1, limit 10 and no search text. |
| Paging.RoundTrip | shared/pagination.py:11-20 | Any integers that `str` can write (at most 4300 digits), zero and negative ones included, come back unchanged. |
| Paging.LongPageIsRejected | shared/pagination.py:13 | A page of more than 4300 decimal digits raises, whatever its value. |
| Numerals.ParseIntRoundTrip | shared/pagination.py:13 | `int(str(i))` is `i` for every integer of at most 4300 digits. |
| Numerals.ParseRefusesLongDecimal | shared/pagination.py:13 | `int` refuses a decimal literal of more than 4300 digits, leading zeros included. |
| Numerals.ParseIgnoresSurroundingSpace | shared/pagination.py:13 | Surrounding whitespace never changes what `int` reads. |
| Uuids.ParseUuid | routers/story.py:116 | Succeeds iff the text left after prefixes, braces and hyphens has 32 characters that `int(_, 16)` reads as a value below 2^128. |
| Uuids.HexRoundTrip | routers/story.py:116 | `UUID(hex=u.hex)` is `u`. |
| Uuids.CanonicalRoundTrip | routers/story.py:116 | `UUID(hex=str(u))` is `u`, so the ids the service prints are accepted back. |
| Uuids.CanonicalInjective | routers/auth.py:60 | Distinct ids have distinct `str` forms, so a token's `sub` names one user. |
| Records.FindByEmail | routers/auth.py:21-24 | No result iff no row has the email. Otherwise the result is the first such row, deleted or not. |
| Stories.Owned | routers/story.py:86-93 | Every selected row is one of the caller's stories that is not deleted. |
| Stories.OwnedSelectsAll | routers/story.py:86-93 | Every story of the caller that is not deleted is selected. |
| Stories.Listing | routers/story.py:86-94 | The listing is a permutation of the selected rows, ordered by creation time. |
| Stories.ListingMembers | routers/story.py:86-94 | A story is in the listing iff it is one of the caller's stories and not deleted. |
| Stories.CeilDiv | routers/story.py:105 | The page count q is the fewest pages of `limit` rows that hold `count` rows: `count <= q*limit < count + limit`. |
| Stories.CeilDivIsQuotient | routers/story.py:105 | That page count equals the rounded-up quotient `(count + limit - 1) / limit`. |
| Stories.Window | routers/story.py:95-96 | OFFSET/LIMIT keep at most `limit` rows. Row k of the window is row `offset+k`, with the exact length at the end of the list. |
| Stories.ListStories | routers/story.py:67-106 | Succeeds iff page >= 1, limit >= 1, and both limit and `(page-1)*limit` fit the 32-bit parameters; otherwise it is a 500 (negative OFFSET/LIMIT, division by zero, or an out-of-range parameter). Page `page` is the OFFSET/LIMIT window at `(page-1)*limit` of the listing, so it holds at most `limit` of the caller's live stories, oldest first. `total_pages` covers exactly the matching stories. |
| Stories.PagesCoverListing | routers/story.py:95-105 | Story k of the listing is on page `k/limit+1` at position `k%limit`, and that page is within `total_pages`. Ties in creation time are broken in storage order on every request. |
| Stories.StoryOnItsPage | routers/story.py:95-105 | Story `page*limit + j` of the listing is at position j of page `page+1`, and that page is within `total_pages`. Ties in creation time are broken in storage order on every request. |
| Stories.PagesPastTheEnd | routers/story.py:95-105 | Pages past `total_pages` are empty. |
| Stories.FindOwned | routers/story.py:117-132 | No result iff no row has the id, belongs to the caller and is live. Otherwise the result is the first such row. |
| Stories.Overwrite | routers/story.py:137-144 | Title, description and image source are each replaced iff the payload gives a non-empty value. No other column changes. |
| Stories.OverwriteIdempotent | routers/story.py:137-144 | Applying the same payload twice is applying it once. |
| Stories.EmptyPayloadKeepsStory | routers/story.py:137-144 | A payload that gives nothing leaves the story as it was. |
| Stories.UpdateStory | routers/story.py:109-151 | An id that is not a UUID is a 500. An unknown, foreign or deleted story is 400 "invalid story id". Otherwise the found row is overwritten and every other row is kept. |
| Stories.UpdateStoryAsWritten | routers/story.py:146-149 | The table never changes. An unknown story is 400, anything else an error. |
| Stories.UpdateAsWrittenNeverUpdates | routers/story.py:146-149 | For every story the caller may edit, the intended update succeeds while the route as written fails with the missing `visibility` attribute and commits nothing. |
| Stories.SoftDeleteStory | routers/story.py:154-185 | An id that is not a UUID is a 500. An unknown, foreign or deleted story is 400. Otherwise only `deleted_at` of the found row is set, and the id is returned. |
| Stories.SoftDeleteLeavesListing | routers/story.py:176-181 | After a soft delete, the caller's listing is the old listing without the deleted story. |
| Stories.SecondDeleteRefused | routers/story.py:161-178 | Deleting the same story again is 400 "invalid story id". |
| AuthMiddleware.FindBySourceId | shared/auth_middleware.py:61-66 | No result iff no row has the external id. Otherwise the result is the first row that has it. |
| AuthMiddleware.VerifyUserId | shared/auth_middleware.py:60-77 | An unknown external id is 401 "invalid user credentails". A matched row gives its id, email and role. A null email fails validation with a 500. |
| AuthMiddleware.BearerScheme | shared/auth_middleware.py:47-50 | Undecodable base64 or UTF-8 is a 500. Otherwise the decoded text is looked up as the external id. |
| AuthMiddleware.BasicScheme | shared/auth_middleware.py:53-57 | Undecodable base64 is a 500, and so are decoded bytes that do not split on ":" into exactly two parts. Otherwise the first part is the id. |
| AuthMiddleware.GetCurrentUser | shared/auth_middleware.py:21-44 | An absent header is 422 and an empty one is 401 "missing authorization". Anything but two whitespace-separated words is a 500. The lower-cased scheme picks Bearer or Basic, and any other scheme is 401. Whoever is let in has a matching external id. |
| AuthMiddleware.SchemeIgnoresCase | shared/auth_middleware.py:31-35 | Two spellings of the scheme that agree up to case give the same answer. |
| AuthMiddleware.BearerLetsUserIn | shared/auth_middleware.py:47-50 | A Bearer credential, in any case of the scheme, that decodes to a user's external id lets exactly that user in. |
| AuthMiddleware.BasicIgnoresPassword | shared/auth_middleware.py:53-57 | Two Basic credentials with the same id and any passwords give the same answer. |
| AuthMiddleware.DeletedUsersStillAuthenticate | shared/auth_middleware.py:61-64 | Marking a user deleted does not change the lookup's answer. |
| AuthRoutes.ClaimsFor | shared/jwt_utils.py:27-31 | The corrected claims carry the subject, the email and an `exp` seven days after issue. The routes do not sign these (see Findings). |
| AuthRoutes.ClaimsAsWritten | shared/jwt_utils.py:30 | The claims as written carry subject and email but no `exp` claim. |
| AuthRoutes.VerifyToken | shared/jwt_utils.py:19-24 | A bad signature fails. A token without `exp` passes. With `exp`, it passes iff `int(exp)` succeeds and is after now: a number is truncated, a boolean is 0 or 1, text must be a decimal literal, anything else fails. |
| AuthRoutes.ExpAsText | shared/jwt_utils.py:19-24 | An `exp` holding the decimal text of a time passes iff that time is after now. |
| AuthRoutes.ExpAsBoolean | shared/jwt_utils.py:19-24 | A boolean `exp` is the time 0 or 1, so it fails at any later time. |
| AuthRoutes.FirstNameOfPlainText | routers/auth.py:30 | An email without "@" is its own first name. |
| AuthRoutes.FirstNameOfAddress | routers/auth.py:30 | The first name of `local@domain` is `local`. |
| AuthRoutes.Register | routers/auth.py:16-71 | 403 "email already exists" iff the email is on file, and then nothing changes. Otherwise, with free ids: one user row and one 30-day subscription are added, and the token signs the claims as written (no `exp`) for the new user. Errors never add a subscription. |
| AuthRoutes.RegisterKeepsEmailsUnique | routers/auth.py:21-38 | Registration keeps emails unique. |
| AuthRoutes.RegistrationSubscribes | routers/auth.py:50-56 | A successful registration adds exactly one "Early Adopter" subscription for the new user, expiring 30 days later. |
| AuthRoutes.Login | routers/auth.py:74-104 | 400 "invalid credentials" iff the email is unknown or the password is wrong. A found user whose stored hash accepts the password logs in, and the success issues a token with the claims as written for that user. A null hash, or one bcrypt cannot read, is a 500, and every other failure is a 500 too. |
| AuthRoutes.TokenOf | routers/auth.py:116 | The token taken from the header has no surrounding whitespace. |
| AuthRoutes.TokenOfBearer | routers/auth.py:116 | Removing "Bearer" and trimming recovers the token from `Bearer <token>`. |
| AuthRoutes.Verify | routers/auth.py:107-137 | An absent header is 422 and an empty one is 401 "missing authorization". An empty token is 401 "misformatted authorization header". Past those checks, the verified claims decide. |
| AuthRoutes.CheckClaims | routers/auth.py:122-137 | Missing or empty claims are 401 "invalid or expired token". A falsy `sub` is 401 "malformed token". Success (204) iff `sub` is UUID text naming a user on file. |
| AuthRoutes.IssuedTokenVerifies | routers/auth.py:122-137 | With the expiry corrected, an issued token verifies until its lifetime ends, for as long as the user's row exists. |
| AuthRoutes.IssuedTokenExpires | shared/jwt_utils.py:19-31 | With the expiry corrected, the same token is refused once seven days have passed. |
| AuthRoutes.AsWrittenTokenNeverExpires | shared/jwt_utils.py:27-31 | As written, a token still verifies a year after issue. |
| AuthRoutes.AsWrittenTokenVerifies | routers/auth.py:122-137 | As written, an issued token verifies at any time, for as long as the user's row exists. |
| AuthRoutes.RegisteredUserVerifies | routers/auth.py:58-63 | The token a registration returns verifies against the stores it leaves, then and at any later time. |
| AuthRoutes.LoginAfterRegister | routers/auth.py:74-104 | After a successful registration, logging in with the same email and password (when bcrypt accepts its own hash) finds the new user and issues its token. |
| AuthRoutes.RegistrationGrantsNoMiddlewareAccess | routers/auth.py:31-36 | A registered account has no external id, so registration changes no answer of the middleware's lookup. |
| ClerkWebhook.FirstWithId | routers/clerk_webhook.py:32-36 | No result iff no address entry has the primary id. Otherwise the result is the first entry that has it. |
| ClerkWebhook.PrimaryEmail | routers/clerk_webhook.py:31-37 | Found iff both keys are present, the addresses are a list whose entries all have an `id`, some entry has the primary id, and the first such entry has an `email_address`. The result is that entry's `email_address`. |
| ClerkWebhook.Where | routers/clerk_webhook.py:58-60 | The selected positions are exactly the rows the predicate keeps, in increasing order. |
| ClerkWebhook.UniqueEmailLookup | routers/clerk_webhook.py:58-60 | While emails are unique, looking up a non-null email finds at most one row, so `scalar_one_or_none` never raises. |
| ClerkWebhook.UpdateSucceedsUnderUniqueEmails | routers/clerk_webhook.py:48-67 | While emails are unique, an update event with a found, non-null primary email and storable fields always answers 200. |
| ClerkWebhook.HandleEvent | routers/clerk_webhook.py:16-83 | Not JSON, or no `type` or `data`, is a 500. The three event types dispatch to their handlers. Any other type changes nothing and answers 200. A failed event changes nothing. |
| ClerkWebhook.Created | routers/clerk_webhook.py:29-47 | Succeeds iff the primary email is found, every field is storable, the email is not on file and the new id is free. A success appends exactly one row built from the event. Every failure is a 500 with nothing changed. |
| ClerkWebhook.Updated | routers/clerk_webhook.py:48-67 | At most one row changes: the one whose email is the primary email, and only in its names and external id. No row with that email means 200 and no change. Exactly one such row, with storable fields, is relabelled. |
| ClerkWebhook.Deleted | routers/clerk_webhook.py:68-79 | A falsy `deleted` changes nothing. No row with the event's id as external id means 200 and no change. Exactly one such row, with a truthy `deleted`, gets `deleted_at` set to now; no other row changes. |
| ClerkWebhook.EventsKeepEmailsUnique | routers/clerk_webhook.py:16-83 | No event breaks the uniqueness of emails. |
| ClerkWebhook.CreatedUserAuthenticates | routers/clerk_webhook.py:38-47 | A user the provider created is let in by the middleware under the event's id, with the default role. |
| ClerkWebhook.DeletionIsSoft | routers/clerk_webhook.py:70-76 | A deletion event keeps every row. Each row is unchanged or only gets `deleted_at`. |
| Transactions.Reset | routers/transactions.py:27-52 | A caller who is not a superadmin gets 403 and nothing changes. A bad UUID is a 500. A user who already has a subscription gets "already exists" and nothing changes. Otherwise, when the user exists and the new id is free, exactly one "Early Adopter" subscription is added, expiring 120 days from now; an unknown user or a taken id is a 500. |
| Transactions.OnlySuperAdminWrites | routers/transactions.py:27-34 | Whatever the header, the store changes only for an authenticated superadmin, and then the answer is a success. |
| Transactions.ResetIdempotent | routers/transactions.py:37-42 | A second reset after a successful one answers "already exists" and changes nothing. |
| Transactions.ResetSubscribes | routers/transactions.py:44-52 | After a successful reset, the user has a subscription. |

## Left out

- The speech service, the chat models, the Discord hook, and the network calls: they are parameters of the model. `VoiceItems.Env.tts` is any reply or an exception per line.
- asyncio's tasks, locks and `asyncio.wait`: the pool is one loop with an arbitrary scheduler. The locks only serialise steps, and those steps are atomic in the loop anyway.
- `find_ffmpeg` and the ffmpeg child process: the located executable, the random manifest path and the process's exit code are parameters (`Ffmpeg.Tooling`).
- Glob pattern matching: the pattern is a predicate on file names. Glob's enumeration order is left open.
- bcrypt, the token library's signing, base64 and UTF-8 decoding: these are functions given as parameters. Of the token library only the `exp` check is written out. Its `iat` and `nbf` checks are inside the abstract `decode`.
- The database engine, the sessions, and the ORM's transactions: each route is a function from the tables to the reply and the tables. An exception means nothing is committed, except in registration, where the user row is committed before the subscription.
- Clock and ids: `datetime.now()`, `secrets.token_hex` and the database's `uuid4` defaults are parameters. The clock is whole seconds.
- Credits and the transaction ledger (modules/transaction/service.py): not part of this model. Credits are floating point.
- The storyline router and its concurrent orchestration, the persona and user routes, the public library listing, logging and the test scripts: not part of this model.
- Prompt texts of the script, persona and storyline services: opaque model input. Only their shared fence-strip line is modelled (`LlmOutput.ParsedOrText`).
- `visibility` in the story update: neither the story row nor the update payload declares it. The intended update is the three-field overwrite (see Findings).
- `Text.Lower`: ASCII only. Python's `str.lower` also folds non-ASCII letters, which only matters for a scheme that is not ASCII.
- Query strings: a parameter given twice is modelled by its last value only.
- `Stories.Listing`: rows with equal creation times keep their storage order, because the sort is stable. PostgreSQL promises no order for such ties, and not the same order for different LIMIT/OFFSET values.
- `Stories.PagesCoverListing`: assumes every page request orders tied creation times the same way, the model's storage order. With ties, PostgreSQL may show a story on two pages or on none.
- `Stories.StoryOnItsPage`: the same assumption of one tie order shared by every page request.
- `Stories.ListStories`: `math.ceil(count / limit)` goes through a float. The model uses exact ceiling division, which agrees below 2^53 stories.
- `Common.Truthy` and JSON equality: Python's `1 == True` cross-type equality is not modelled. A JSON number and a JSON boolean never compare equal.
- `Numerals.ParseInt`: only ASCII digits are read. Python's `int` also accepts other Unicode decimal digits (for example Arabic-Indic ones), which the model refuses.
- `Paging.GetPagination`: a parameter written with non-ASCII decimal digits is refused, where Python's `int` would read it.
- `Uuids.ParseUuid`: `int(_, 16)` is modelled on ASCII digits only; text with other Unicode decimal digits is refused.
- `Ffmpeg.RunConcat`: the manifest in the temporary directory is taken to be writable. ffmpeg's own failures are its exit code.
- `AuthRoutes.VerifyToken`: a JSON `Infinity` or `NaN` in `exp` is not modelled, as claims hold exact numbers.
- `Uuids.ParseUuid`: the database's parsing of a UUID text in a query parameter (`verify_auth`) is approximated by `uuid.UUID(hex=...)`.
- `AuthRoutes.Login`: accounts made by the identity provider have the empty password hash. bcrypt rejects that as an invalid salt, a 500, which the model expresses through `checkpw` returning `None`.

## Findings

| source | as written | input that shows it | evidently intended | confidence | as-written member | corrected member |
|---|---|---|---|---|---|---|
| routers/story.py:146-147 | The update reads `payload.visibility`, but the update payload declares no such field. The handler raises before the commit. | Any update of a story the caller owns, e.g. `{"title": "new"}` | Overwrite the given fields and commit | not executed | Stories.UpdateAsWrittenNeverUpdates | Stories.UpdateStory |
| shared/ffmpeg.py:57 | Manifest lines are `file '<path>'` with the path unescaped. ffmpeg's concat demuxer reads `'` as the end of the quote. | An input at `/tmp/a'b.wav` is read back as `/tmp/ab.wav` | Escape each `'` as `'\''` so every path reads back exactly | not executed | Ffmpeg.UnescapedQuoteIsMisread | Ffmpeg.ManifestRoundTrip |
| shared/jwt_utils.py:30 | The expiry is stored under `ex`. The token library only checks `exp`, so issued tokens never expire. | A token issued now still verifies 365 days later | Store the expiry as `exp`, so tokens are refused after seven days | not executed | AuthRoutes.AsWrittenTokenNeverExpires | AuthRoutes.IssuedTokenExpires |

=== FILE: auth_middleware.dfy ===
/** `get_current_user` and its two schemes (shared/auth_middleware.py): the
    Authorization header is split into a scheme and a credential; the scheme
    is compared without regard to case (section 2.1 of RFC 7235); both
    schemes carry the user's external id base64-encoded (section 4 of RFC
    4648), Basic as `user-id ":" password` (section 2 of RFC 7617) with the
    password ignored; the id is looked up among the users' `source_id`s. */
module AuthMiddleware {
  import opened Common
  import opened Records
  import Text
  import Numerals

  datatype AuthUser = AuthUser(uid: Uuid, email: string, role: string)

  /** `base64.b64decode` and `bytes.decode()` (UTF-8); `None` when they raise. */
  datatype Codecs = Codecs(b64decode: string -> Option<Bytes>, utf8: Bytes -> Option<string>)

  const Colon: byte := 58

  const MissingAuthorization: HttpError := HttpError(Unauthorized, "missing authorization")
  const UnsupportedScheme: HttpError := HttpError(Unauthorized, "unsupported authentication scheme")
  const InvalidCredentials: HttpError := HttpError(Unauthorized, "invalid user credentails")

  /** `a` is the account of some row that has an external id. */
  ghost predicate LetIn(users: seq<User>, a: AuthUser)
  {
    exists i :: 0 <= i < |users| && users[i].sourceId.Some? && users[i].email.Some?
                && a == AuthUser(users[i].id, users[i].email.value, users[i].role)
  }

  /** The first user whose `source_id` is the given text (`... LIMIT 1`); a
      null `source_id` matches nothing. */
  function FindBySourceId(users: seq<User>, id: string): (r: Option<nat>)
    ensures r.None? <==> forall i :: 0 <= i < |users| ==> users[i].sourceId != Some(id)
    ensures r.Some? ==> r.value < |users| && users[r.value].sourceId == Some(id)
    ensures r.Some? ==> forall i :: 0 <= i < r.value ==> users[i].sourceId != Some(id)
  {
    if |users| == 0 then None
    else if users[0].sourceId == Some(id) then Some(0)
    else match FindBySourceId(users[1..], id)
      case None => None
      case Some(i) => Some(i + 1)
  }

  /** `verify_user_id`: the matched row's id, email and role. A row whose
      email is null fails `AuthUser` validation, which is a 500. */
  function VerifyUserId(users: seq<User>, id: string): (r: Result<AuthUser, HttpError>)
    ensures FindBySourceId(users, id).None? ==> r == Err(InvalidCredentials)
    ensures FindBySourceId(users, id).Some? ==>
              var u := users[FindBySourceId(users, id).value];
              && (u.email.Some? ==> r == Ok(AuthUser(u.id, u.email.value, u.role)))
              && (u.email.None? ==> r.Err? && r.error.status == InternalError)
    ensures r.Ok? ==> LetIn(users, r.value)
  {
    match FindBySourceId(users, id)
    case None => Err(InvalidCredentials)
    case Some(i) =>
      match users[i].email
      case None => Err(Crash("validation error for AuthUser: email"))
      case Some(e) => Ok(AuthUser(users[i].id, e, users[i].role))
  }

  /** A row without an external id appended to the table is never found. */
  lemma {:induction false} FindSkipsUnlinked(users: seq<User>, u: User, id: string)
    requires u.sourceId.None?
    ensures FindBySourceId(users + [u], id) == FindBySourceId(users, id)
    decreases |users|
  {
    if |users| > 0 {
      assert (users + [u])[1..] == users[1..] + [u];
      FindSkipsUnlinked(users[1..], u, id);
    }
  }

  /** So the middleware's lookup is unchanged by such a row. */
  lemma VerifySkipsUnlinked(users: seq<User>, u: User, id: string)
    requires u.sourceId.None?
    ensures VerifyUserId(users + [u], id) == VerifyUserId(users, id)
  {
    FindSkipsUnlinked(users, u, id);
    match FindBySourceId(users, id)
    case None =>
    case Some(i) => assert (users + [u])[i] == users[i];
  }

  /** `bearer_scheme`: the credential is the base64 of the user id. */
  function BearerScheme(users: seq<User>, token: string, codecs: Codecs): (r: Result<AuthUser, HttpError>)
    ensures codecs.b64decode(token).None? ==> r.Err? && r.error.status == InternalError
    ensures codecs.b64decode(token).Some? && codecs.utf8(codecs.b64decode(token).value).None? ==>
              r.Err? && r.error.status == InternalError
    ensures codecs.b64decode(token).Some? && codecs.utf8(codecs.b64decode(token).value).Some? ==>
              r == VerifyUserId(users, codecs.utf8(codecs.b64decode(token).value).value)
    ensures r.Ok? ==> LetIn(users, r.value)
  {
    match codecs.b64decode(token)
    case None => Err(Crash("binascii.Error: invalid base64"))
    case Some(bytes) =>
      match codecs.utf8(bytes)
      case None => Err(Crash("UnicodeDecodeError"))
      case Some(id) => VerifyUserId(users, id)
  }

  /** `basic_scheme`: the decoded bytes must split on ":" into exactly two
      parts; the first is the user id and the second is never looked at. */
  function BasicScheme(users: seq<User>, token: string, codecs: Codecs): (r: Result<AuthUser, HttpError>)
    ensures codecs.b64decode(token).None? ==> r.Err? && r.error.status == InternalError
    ensures codecs.b64decode(token).Some? ==>
              var parts := Text.SplitOn(codecs.b64decode(token).value, [Colon]);
              && (|parts| != 2 ==> r.Err? && r.error.status == InternalError)
              && (|parts| == 2 && codecs.utf8(parts[0]).None? ==> r.Err? && r.error.status == InternalError)
              && (|parts| == 2 && codecs.utf8(parts[0]).Some? ==> r == VerifyUserId(users, codecs.utf8(parts[0]).value))
    ensures r.Ok? ==> LetIn(users, r.value)
  {
    match codecs.b64decode(token)
    case None => Err(Crash("binascii.Error: invalid base64"))
    case Some(bytes) =>
      var parts := Text.SplitOn(bytes, [Colon]);
      if |parts| != 2 then Err(Crash(UnpackMessage(|parts|)))
      else match codecs.utf8(parts[0])
        case None => Err(Crash("UnicodeDecodeError"))
        case Some(id) => VerifyUserId(users, id)
  }

  /** The `ValueError` text of unpacking into two names. */
  function UnpackMessage(n: nat): string
  {
    if n < 2 then "not enough values to unpack (expected 2, got " + Numerals.IntToText(n) + ")"
    else "too many values to unpack (expected 2)"
  }

  /** `get_current_user`. `None` is a request without the header, which the
      framework rejects before the handler runs. */
  function GetCurrentUser(header: Option<string>, users: seq<User>, codecs: Codecs): (r: Result<AuthUser, HttpError>)
    ensures header.None? ==> r.Err? && r.error.status == Unprocessable
    ensures header == Some("") ==> r == Err(MissingAuthorization)
    // anything but exactly two whitespace-separated parts is a 500
    ensures header.Some? && header.value != "" && |Text.Words(header.value)| != 2 ==>
              r.Err? && r.error.status == InternalError
    ensures header.Some? && header.value != "" && |Text.Words(header.value)| == 2 ==>
              var scheme := Text.Lower(Text.Words(header.value)[0]);
              var credentials := Text.Words(header.value)[1];
              && (scheme == "bearer" ==> r == BearerScheme(users, credentials, codecs))
              && (scheme == "basic" ==> r == BasicScheme(users, credentials, codecs))
              && (scheme != "bearer" && scheme != "basic" ==> r == Err(UnsupportedScheme))
    // whoever is let in has a matching external id
    ensures r.Ok? ==> LetIn(users, r.value)
  {
    match header
    case None => Err(HttpError(Unprocessable, "Field required"))
    case Some(h) =>
      if h == "" then Err(MissingAuthorization)
      else
        var words := Text.Words(h);
        if |words| != 2 then Err(Crash(UnpackMessage(|words|)))
        else
          var scheme := Text.Lower(words[0]);
          if scheme == "bearer" then BearerScheme(users, words[1], codecs)
          else if scheme == "basic" then BasicScheme(users, words[1], codecs)
          else Err(UnsupportedScheme)
  }

  predicate NoSpaces(s: string)
  {
    forall k :: 0 <= k < |s| ==> !Text.IsSpace(s[k])
  }

  /** The scheme is matched without regard to case: two spellings that agree
      up to case give the same answer. */
  lemma SchemeIgnoresCase(s1: string, s2: string, credentials: string, users: seq<User>, codecs: Codecs)
    requires s1 != [] && NoSpaces(s1) && s2 != [] && NoSpaces(s2)
    requires credentials != [] && NoSpaces(credentials)
    requires Text.SameIgnoringCase(s1, s2)
    ensures GetCurrentUser(Some(s1 + " " + credentials), users, codecs)
         == GetCurrentUser(Some(s2 + " " + credentials), users, codecs)
  {
    Text.TwoWords(s1, " ", credentials);
    Text.TwoWords(s2, " ", credentials);
    assert Text.Lower(s1) == Text.Lower(s2);
  }

  /** A `Bearer` credential that decodes to a user's external id lets that
      user in, whatever the case of the scheme. */
  lemma BearerLetsUserIn(scheme: string, token: string, users: seq<User>, codecs: Codecs, i: nat)
    requires Text.SameIgnoringCase(scheme, "bearer")
    requires token != [] && NoSpaces(token)
    requires i < |users| && users[i].sourceId.Some? && users[i].email.Some?
    requires forall j :: 0 <= j < i ==> users[j].sourceId != users[i].sourceId
    requires codecs.b64decode(token).Some? && codecs.utf8(codecs.b64decode(token).value) == users[i].sourceId
    ensures GetCurrentUser(Some(scheme + " " + token), users, codecs)
         == Ok(AuthUser(users[i].id, users[i].email.value, users[i].role))
  {
    BearerHeaderSplits(scheme, token);
    BearerFindsUser(token, users, codecs, i);
  }

  /** A header whose scheme spells `bearer` in any case splits into that
      scheme, recognised, and the token. */
  lemma BearerHeaderSplits(scheme: string, token: string)
    requires Text.SameIgnoringCase(scheme, "bearer")
    requires token != [] && NoSpaces(token)
    ensures Text.Words(scheme + " " + token) == [scheme, token]
    ensures Text.Lower(scheme) == "bearer"
  {
    assert NoSpaces(scheme) by {
      forall k | 0 <= k < |scheme| ensures !Text.IsSpace(scheme[k]) {
        assert Text.LowerChar(scheme[k]) == Text.LowerChar("bearer"[k]);
      }
    }
    Text.TwoWords(scheme, " ", token);
    Text.LowerMatchesIgnoringCase(scheme, "bearer");
  }

  /** A token that decodes to the first row with that external id names
      that row's user. */
  lemma BearerFindsUser(token: string, users: seq<User>, codecs: Codecs, i: nat)
    requires i < |users| && users[i].sourceId.Some? && users[i].email.Some?
    requires forall j :: 0 <= j < i ==> users[j].sourceId != users[i].sourceId
    requires codecs.b64decode(token).Some? && codecs.utf8(codecs.b64decode(token).value) == users[i].sourceId
    ensures BearerScheme(users, token, codecs) == Ok(AuthUser(users[i].id, users[i].email.value, users[i].role))
  {
    assert FindBySourceId(users, users[i].sourceId.value) == Some(i);
  }

  /** With Basic, the password part is ignored: two credentials that decode
      to the same id and any passwords give the same answer. */
  lemma BasicIgnoresPassword(id: Bytes, p1: Bytes, p2: Bytes, t1: string, t2: string,
                             users: seq<User>, codecs: Codecs)
    requires Colon !in id && Colon !in p1 && Colon !in p2
    requires codecs.b64decode(t1) == Some(id + [Colon] + p1)
    requires codecs.b64decode(t2) == Some(id + [Colon] + p2)
    ensures BasicScheme(users, t1, codecs) == BasicScheme(users, t2, codecs)
  {
    Text.SplitAround(id, Colon, p1);
    Text.SplitAround(id, Colon, p2);
  }

  /** The lookup ignores `deleted_at`: marking a user deleted does not lock
      them out. */
  lemma DeletedUsersStillAuthenticate(users: seq<User>, i: nat, when: Time, id: string)
    requires i < |users|
    ensures VerifyUserId(users[i := users[i].(deletedAt := Some(when))], id) == VerifyUserId(users, id)
  {
    var after := users[i := users[i].(deletedAt := Some(when))];
    assert FindBySourceId(after, id) == FindBySourceId(users, id) by {
      assert forall j :: 0 <= j < |users| ==> after[j].sourceId == users[j].sourceId;
      SameIdsSameMatch(users, after, id);
    }
    match FindBySourceId(users, id)
    case None =>
    case Some(k) =>
      assert after[k].email == users[k].email && after[k].id == users[k].id && after[k].role == users[k].role;
  }

  /** The lookup depends on the `source_id` column alone. */
  lemma {:induction false} SameIdsSameMatch(users: seq<User>, other: seq<User>, id: string)
    requires |other| == |users|
    requires forall j :: 0 <= j < |users| ==> other[j].sourceId == users[j].sourceId
    ensures FindBySourceId(other, id) == FindBySourceId(users, id)
    decreases |users|
  {
    if |users| > 0 {
      assert forall j :: 0 <= j < |users| - 1 ==> other[1..][j].sourceId == users[1..][j].sourceId by {
        forall j | 0 <= j < |users| - 1 ensures other[1..][j].sourceId == users[1..][j].sourceId {
          assert other[1..][j] == other[j + 1] && users[1..][j] == users[j + 1];
        }
      }
      SameIdsSameMatch(users[1..], other[1..], id);
    }
  }
}

=== FILE: auth_routes.dfy ===
/** The account routes of routers/auth.py and the token helpers of
    shared/jwt_utils.py: registration, login, and checking a bearer token.
    Password hashing and the token's signature are parameters. Of the claim
    checks the token library makes, the expiry time of section 4.1.4 of
    RFC 7519 is written out, because the issued claims decide it; the
    `iat` and `nbf` checks stay inside the abstract decoding. */
module AuthRoutes {
  import opened Common
  import opened Records
  import Text
  import Uuids
  import Numerals
  import AuthMiddleware

  /** The claims of a token, a JSON object. */
  type Claims = map<string, Json>

  /** bcrypt and the signing half of the token library. `checkpw` is `None`
      when bcrypt raises (a stored hash that is not a bcrypt hash); `decode`
      is `None` when the signature or the encoding is bad. */
  datatype Crypto = Crypto(
    hashpw: string -> string,
    checkpw: (string, string) -> Option<bool>,
    encode: Claims -> string,
    decode: string -> Option<Claims>)

  /** What the register and login routes return: a token and the user. */
  datatype Session = Session(token: string, uid: Uuid, email: string)

  const TokenLifetime: int := 7 * Day
  const NoContent := 204

  const EmailExists: HttpError := HttpError(Forbidden, "email already exists")
  const InvalidLogin: HttpError := HttpError(BadRequest, "invalid credentials")
  const MissingAuthorization: HttpError := HttpError(Unauthorized, "missing authorization")
  const Misformatted: HttpError := HttpError(Unauthorized, "misformatted authorization header")
  const BadToken: HttpError := HttpError(Unauthorized, "invalid or expired token")
  const MalformedToken: HttpError := HttpError(Unauthorized, "malformed token")
  const UnknownUser: HttpError := HttpError(Unauthorized, "Unauthorized")

  // ---------------------------------------------------------------------------
  // Tokens

  /** The claims `generate_token` is meant to sign: the expiry under the
      name `exp` that the token library checks. The routes sign
      `ClaimsAsWritten` instead. */
  function ClaimsFor(sub: string, email: string, now: Time): (c: Claims)
    ensures Get(c, "sub") == JStr(sub) && Get(c, "email") == JStr(email)
    ensures Get(c, "exp") == JNum((now + TokenLifetime) as real)
  {
    map["sub" := JStr(sub), "email" := JStr(email),
        "iat" := JNum(now as real), "exp" := JNum((now + TokenLifetime) as real)]
  }

  /** The claims as the source writes them: the expiry goes under `ex`,
      which no library reads. */
  function ClaimsAsWritten(sub: string, email: string, now: Time): (c: Claims)
    ensures "exp" !in c
    ensures Get(c, "sub") == JStr(sub) && Get(c, "email") == JStr(email)
  {
    map["sub" := JStr(sub), "email" := JStr(email),
        "iat" := JNum(now as real), "ex" := JNum((now + TokenLifetime) as real)]
  }

  /** Python's `int(x)`: truncation toward zero. */
  function Truncate(x: real): (n: int)
    ensures x >= 0.0 ==> n as real <= x < n as real + 1.0
    ensures x < 0.0 ==> n as real - 1.0 < x <= n as real
  {
    if x >= 0.0 then x.Floor else -((-x).Floor)
  }

  /** `int(v)` on a decoded claim, as the token library applies it to `exp`:
      a number is truncated, a boolean is 0 or 1, text is read as a decimal
      literal, and anything else raises (`None`). */
  function ClaimInt(v: Json): Option<int>
  {
    match v
    case JNum(x) => Some(Truncate(x))
    case JBool(b) => Some(if b then 1 else 0)
    case JStr(s) => Numerals.ParseInt(s, 10)
    case _ => None
  }

  /** `verify_token`: the signature is checked and then, when there is an
      `exp` claim, `int(exp)` must succeed and lie in the future. Every
      exception is caught and gives `None`. */
  function VerifyToken(token: string, now: Time, crypto: Crypto): (r: Option<Claims>)
    ensures crypto.decode(token).None? ==> r.None?
    ensures r.Some? ==> crypto.decode(token) == r
    ensures crypto.decode(token).Some? && "exp" !in crypto.decode(token).value ==> r == crypto.decode(token)
    ensures crypto.decode(token).Some? && "exp" in crypto.decode(token).value ==>
              (r.Some? <==> ClaimInt(crypto.decode(token).value["exp"]).Some?
                            && ClaimInt(crypto.decode(token).value["exp"]).value > now)
  {
    match crypto.decode(token)
    case None => None
    case Some(c) =>
      if "exp" !in c then Some(c)
      else match ClaimInt(c["exp"])
        case Some(exp) => if exp <= now then None else Some(c)
        case None => None
  }

  /** An `exp` claim holding the decimal text of a future time is accepted,
      and one holding the text of a past time is refused, as a number would
      be; text that is not an integer literal is refused. */
  lemma ExpAsText(token: string, now: Time, crypto: Crypto, exp: int)
    requires crypto.decode(token).Some? && Numerals.Printable(exp)
    requires Get(crypto.decode(token).value, "exp") == JStr(Numerals.IntToText(exp))
    ensures VerifyToken(token, now, crypto).Some? <==> exp > now
  {
    Numerals.ParseIntRoundTrip(exp);
  }

  /** A boolean `exp` is the time 0 or 1, long past. */
  lemma ExpAsBoolean(token: string, now: Time, crypto: Crypto, b: bool)
    requires crypto.decode(token).Some? && Get(crypto.decode(token).value, "exp") == JBool(b)
    requires now >= 1
    ensures VerifyToken(token, now, crypto).None?
  {
  }

  // ---------------------------------------------------------------------------
  // POST /auth/register

  /** `email.split("@")[0]`. */
  function FirstName(email: string): string
  {
    Text.SplitOn(email, "@")[0]
  }

  lemma FirstNameOfPlainText(email: string)
    requires '@' !in email
    ensures FirstName(email) == email
  {
    Text.SplitNone(email, '@');
  }

  lemma FirstNameOfAddress(local: string, domain: string)
    requires '@' !in local
    ensures FirstName(local + "@" + domain) == local
  {
    Text.SplitFirstPart(local, '@', domain);
  }

  /** `register_new_user`. The new rows' ids come from the database's
      `uuid4` defaults and are parameters here; an id that is already taken
      fails the insert. The user row is committed before the subscription
      is added, so a failing subscription insert leaves the user behind. */
  function Register(store: Store, email: string, password: string, userId: Uuid, subId: Uuid,
                    now: Time, crypto: Crypto): (out: (Result<Session, HttpError>, Store))
    // an address already on file, deleted or not, is refused and nothing changes
    ensures FindByEmail(store.users, Some(email)).Some? <==> out.0 == Err(EmailExists)
    ensures out.0 == Err(EmailExists) ==> out.1 == store
    ensures FindByEmail(store.users, Some(email)).None? && !UserIdTaken(store.users, userId)
            && !SubscriptionIdTaken(store.subscriptions, subId) ==>
              && out.0 == Ok(Session(crypto.encode(ClaimsAsWritten(Uuids.CanonicalText(userId), email, now)), userId, email))
              && out.1.users == store.users + [NewUser(userId, email, crypto.hashpw(password), now)]
              && out.1.subscriptions == store.subscriptions + [NewSubscription(subId, userId, now, 30)]
    ensures out.0.Err? ==> out.0.error == EmailExists || out.0.error.status == InternalError
    ensures out.0.Err? ==> out.1.subscriptions == store.subscriptions
  {
    if FindByEmail(store.users, Some(email)).Some? then (Err(EmailExists), store)
    else if UserIdTaken(store.users, userId) then (Err(Crash("IntegrityError: users_pkey")), store)
    else
      var users := store.users + [NewUser(userId, email, crypto.hashpw(password), now)];
      assert users[|store.users|].email == Some(email);
      match FindByEmail(users, Some(email))
      case None => (Err(Crash("failed to retrieve created user information")), Store(users, store.subscriptions))
      case Some(i) =>
        var uid := users[i].id;
        if SubscriptionIdTaken(store.subscriptions, subId) then
          (Err(Crash("IntegrityError: subscriptions_pkey")), Store(users, store.subscriptions))
        else
          var subscriptions := store.subscriptions + [NewSubscription(subId, uid, now, 30)];
          var token := crypto.encode(ClaimsAsWritten(Uuids.CanonicalText(uid), email, now));
          (Ok(Session(token, uid, email)), Store(users, subscriptions))
  }

  /** The row a registration inserts. */
  function NewUser(id: Uuid, email: string, hash: string, now: Time): (u: User)
  {
    User(id, Some(FirstName(email)), Some(""), Some(email), Some(hash), None, None, DefaultRole, now, None)
  }

  /** Registration keeps the emails unique. */
  lemma RegisterKeepsEmailsUnique(store: Store, email: string, password: string, userId: Uuid, subId: Uuid,
                                  now: Time, crypto: Crypto)
    requires UniqueEmails(store.users)
    ensures UniqueEmails(Register(store, email, password, userId, subId, now, crypto).1.users)
  {
    var users := Register(store, email, password, userId, subId, now, crypto).1.users;
    if users != store.users {
      var u := NewUser(userId, email, crypto.hashpw(password), now);
      assert users == store.users + [u];
      AppendKeepsEmailsUnique(store.users, u);
    }
  }

  /** Each registration gives its user one "Early Adopter" subscription
      that runs for thirty days. */
  lemma RegistrationSubscribes(store: Store, email: string, password: string, userId: Uuid, subId: Uuid,
                               now: Time, crypto: Crypto)
    requires Register(store, email, password, userId, subId, now, crypto).0.Ok?
    ensures var after := Register(store, email, password, userId, subId, now, crypto).1;
            && |after.subscriptions| == |store.subscriptions| + 1
            && after.subscriptions[|store.subscriptions|].userId == Some(userId)
            && after.subscriptions[|store.subscriptions|].displayName == Some(EarlyAdopter)
            && after.subscriptions[|store.subscriptions|].expiresAt == Some(now + 30 * Day)
  {
  }

  // ---------------------------------------------------------------------------
  // POST /auth/login

  /** `login_user`. */
  function Login(store: Store, email: string, password: string, now: Time, crypto: Crypto): (r: Result<Session, HttpError>)
    // an unknown address and a wrong password are indistinguishable
    ensures r == Err(InvalidLogin) <==>
              || FindByEmail(store.users, Some(email)).None?
              || (var u := store.users[FindByEmail(store.users, Some(email)).value];
                  u.passwordHash.Some? && crypto.checkpw(password, u.passwordHash.value) == Some(false))
    ensures r.Ok? ==>
              var i := FindByEmail(store.users, Some(email)).value;
              && store.users[i].passwordHash.Some?
              && crypto.checkpw(password, store.users[i].passwordHash.value) == Some(true)
              && r.value == Session(crypto.encode(ClaimsAsWritten(Uuids.CanonicalText(store.users[i].id), email, now)),
                                    store.users[i].id, email)
    ensures r.Err? ==> r.error == InvalidLogin || r.error.status == InternalError
    // a found user whose stored hash accepts the password logs in
    ensures FindByEmail(store.users, Some(email)).Some? ==>
              var u := store.users[FindByEmail(store.users, Some(email)).value];
              u.passwordHash.Some? && crypto.checkpw(password, u.passwordHash.value) == Some(true) ==> r.Ok?
    // a null hash, or a hash bcrypt cannot read, is a 500
    ensures FindByEmail(store.users, Some(email)).Some? ==>
              var u := store.users[FindByEmail(store.users, Some(email)).value];
              u.passwordHash.None? || crypto.checkpw(password, u.passwordHash.value).None? ==>
                r.Err? && r.error.status == InternalError
  {
    match FindByEmail(store.users, Some(email))
    case None => Err(InvalidLogin)
    case Some(i) =>
      var u := store.users[i];
      match u.passwordHash
      case None => Err(Crash("AttributeError: 'NoneType' object has no attribute 'encode'"))
      case Some(hash) =>
        match crypto.checkpw(password, hash)
        case None => Err(Crash("ValueError: Invalid salt"))
        case Some(false) => Err(InvalidLogin)
        case Some(true) =>
          // `str(user_email)`: the row was found by this very email
          var token := crypto.encode(ClaimsAsWritten(Uuids.CanonicalText(u.id), email, now));
          Ok(Session(token, u.id, email))
  }

  // ---------------------------------------------------------------------------
  // GET /auth/verify

  /** The token `verify_auth` takes out of the header: every "Bearer"
      removed, then the surrounding whitespace. */
  function TokenOf(header: string): (t: string)
    ensures t == [] || (!Text.IsSpace(t[0]) && !Text.IsSpace(t[|t| - 1]))
  {
    Text.TrimEnds(Text.ReplaceAll(header, "Bearer", ""));
    Text.Trim(Text.ReplaceAll(header, "Bearer", ""))
  }

  /** `verify_auth`; `Ok(204)` is the empty success response. */
  function Verify(header: Option<string>, store: Store, now: Time, crypto: Crypto): (r: Result<int, HttpError>)
    ensures header.None? ==> r.Err? && r.error.status == Unprocessable
    ensures header == Some("") ==> r == Err(MissingAuthorization)
    ensures header.Some? && header.value != "" && TokenOf(header.value) == "" ==> r == Err(Misformatted)
    // past the header checks, the claims of a valid, unexpired token decide
    ensures header.Some? && header.value != "" && TokenOf(header.value) != "" ==>
              r == CheckClaims(VerifyToken(TokenOf(header.value), now, crypto), store)
    ensures r.Err? ==> r.error.status in {Unauthorized, Unprocessable, InternalError}
  {
    match header
    case None => Err(HttpError(Unprocessable, "Field required"))
    case Some(h) =>
      if h == "" then Err(MissingAuthorization)
      else
        var token := TokenOf(h);
        if token == "" then Err(Misformatted)
        else CheckClaims(VerifyToken(token, now, crypto), store)
  }

  /** The checks on the verified claims. The `sub` claim is compared with
      the UUID primary key, so a value that is not UUID text fails in the
      database. */
  function CheckClaims(claims: Option<Claims>, store: Store): (r: Result<int, HttpError>)
    ensures claims.None? || claims == Some(map[]) ==> r == Err(BadToken)
    ensures claims.Some? && claims != Some(map[]) && !Truthy(Get(claims.value, "sub")) ==> r == Err(MalformedToken)
    // success means the token names a user on file, deleted or not
    ensures r.Ok? <==>
              && claims.Some?
              && Get(claims.value, "sub").JStr?
              && Uuids.ParseUuid(Get(claims.value, "sub").s).Some?
              && UserIdTaken(store.users, Uuids.ParseUuid(Get(claims.value, "sub").s).value)
    ensures r.Ok? ==> r.value == NoContent
    ensures r.Err? ==> r.error.status in {Unauthorized, InternalError}
  {
    match claims
    case None => Err(BadToken)
    case Some(c) =>
      if c == map[] then Err(BadToken)
      else
        var sub := Get(c, "sub");
        if !Truthy(sub) then Err(MalformedToken)
        else if !sub.JStr? then Err(Crash("DBAPIError: invalid input for query argument"))
        else match Uuids.ParseUuid(sub.s)
          case None => Err(Crash("DBAPIError: invalid UUID"))
          case Some(id) =>
            if UserIdTaken(store.users, id) then Ok(NoContent) else Err(UnknownUser)
  }

  /** A token with no "Bearer" in it and no surrounding whitespace comes
      back out of `Bearer <token>`. */
  lemma TokenOfBearer(token: string)
    requires token != [] && !Text.IsSpace(token[0]) && !Text.IsSpace(token[|token| - 1])
    requires !Text.Occurs(token, "Bearer")
    ensures TokenOf("Bearer " + token) == token
  {
    assert "Bearer " + token == "Bearer" + (" " + token);
    Text.ReplaceLeading(" " + token, "Bearer", "");
    Text.ReplaceSkipsPrefix(" ", token, "Bearer", "");
    Text.ReplaceAbsent(token, "Bearer", "");
    assert Text.ReplaceAll("Bearer " + token, "Bearer", "") == " " + token;
    Text.StripFindsCore(" ", token, [], Text.IsSpace);
    assert " " + token + [] == " " + token;
  }

  /** The token the service issues names the user, so it passes
      verification until it expires, for as long as the user's row exists,
      deleted or not. */
  lemma IssuedTokenVerifies(store: Store, uid: Uuid, email: string, issued: Time, now: Time, crypto: Crypto)
    requires UserIdTaken(store.users, uid)
    requires var t := crypto.encode(ClaimsFor(Uuids.CanonicalText(uid), email, issued));
             && crypto.decode(t) == Some(ClaimsFor(Uuids.CanonicalText(uid), email, issued))
             && t != [] && !Text.IsSpace(t[0]) && !Text.IsSpace(t[|t| - 1]) && !Text.Occurs(t, "Bearer")
    requires issued <= now < issued + TokenLifetime
    ensures Verify(Some("Bearer " + crypto.encode(ClaimsFor(Uuids.CanonicalText(uid), email, issued))), store, now, crypto)
         == Ok(NoContent)
  {
    var c := ClaimsFor(Uuids.CanonicalText(uid), email, issued);
    var t := crypto.encode(c);
    assert TokenOf("Bearer " + t) == t by { TokenOfBearer(t); }
    assert VerifyToken(t, now, crypto) == Some(c) by {
      assert Truncate((issued + TokenLifetime) as real) == issued + TokenLifetime;
    }
    assert CheckClaims(Some(c), store) == Ok(NoContent) by {
      Uuids.CanonicalRoundTrip(uid);
      assert Get(c, "sub") == JStr(Uuids.CanonicalText(uid));
    }
  }

  /** Once the lifetime has passed the same token is refused. */
  lemma IssuedTokenExpires(store: Store, uid: Uuid, email: string, issued: Time, now: Time, crypto: Crypto)
    requires var t := crypto.encode(ClaimsFor(Uuids.CanonicalText(uid), email, issued));
             && crypto.decode(t) == Some(ClaimsFor(Uuids.CanonicalText(uid), email, issued))
             && t != [] && !Text.IsSpace(t[0]) && !Text.IsSpace(t[|t| - 1]) && !Text.Occurs(t, "Bearer")
    requires now >= issued + TokenLifetime
    ensures Verify(Some("Bearer " + crypto.encode(ClaimsFor(Uuids.CanonicalText(uid), email, issued))), store, now, crypto)
         == Err(BadToken)
  {
    var t := crypto.encode(ClaimsFor(Uuids.CanonicalText(uid), email, issued));
    IssuedClaimsExpire(Uuids.CanonicalText(uid), email, issued, now, crypto);
    RefusedTokenFails(t, store, now, crypto);
  }

  /** A bearer token that `verify_token` refuses is a 401. */
  lemma RefusedTokenFails(token: string, store: Store, now: Time, crypto: Crypto)
    requires token != [] && !Text.IsSpace(token[0]) && !Text.IsSpace(token[|token| - 1])
    requires !Text.Occurs(token, "Bearer")
    requires VerifyToken(token, now, crypto).None?
    ensures Verify(Some("Bearer " + token), store, now, crypto) == Err(BadToken)
  {
    TokenOfBearer(token);
    assert "Bearer " + token != "";
  }

  /** The `exp` claim of the corrected claim set refuses the token once the
      lifetime has passed. */
  lemma IssuedClaimsExpire(sub: string, email: string, issued: Time, now: Time, crypto: Crypto)
    requires crypto.decode(crypto.encode(ClaimsFor(sub, email, issued))) == Some(ClaimsFor(sub, email, issued))
    requires now >= issued + TokenLifetime
    ensures VerifyToken(crypto.encode(ClaimsFor(sub, email, issued)), now, crypto).None?
  {
    var c := ClaimsFor(sub, email, issued);
    assert Truncate((issued + TokenLifetime) as real) == issued + TokenLifetime;
    assert c["exp"] == JNum((issued + TokenLifetime) as real);
    assert ClaimInt(c["exp"]) == Some(issued + TokenLifetime);
  }

  /** As written, the issued token carries no `exp` claim, so it is
      accepted at any later time: a token issued today still verifies a
      year from now. */
  lemma AsWrittenTokenNeverExpires(sub: string, email: string, issued: Time, crypto: Crypto)
    requires crypto.decode(crypto.encode(ClaimsAsWritten(sub, email, issued)))
          == Some(ClaimsAsWritten(sub, email, issued))
    ensures VerifyToken(crypto.encode(ClaimsAsWritten(sub, email, issued)), issued + 365 * Day, crypto)
         == Some(ClaimsAsWritten(sub, email, issued))
  {
  }

  /** As written, a token the service issues verifies at any time, for as
      long as the user's row exists, deleted or not. */
  lemma AsWrittenTokenVerifies(store: Store, uid: Uuid, email: string, issued: Time, now: Time, crypto: Crypto)
    requires UserIdTaken(store.users, uid)
    requires var t := crypto.encode(ClaimsAsWritten(Uuids.CanonicalText(uid), email, issued));
             && crypto.decode(t) == Some(ClaimsAsWritten(Uuids.CanonicalText(uid), email, issued))
             && t != [] && !Text.IsSpace(t[0]) && !Text.IsSpace(t[|t| - 1]) && !Text.Occurs(t, "Bearer")
    ensures Verify(Some("Bearer " + crypto.encode(ClaimsAsWritten(Uuids.CanonicalText(uid), email, issued))),
                   store, now, crypto)
         == Ok(NoContent)
  {
    var c := ClaimsAsWritten(Uuids.CanonicalText(uid), email, issued);
    var t := crypto.encode(c);
    assert TokenOf("Bearer " + t) == t by { TokenOfBearer(t); }
    assert VerifyToken(t, now, crypto) == Some(c);
    assert CheckClaims(Some(c), store) == Ok(NoContent) by {
      Uuids.CanonicalRoundTrip(uid);
      assert Get(c, "sub") == JStr(Uuids.CanonicalText(uid));
    }
  }

  /** A user who has just registered can verify the token they were given,
      then and at any later time. */
  lemma RegisteredUserVerifies(store: Store, email: string, password: string, userId: Uuid, subId: Uuid,
                               now: Time, later: Time, crypto: Crypto)
    requires Register(store, email, password, userId, subId, now, crypto).0.Ok?
    requires var t := crypto.encode(ClaimsAsWritten(Uuids.CanonicalText(userId), email, now));
             && crypto.decode(t) == Some(ClaimsAsWritten(Uuids.CanonicalText(userId), email, now))
             && t != [] && !Text.IsSpace(t[0]) && !Text.IsSpace(t[|t| - 1]) && !Text.Occurs(t, "Bearer")
    requires now <= later
    ensures var out := Register(store, email, password, userId, subId, now, crypto);
            Verify(Some("Bearer " + out.0.value.token), out.1, later, crypto) == Ok(NoContent)
  {
    var out := Register(store, email, password, userId, subId, now, crypto);
    assert out.1.users[|store.users|].id == userId;
    AsWrittenTokenVerifies(out.1, userId, email, now, later, crypto);
  }

  /** After a successful registration, logging in with the same email and
      password finds the new user and issues a token for it. */
  lemma LoginAfterRegister(store: Store, email: string, password: string, userId: Uuid, subId: Uuid,
                           now: Time, later: Time, crypto: Crypto)
    requires Register(store, email, password, userId, subId, now, crypto).0.Ok?
    requires crypto.checkpw(password, crypto.hashpw(password)) == Some(true)
    ensures Login(Register(store, email, password, userId, subId, now, crypto).1, email, password, later, crypto)
         == Ok(Session(crypto.encode(ClaimsAsWritten(Uuids.CanonicalText(userId), email, later)), userId, email))
  {
    var u := NewUser(userId, email, crypto.hashpw(password), now);
    var users := Register(store, email, password, userId, subId, now, crypto).1.users;
    assert users == store.users + [u];
    assert FindByEmail(users, Some(email)) == Some(|store.users|) by {
      assert users[|store.users|].email == Some(email);
      assert forall i :: 0 <= i < |store.users| ==> users[i] == store.users[i];
    }
  }

  /** A registered account has no external id, so registering lets nobody
      new past the middleware: the lookup by `source_id` is unchanged. */
  lemma RegistrationGrantsNoMiddlewareAccess(store: Store, email: string, password: string, userId: Uuid,
                                             subId: Uuid, now: Time, crypto: Crypto, id: string)
    ensures AuthMiddleware.VerifyUserId(Register(store, email, password, userId, subId, now, crypto).1.users, id)
         == AuthMiddleware.VerifyUserId(store.users, id)
  {
    var u := NewUser(userId, email, crypto.hashpw(password), now);
    var after := Register(store, email, password, userId, subId, now, crypto).1.users;
    assert after == store.users || after == store.users + [u];
    if after != store.users {
      AuthMiddleware.VerifySkipsUnlinked(store.users, u, id);
    }
  }
}

=== FILE: clerk_webhook.dfy ===
/** `clerk_auth_webhook` (routers/clerk_webhook.py): the identity
    provider's user events applied to the `users` table. Events arrive as
    JSON; a key that is missing, a value of the wrong shape, or a row the
    database refuses is an exception, which is a 500 with nothing
    committed. */
module ClerkWebhook {
  import opened Common
  import opened Records
  import AuthMiddleware

  const Clerk: string := "clerk"
  const Ok200 := 200

  /** `d[key]` on a decoded object; `None` is the `KeyError`, or the
      `TypeError` when the value is not an object at all. */
  function Field(v: Json, key: string): (r: Option<Json>)
    ensures r.Some? <==> v.JObj? && key in v.fields
    ensures r.Some? ==> r.value == v.fields[key]
  {
    if v.JObj? && key in v.fields then Some(v.fields[key]) else None
  }

  /** A JSON value stored in a text column: a string or SQL null; anything
      else fails when the row is written. */
  function Column(v: Json): (r: Option<Option<string>>)
    ensures r.Some? <==> v.JStr? || v.JNull?
    ensures v.JStr? ==> r == Some(Some(v.s))
    ensures v.JNull? ==> r == Some(None)
  {
    match v
    case JStr(s) => Some(Some(s))
    case JNull => Some(None)
    case _ => None
  }

  /** The position of the first entry whose `id` is `id`. */
  function FirstWithId(items: seq<Json>, id: Json): (r: Option<nat>)
    requires forall k :: 0 <= k < |items| ==> Field(items[k], "id").Some?
    ensures r.None? <==> forall k :: 0 <= k < |items| ==> Field(items[k], "id") != Some(id)
    ensures r.Some? ==> r.value < |items| && Field(items[r.value], "id") == Some(id)
    ensures r.Some? ==> forall k :: 0 <= k < r.value ==> Field(items[k], "id") != Some(id)
  {
    if |items| == 0 then None
    else if Field(items[0], "id") == Some(id) then Some(0)
    else match FirstWithId(items[1..], id)
      case None => None
      case Some(k) => Some(k + 1)
  }

  /** `list(filter(lambda x: x["id"] == primary_id, email_addresses))[0]["email_address"]`:
      every entry is looked at, so each must be an object with an `id`; the
      first whose `id` matches gives the address, and no match is an
      `IndexError`. */
  function PrimaryEmail(data: Json): (r: Option<Json>)
    // found exactly when the addresses are a list of objects with ids, one
    // of them has the primary id, and the first such has an address
    ensures r.Some? <==>
              && Field(data, "primary_email_address_id").Some?
              && Field(data, "email_addresses").Some? && data.fields["email_addresses"].JArr?
              && var items := data.fields["email_addresses"].items;
                 && (forall k :: 0 <= k < |items| ==> Field(items[k], "id").Some?)
                 && FirstWithId(items, data.fields["primary_email_address_id"]).Some?
                 && Field(items[FirstWithId(items, data.fields["primary_email_address_id"]).value], "email_address").Some?
    ensures r.Some? ==>
              var items := data.fields["email_addresses"].items;
              r == Field(items[FirstWithId(items, data.fields["primary_email_address_id"]).value], "email_address")
    ensures r.Some? ==>
              && Field(data, "primary_email_address_id").Some?
              && Field(data, "email_addresses").Some? && data.fields["email_addresses"].JArr?
              && exists k :: 0 <= k < |data.fields["email_addresses"].items|
                             && Field(data.fields["email_addresses"].items[k], "id") == Some(data.fields["primary_email_address_id"])
                             && Field(data.fields["email_addresses"].items[k], "email_address") == r
  {
    match Field(data, "primary_email_address_id")
    case None => None
    case Some(primaryId) =>
      match Field(data, "email_addresses")
      case None => None
      case Some(addresses) =>
        if !addresses.JArr? then None
        else if exists k :: 0 <= k < |addresses.items| && Field(addresses.items[k], "id").None? then None
        else match FirstWithId(addresses.items, primaryId)
          case None => None
          case Some(k) => Field(addresses.items[k], "email_address")
  }

  /** `WHERE email = e`. */
  function EmailIs(e: Option<string>): User -> bool
  {
    (u: User) => u.email == e
  }

  /** `WHERE source_id = id`. */
  function SourceIdIs(id: Option<string>): User -> bool
  {
    (u: User) => u.sourceId == id
  }

  /** The positions of the rows `keep` selects, in storage order. */
  function Where(users: seq<User>, keep: User -> bool): (ix: seq<nat>)
    ensures forall j :: 0 <= j < |ix| ==> ix[j] < |users| && keep(users[ix[j]])
    ensures forall k :: 0 <= k < |users| && keep(users[k]) ==> k in ix
    ensures forall i, j :: 0 <= i < j < |ix| ==> ix[i] < ix[j]
    decreases |users|
  {
    if |users| == 0 then []
    else
      var n := |users| - 1;
      var front := Where(users[..n], keep);
      assert forall j :: 0 <= j < |front| ==> users[..n][front[j]] == users[front[j]];
      front + (if keep(users[n]) then [n] else [])
  }

  /** `scalar_one_or_none()`: no row, one row, or `MultipleResultsFound`. */
  function OneOrNone(ix: seq<nat>): (r: Result<Option<nat>, HttpError>)
    ensures |ix| == 0 ==> r == Ok(None)
    ensures |ix| == 1 ==> r == Ok(Some(ix[0]))
    ensures |ix| > 1 ==> r.Err? && r.error.status == InternalError
  {
    if |ix| == 0 then Ok(None)
    else if |ix| == 1 then Ok(Some(ix[0]))
    else Err(Crash("MultipleResultsFound"))
  }

  /** The outcome of one event: the response and the table afterwards. */
  type Outcome = (Result<int, HttpError>, seq<User>)

  /** A failed event: the error, and the table as it was. */
  function Fail(users: seq<User>, reason: string): (o: Outcome)
    ensures o.0.Err? && o.0.error.status == InternalError && o.1 == users
  {
    (Err(Crash(reason)), users)
  }

  /** `clerk_auth_webhook`. `body` is `None` when the request is not JSON;
      `newId` is the database's `uuid4` default for a created row. */
  function HandleEvent(body: Option<Json>, users: seq<User>, newId: Uuid, now: Time): (o: Outcome)
    // a failed event changes nothing; a handled one answers 200
    ensures o.0.Err? ==> o.0.error.status == InternalError && o.1 == users
    ensures o.0.Ok? ==> o.0.value == Ok200
    ensures body.None? || Field(body.value, "type").None? || Field(body.value, "data").None? ==> o.0.Err?
    // an event of any other type changes nothing
    ensures body.Some? && Field(body.value, "type").Some? && Field(body.value, "data").Some?
            && Field(body.value, "type").value !in {JStr("user.created"), JStr("user.updated"), JStr("user.deleted")}
            ==> o == (Ok(Ok200), users)
    ensures body.Some? && Field(body.value, "type") == Some(JStr("user.created")) && Field(body.value, "data").Some?
            ==> o == Created(body.value.fields["data"], users, newId, now)
    ensures body.Some? && Field(body.value, "type") == Some(JStr("user.updated")) && Field(body.value, "data").Some?
            ==> o == Updated(body.value.fields["data"], users)
    ensures body.Some? && Field(body.value, "type") == Some(JStr("user.deleted")) && Field(body.value, "data").Some?
            ==> o == Deleted(body.value.fields["data"], users, now)
  {
    match body
    case None => Fail(users, "JSONDecodeError")
    case Some(b) =>
      if Field(b, "type").None? then Fail(users, "KeyError: 'type'")
      else if Field(b, "data").None? then Fail(users, "KeyError: 'data'")
      else
        var eventType := b.fields["type"];
        var data := b.fields["data"];
        if eventType == JStr("user.created") then Created(data, users, newId, now)
        else if eventType == JStr("user.updated") then Updated(data, users)
        else if eventType == JStr("user.deleted") then Deleted(data, users, now)
        else (Ok(Ok200), users)
  }

  /** The row `user.created` inserts. */
  function ClerkUser(id: Uuid, firstName: Option<string>, lastName: Option<string>, email: Option<string>,
                     sourceId: Option<string>, now: Time): (u: User)
  {
    User(id, firstName, lastName, email, Some(""), Some(Clerk), sourceId, DefaultRole, now, None)
  }

  /** `user.created`: one new row with the event's names, primary email and
      id, an empty password hash and source "clerk". A taken email or id
      breaks a unique index. */
  function Created(data: Json, users: seq<User>, newId: Uuid, now: Time): (o: Outcome)
    ensures o.0.Err? ==> o.0.error.status == InternalError && o.1 == users
    // it succeeds exactly when the primary email is found, every field is
    // storable, the email is not on file and the new id is free
    ensures o.0.Ok? <==>
              && PrimaryEmail(data).Some? && Relabels(data) && Column(PrimaryEmail(data).value).Some?
              && (Column(PrimaryEmail(data).value).value.Some? ==>
                    FindByEmail(users, Column(PrimaryEmail(data).value).value).None?)
              && !UserIdTaken(users, newId)
    ensures o.0.Ok? ==>
              && PrimaryEmail(data).Some?
              && Field(data, "first_name").Some? && Field(data, "last_name").Some? && Field(data, "id").Some?
              && Column(data.fields["first_name"]).Some? && Column(data.fields["last_name"]).Some?
              && Column(data.fields["id"]).Some? && Column(PrimaryEmail(data).value).Some?
              && o.1 == users + [ClerkUser(newId,
                                           Column(data.fields["first_name"]).value,
                                           Column(data.fields["last_name"]).value,
                                           Column(PrimaryEmail(data).value).value,
                                           Column(data.fields["id"]).value, now)]
    ensures PrimaryEmail(data).None? ==> o.0.Err?
    ensures o.0.Ok? ==> o.0.value == Ok200
  {
    match PrimaryEmail(data)
    case None => Fail(users, "IndexError: list index out of range")
    case Some(email) =>
      if Field(data, "first_name").None? || Field(data, "last_name").None? || Field(data, "id").None? then
        Fail(users, "KeyError")
      else
        var first := Column(data.fields["first_name"]);
        var last := Column(data.fields["last_name"]);
        var e := Column(email);
        var sourceId := Column(data.fields["id"]);
        if first.None? || last.None? || e.None? || sourceId.None? then
          Fail(users, "DBAPIError: invalid input for query argument")
        else if e.value.Some? && FindByEmail(users, e.value).Some? then Fail(users, "IntegrityError: ix_users_email")
        else if UserIdTaken(users, newId) then Fail(users, "IntegrityError: users_pkey")
        else (Ok(Ok200), users + [ClerkUser(newId, first.value, last.value, e.value, sourceId.value, now)])
  }

  /** `user.updated`: the one row whose email is the primary email gets the
      event's names and id; its email is set to the value it was found by.
      No such row leaves the table as it was. */
  function Updated(data: Json, users: seq<User>): (o: Outcome)
    ensures o.0.Err? ==> o.0.error.status == InternalError && o.1 == users
    ensures o.0.Ok? ==> o.0.value == Ok200 && PrimaryEmail(data).Some?
    // at most one row changes: the one found by the primary email, and
    // only in its names and external id
    ensures o.0.Ok? && o.1 != users ==>
              && Relabels(data)
              && exists k :: 0 <= k < |users| && Column(PrimaryEmail(data).value) == Some(users[k].email)
                             && o.1 == users[k := Relabel(users[k], data)]
    // no row with the email: nothing changes and the answer is 200
    ensures PrimaryEmail(data).Some? && Column(PrimaryEmail(data).value).Some?
            && |Where(users, EmailIs(Column(PrimaryEmail(data).value).value))| == 0 ==>
              o == (Ok(Ok200), users)
    // one row with the email and storable fields: that row is relabelled
    ensures PrimaryEmail(data).Some? && Column(PrimaryEmail(data).value).Some?
            && |Where(users, EmailIs(Column(PrimaryEmail(data).value).value))| == 1 && Relabels(data) ==>
              var k := Where(users, EmailIs(Column(PrimaryEmail(data).value).value))[0];
              o == (Ok(Ok200), users[k := Relabel(users[k], data)])
  {
    match PrimaryEmail(data)
    case None => Fail(users, "IndexError: list index out of range")
    case Some(email) =>
      match Column(email)
      case None => Fail(users, "DBAPIError: invalid input for query argument")
      case Some(e) =>
        match OneOrNone(Where(users, EmailIs(e)))
        case Err(err) => (Err(err), users)
        case Ok(None) => (Ok(Ok200), users)
        case Ok(Some(k)) =>
          if Field(data, "first_name").None? || Field(data, "last_name").None? || Field(data, "id").None? then
            Fail(users, "KeyError")
          else
            if !Relabels(data) then Fail(users, "DBAPIError: invalid input for query argument")
            else (Ok(Ok200), users[k := Relabel(users[k], data).(email := e)])
  }

  /** The event carries storable names and id. */
  predicate Relabels(data: Json)
  {
    && Field(data, "first_name").Some? && Field(data, "last_name").Some? && Field(data, "id").Some?
    && Column(data.fields["first_name"]).Some? && Column(data.fields["last_name"]).Some?
    && Column(data.fields["id"]).Some?
  }

  /** A row with the event's names and id. */
  function Relabel(u: User, data: Json): User
    requires Relabels(data)
  {
    u.(firstName := Column(data.fields["first_name"]).value, lastName := Column(data.fields["last_name"]).value,
       sourceId := Column(data.fields["id"]).value)
  }

  /** `user.deleted`: the one row with the event's id as `source_id` is
      marked deleted now, when `deleted` is truthy; an already deleted row
      gets the new time. */
  function Deleted(data: Json, users: seq<User>, now: Time): (o: Outcome)
    ensures o.0.Err? ==> o.0.error.status == InternalError && o.1 == users
    ensures o.0.Ok? ==> o.0.value == Ok200 && Field(data, "deleted").Some? && Field(data, "id").Some?
    ensures o.0.Ok? && !Truthy(data.fields["deleted"]) ==> o.1 == users
    ensures o.0.Ok? && o.1 != users ==>
              exists k :: 0 <= k < |users| && Column(data.fields["id"]) == Some(users[k].sourceId)
                          && o.1 == users[k := users[k].(deletedAt := Some(now))]
    // no row with the id: nothing changes and the answer is 200
    ensures Field(data, "deleted").Some? && Field(data, "id").Some? && Column(data.fields["id"]).Some?
            && |Where(users, SourceIdIs(Column(data.fields["id"]).value))| == 0 ==>
              o == (Ok(Ok200), users)
    // one row with the id and a truthy `deleted`: that row is marked now
    ensures Field(data, "deleted").Some? && Field(data, "id").Some? && Column(data.fields["id"]).Some?
            && |Where(users, SourceIdIs(Column(data.fields["id"]).value))| == 1 && Truthy(data.fields["deleted"]) ==>
              var k := Where(users, SourceIdIs(Column(data.fields["id"]).value))[0];
              o == (Ok(Ok200), users[k := users[k].(deletedAt := Some(now))])
  {
    if Field(data, "deleted").None? then Fail(users, "KeyError: 'deleted'")
    else if Field(data, "id").None? then Fail(users, "KeyError: 'id'")
    else
      var deleted := data.fields["deleted"];
      match Column(data.fields["id"])
      case None => Fail(users, "DBAPIError: invalid input for query argument")
      case Some(sourceId) =>
        match OneOrNone(Where(users, SourceIdIs(sourceId)))
        case Err(err) => (Err(err), users)
        case Ok(None) => (Ok(Ok200), users)
        case Ok(Some(k)) =>
          if Truthy(deleted) then (Ok(Ok200), users[k := users[k].(deletedAt := Some(now))])
          else (Ok(Ok200), users)
  }

  // ---------------------------------------------------------------------------
  // Properties

  /** No event breaks the unique index on `users.email`. */
  lemma EventsKeepEmailsUnique(body: Option<Json>, users: seq<User>, newId: Uuid, now: Time)
    requires UniqueEmails(users)
    ensures UniqueEmails(HandleEvent(body, users, newId, now).1)
  {
    if body.Some? && Field(body.value, "type").Some? && Field(body.value, "data").Some? {
      var eventType := body.value.fields["type"];
      var data := body.value.fields["data"];
      if eventType == JStr("user.created") {
        CreatedKeepsEmailsUnique(data, users, newId, now);
      } else if eventType == JStr("user.updated") {
        UpdatedKeepsEmailsUnique(data, users);
      } else if eventType == JStr("user.deleted") {
        DeletedKeepsEmailsUnique(data, users, now);
      }
    }
  }

  lemma CreatedKeepsEmailsUnique(data: Json, users: seq<User>, newId: Uuid, now: Time)
    requires UniqueEmails(users)
    ensures UniqueEmails(Created(data, users, newId, now).1)
  {
    var after := Created(data, users, newId, now).1;
    if after != users {
      var e := Column(PrimaryEmail(data).value).value;
      assert after == users + [after[|users|]] && after[|users|].email == e;
      assert e.Some? ==> FindByEmail(users, e).None?;
      AppendKeepsEmailsUnique(users, after[|users|]);
    }
  }

  lemma UpdatedKeepsEmailsUnique(data: Json, users: seq<User>)
    requires UniqueEmails(users)
    ensures UniqueEmails(Updated(data, users).1)
  {
    var after := Updated(data, users).1;
    if after != users {
      var k :| 0 <= k < |users| && Column(PrimaryEmail(data).value) == Some(users[k].email)
                && after == users[k := Relabel(users[k], data)];
      assert forall j :: 0 <= j < |users| ==> after[j].email == users[j].email;
      SameEmailsKeepUnique(users, after);
    }
  }

  lemma DeletedKeepsEmailsUnique(data: Json, users: seq<User>, now: Time)
    requires UniqueEmails(users)
    ensures UniqueEmails(Deleted(data, users, now).1)
  {
    var after := Deleted(data, users, now).1;
    if after != users {
      var k :| 0 <= k < |users| && Column(data.fields["id"]) == Some(users[k].sourceId)
                && after == users[k := users[k].(deletedAt := Some(now))];
      assert forall j :: 0 <= j < |users| ==> after[j].email == users[j].email;
      SameEmailsKeepUnique(users, after);
    }
  }

  /** A user created by the provider is let in by the middleware under the
      event's id, when no other row already carries that id. */
  lemma CreatedUserAuthenticates(body: Json, users: seq<User>, newId: Uuid, now: Time, sourceId: string, email: string)
    requires HandleEvent(Some(body), users, newId, now).0.Ok?
    requires Field(body, "type") == Some(JStr("user.created"))
    requires Field(body.fields["data"], "id") == Some(JStr(sourceId))
    requires PrimaryEmail(body.fields["data"]) == Some(JStr(email))
    requires forall k :: 0 <= k < |users| ==> users[k].sourceId != Some(sourceId)
    ensures AuthMiddleware.VerifyUserId(HandleEvent(Some(body), users, newId, now).1, sourceId)
         == Ok(AuthMiddleware.AuthUser(newId, email, DefaultRole))
  {
    var after := HandleEvent(Some(body), users, newId, now).1;
    assert after[|users|].sourceId == Some(sourceId);
    assert AuthMiddleware.FindBySourceId(after, sourceId) == Some(|users|);
  }

  /** A deletion event that names no row, or says `deleted: false`, changes
      nothing; a second deletion only moves the time. */
  lemma DeletionIsSoft(data: Json, users: seq<User>, now: Time)
    requires Deleted(data, users, now).0.Ok?
    ensures |Deleted(data, users, now).1| == |users|
    ensures forall k :: 0 <= k < |users| ==>
              Deleted(data, users, now).1[k] == users[k]
              || Deleted(data, users, now).1[k] == users[k].(deletedAt := Some(now))
  {
  }

  /** Under the unique index on `users.email`, looking a non-null email up
      finds at most one row, so `scalar_one_or_none` never raises. */
  lemma UniqueEmailLookup(users: seq<User>, e: Option<string>)
    requires UniqueEmails(users) && e.Some?
    ensures |Where(users, EmailIs(e))| <= 1
    ensures OneOrNone(Where(users, EmailIs(e))).Ok?
  {
  }

  /** An update event with a found, non-null primary email and storable
      fields always succeeds while emails are unique. */
  lemma UpdateSucceedsUnderUniqueEmails(data: Json, users: seq<User>)
    requires UniqueEmails(users)
    requires PrimaryEmail(data).Some? && Column(PrimaryEmail(data).value).Some?
    requires Column(PrimaryEmail(data).value).value.Some? && Relabels(data)
    ensures Updated(data, users).0 == Ok(Ok200)
  {
    UniqueEmailLookup(users, Column(PrimaryEmail(data).value).value);
  }
}

=== FILE: common.dfy ===
/** Shared vocabulary of the model: optional values, results, JSON values as the
    web layer receives them, bytes, and HTTP errors. */
module Common {

  datatype Option<+T> = None | Some(value: T)

  /** The outcome of an operation that may raise: `Err` carries what was raised. */
  datatype Result<+T, +E> = Ok(value: T) | Err(error: E)

  newtype byte = b: int | 0 <= b < 256

  type Bytes = seq<byte>

  /** A decoded JSON document, as `await req.json()` hands it to a handler. */
  datatype Json =
    | JNull
    | JBool(b: bool)
    | JNum(x: real)
    | JStr(s: string)
    | JArr(items: seq<Json>)
    | JObj(fields: map<string, Json>)

  /** Python truthiness of a decoded JSON value (`if not value: ...`). */
  predicate Truthy(v: Json)
  {
    match v
    case JNull => false
    case JBool(b) => b
    case JNum(x) => x != 0.0
    case JStr(s) => s != ""
    case JArr(xs) => xs != []
    case JObj(m) => m != map[]
  }

  /** `d.get(key)` on a mapping: JSON null stands for Python's `None`. */
  function Get(m: map<string, Json>, key: string): Json
  {
    if key in m then m[key] else JNull
  }

  /** An HTTP error raised by a handler (FastAPI's `HTTPException`), or an
      unhandled exception, which the framework turns into a 500. */
  datatype HttpError = HttpError(status: int, detail: string)

  const Unauthorized := 401
  const BadRequest := 400
  const Forbidden := 403
  const Unprocessable := 422
  const InternalError := 500

  /** Any exception that is not an `HTTPException` reaches the client as a 500. */
  function Crash(reason: string): HttpError
  {
    HttpError(InternalError, reason)
  }
}

=== FILE: ffmpeg.dfy ===
/** `merge_audio_files_async` of shared/ffmpeg.py: validation, the single-file
    copy, the concat manifest and command line, and the removal of the
    manifest. The ffmpeg child process is an abstract function of its command
    line and of the manifest text it reads. */
module Ffmpeg {
  import opened Common
  import opened Files
  import Text

  /** The `file_paths` argument: a list of paths, or anything else. */
  datatype PathsArgument = PathList(paths: seq<string>) | NotAList

  datatype MergeError =
    | InvalidInput                  // ValueError: not a non-empty list
    | FfmpegNotFound                // FileNotFoundError from find_ffmpeg
    | InputNotFound(path: string)   // FileNotFoundError for a missing input
    | SourceIsDirectory(path: string) // IsADirectoryError from the single-file copy
    | OutputNotWritable(path: string) // the OSError opening the output of the single-file copy
    | ProcessFailed(exitCode: int)  // CalledProcessError

  /** What ffmpeg did: its exit code and the bytes it left at the output path,
      if it wrote there. */
  datatype ProcessRun = ProcessRun(exitCode: int, output: Option<Bytes>)

  /** The environment of one call: the executable `find_ffmpeg` located (if
      any), the random manifest path, `os.path.abspath`, and the child
      process as a function of its command line and the manifest text. */
  datatype Tooling = Tooling(
    ffmpeg: Option<string>,
    manifestPath: string,
    absPath: string -> string,
    run: (seq<string>, string) -> ProcessRun)

  /** The outcome of a merge, with the manifest text and command line it
      produced on the way (absent when it stopped earlier). */
  datatype Merge = Merge(
    result: Result<string, MergeError>,
    fs: FileSystem,
    manifest: Option<string>,
    command: Option<seq<string>>)

  // ---------------------------------------------------------------------------
  // The manifest

  /** One manifest line as the source writes it: the path between single
      quotes, unescaped. */
  function ManifestLineAsWritten(absPath: string): string
  {
    "file '" + absPath + "'\n"
  }

  /** A path quoted for ffmpeg: each `'` closes the quote, is written
      escaped, and the quote reopens. */
  function EscapeQuotes(p: string): string
  {
    if |p| == 0 then []
    else (if p[0] == '\'' then "'\\''" else [p[0]]) + EscapeQuotes(p[1..])
  }

  /** One manifest line with the quoting ffmpeg's concat demuxer expects. */
  function ManifestLine(absPath: string): string
  {
    "file '" + EscapeQuotes(absPath) + "'\n"
  }

  function ManifestOf(absPaths: seq<string>): string
  {
    if |absPaths| == 0 then [] else ManifestLine(absPaths[0]) + ManifestOf(absPaths[1..])
  }

  function ManifestAsWrittenOf(absPaths: seq<string>): string
  {
    if |absPaths| == 0 then [] else ManifestLineAsWritten(absPaths[0]) + ManifestAsWrittenOf(absPaths[1..])
  }

  function Map(f: string -> string, xs: seq<string>): (ys: seq<string>)
    ensures |ys| == |xs| && forall i :: 0 <= i < |xs| ==> ys[i] == f(xs[i])
  {
    if |xs| == 0 then [] else [f(xs[0])] + Map(f, xs[1..])
  }

  // How ffmpeg's concat demuxer reads a manifest: one directive per line; the
  // argument of `file` is a token in which `'...'` quotes literally, a
  // backslash escapes the next character, and unquoted whitespace ends it.

  predicate IsTokenEnd(c: char)
  {
    c == ' ' || c == '\t' || c == '\r' || c == '\n'
  }

  function Token(s: string): string
    decreases |s|, 1
  {
    if |s| == 0 then []
    else if s[0] == '\\' && |s| > 1 then [s[1]] + Token(s[2..])
    else if s[0] == '\'' then InQuote(s[1..])
    else if IsTokenEnd(s[0]) then []
    else [s[0]] + Token(s[1..])
  }

  function InQuote(s: string): string
    decreases |s|, 0
  {
    if |s| == 0 then []
    else if s[0] == '\'' then Token(s[1..])
    else [s[0]] + InQuote(s[1..])
  }

  /** The file names a manifest lists, line by line; empty lines are skipped
      and a line that is not a `file` directive reads as `None`. */
  function ReadLines(lines: seq<string>): Option<seq<string>>
  {
    if |lines| == 0 then Some([])
    else
      match ReadLines(lines[1..])
      case None => None
      case Some(rest) =>
        if lines[0] == "" then Some(rest)
        else if |lines[0]| >= 5 && lines[0][..5] == "file " then Some([Token(lines[0][5..])] + rest)
        else None
  }

  function ReadManifest(text: string): Option<seq<string>>
  {
    ReadLines(Text.SplitOn(text, "\n"))
  }

  predicate NoNewline(p: string)
  {
    '\n' !in p
  }

  lemma {:induction false} ReadEscaped(p: string, tail: string)
    ensures InQuote(EscapeQuotes(p) + "'" + tail) == p + Token(tail)
    decreases |p|
  {
    if |p| == 0 {
      assert EscapeQuotes(p) + "'" + tail == "'" + tail;
    } else {
      var rest := EscapeQuotes(p[1..]) + "'" + tail;
      var head := if p[0] == '\'' then "'\\''" else [p[0]];
      assert EscapeQuotes(p) + "'" + tail == head + rest by {
        assert EscapeQuotes(p) == head + EscapeQuotes(p[1..]);
      }
      assert InQuote(rest) == p[1..] + Token(tail) by { ReadEscaped(p[1..], tail); }
      if p[0] == '\'' {
        EscapedQuoteStep(rest);
      } else {
        PlainStep(p[0], rest);
      }
      assert p == [p[0]] + p[1..];
    }
  }

  /** Inside quotes, `'\''` closes the quote, reads an escaped quote and
      opens the quote again. */
  lemma EscapedQuoteStep(rest: string)
    ensures InQuote("'\\''" + rest) == ['\''] + InQuote(rest)
  {
    var s := "'\\''" + rest;
    var t := "\\''" + rest;
    var u := "'" + rest;
    assert u[0] == '\'' && u[1..] == rest;
    assert Token(u) == InQuote(rest);
    assert t[0] == '\\' && t[1] == '\'' && t[2..] == u;
    assert Token(t) == ['\''] + Token(u);
    assert s[0] == '\'' && s[1..] == t;
    assert InQuote(s) == Token(t);
  }

  /** Inside quotes, any other character is taken as it is. */
  lemma PlainStep(c: char, rest: string)
    requires c != '\''
    ensures InQuote([c] + rest) == [c] + InQuote(rest)
  {
    assert ([c] + rest)[1..] == rest;
  }

  lemma EscapeKeepsNewlinesOut(p: string)
    requires NoNewline(p)
    ensures NoNewline(EscapeQuotes(p))
  {
    if |p| > 0 {
      EscapeKeepsNewlinesOut(p[1..]);
    }
  }

  /** Splitting at a line end that follows newline-free text. */
  lemma SplitAtFirstNewline(a: string, rest: string)
    requires NoNewline(a)
    ensures Text.SplitOn(a + "\n" + rest, "\n") == [a] + Text.SplitOn(rest, "\n")
    decreases |a|
  {
    var s := a + "\n" + rest;
    if |a| == 0 {
      assert s[..1] == "\n";
      assert s[1..] == rest;
    } else {
      assert a[0] in a;
      assert s[0] == a[0];
      assert s[..1] != "\n";
      assert s[1..] == a[1..] + "\n" + rest;
      SplitAtFirstNewline(a[1..], rest);
      assert a == [a[0]] + a[1..];
    }
  }

  /** ffmpeg reads back exactly the listed paths, in order, from the quoted
      manifest, whatever quotes the paths hold. */
  lemma {:induction false} ManifestRoundTrip(absPaths: seq<string>)
    requires forall i :: 0 <= i < |absPaths| ==> NoNewline(absPaths[i])
    ensures ReadManifest(ManifestOf(absPaths)) == Some(absPaths)
    decreases |absPaths|
  {
    if |absPaths| == 0 {
      assert Text.SplitOn("", "\n") == [""];
    } else {
      var p := absPaths[0];
      var body := "file '" + EscapeQuotes(p) + "'";
      var more := ManifestOf(absPaths[1..]);
      assert ManifestOf(absPaths) == body + "\n" + more;
      QuotedLineReadsBack(p);
      assert Text.SplitOn(ManifestOf(absPaths), "\n") == [body] + Text.SplitOn(more, "\n") by {
        SplitAtFirstNewline(body, more);
      }
      ManifestRoundTrip(absPaths[1..]);
      ReadLinesCons(body, Text.SplitOn(more, "\n"), p, absPaths[1..]);
      assert absPaths == [p] + absPaths[1..];
    }
  }

  /** One quoted `file` line has no line end and reads back as its path. */
  lemma QuotedLineReadsBack(p: string)
    requires NoNewline(p)
    ensures var body := "file '" + EscapeQuotes(p) + "'";
            NoNewline(body) && |body| >= 5 && body[..5] == "file " && Token(body[5..]) == p
  {
    var e := EscapeQuotes(p);
    var body := "file '" + e + "'";
    assert NoNewline(body) by {
      EscapeKeepsNewlinesOut(p);
      forall k | 0 <= k < |body| ensures body[k] != '\n' {
        if 6 <= k < 6 + |e| { assert body[k] == e[k - 6]; }
      }
    }
    assert body[..5] == "file " && body[5..] == "'" + e + "'";
    assert Token("'" + e + "'") == p by {
      ReadEscaped(p, []);
      assert e + "'" + [] == e + "'";
      assert ("'" + e + "'")[1..] == e + "'";
    }
  }

  /** A `file` line in front of lines that read as `rest` adds its token. */
  lemma ReadLinesCons(line: string, lines: seq<string>, x: string, rest: seq<string>)
    requires |line| >= 5 && line[..5] == "file " && Token(line[5..]) == x
    requires ReadLines(lines) == Some(rest)
    ensures ReadLines([line] + lines) == Some([x] + rest)
  {
    assert ([line] + lines)[1..] == lines;
  }

  /** A one-path manifest as written reads as the token of the quoted path. */
  lemma ReadOneLineAsWritten(p: string)
    requires NoNewline(p)
    ensures ReadManifest(ManifestAsWrittenOf([p])) == Some([Token("'" + p + "'")])
  {
    var body := "file '" + p + "'";
    assert ManifestAsWrittenOf([p]) == body + "\n" + [];
    assert NoNewline(body);
    SplitAtFirstNewline(body, []);
    assert Text.SplitOn("", "\n") == [""];
    var lines := [body, ""];
    assert Text.SplitOn(ManifestAsWrittenOf([p]), "\n") == lines;
    assert lines[1..] == [""];
    assert ReadLines(lines[1..]) == Some([]);
    assert body[5..] == "'" + p + "'" && body[..5] == "file ";
    assert ReadLines(lines) == Some([Token("'" + p + "'")] + []);
    assert [Token("'" + p + "'")] + [] == [Token("'" + p + "'")];
    assert ReadManifest(ManifestAsWrittenOf([p])) == ReadLines(lines);
  }

  /** The unescaped line loses a quote inside a path: ffmpeg reads `a'b` as `ab`. */
  lemma UnescapedQuoteIsMisread()
    ensures ReadManifest(ManifestAsWrittenOf(["a'b"])) == Some(["ab"])
  {
    ReadOneLineAsWritten("a'b");
    assert "'" + "a'b" + "'" == "'a'b'";
    MisreadToken();
  }

  lemma MisreadToken()
    ensures Token("'a'b'") == "ab"
  {
    assert Token("'") == [];
    assert "b'"[1..] == "'";
    assert Token("b'") == "b";
    assert "'b'"[1..] == "b'";
    assert InQuote("'b'") == "b";
    assert "a'b'"[1..] == "'b'";
    assert InQuote("a'b'") == "ab";
    assert "'a'b'"[1..] == "a'b'";
  }

  /** For paths without quotes the two manifests are the same text. */
  lemma {:induction false} EscapeIsIdentityWithoutQuotes(p: string)
    requires '\'' !in p
    ensures EscapeQuotes(p) == p
    ensures ManifestLine(p) == ManifestLineAsWritten(p)
    decreases |p|
  {
    if |p| > 0 {
      EscapeIsIdentityWithoutQuotes(p[1..]);
      assert p == [p[0]] + p[1..];
    }
  }

  // ---------------------------------------------------------------------------
  // The command line

  function ConcatCommand(ffmpeg: string, manifestPath: string, output: string): seq<string>
  {
    [ffmpeg, "-y", "-f", "concat", "-safe", "0", "-i", manifestPath, "-c", "copy", output]
  }

  /** What ffmpeg makes of its arguments: options before `-i` apply to that
      input, options before a plain argument apply to that output. */
  datatype InputSpec = InputSpec(path: string, format: Option<string>, safe: Option<string>)
  datatype OutputSpec = OutputSpec(path: string, codec: Option<string>)
  datatype Invocation = Invocation(overwrite: bool, inputs: seq<InputSpec>, outputs: seq<OutputSpec>)

  datatype Pending = Pending(format: Option<string>, safe: Option<string>, codec: Option<string>)

  predicate IsOption(arg: string)
  {
    |arg| > 1 && arg[0] == '-'
  }

  function ReadArgs(args: seq<string>, pending: Pending, acc: Invocation): Option<Invocation>
    decreases |args|
  {
    if |args| == 0 then Some(acc)
    else if args[0] == "-y" then ReadArgs(args[1..], pending, acc.(overwrite := true))
    else if IsOption(args[0]) && |args| < 2 then None
    else if args[0] == "-f" then ReadArgs(args[2..], pending.(format := Some(args[1])), acc)
    else if args[0] == "-safe" then ReadArgs(args[2..], pending.(safe := Some(args[1])), acc)
    else if args[0] == "-c" then ReadArgs(args[2..], pending.(codec := Some(args[1])), acc)
    else if args[0] == "-i" then
      ReadArgs(args[2..], pending.(format := None, safe := None),
               acc.(inputs := acc.inputs + [InputSpec(args[1], pending.format, pending.safe)]))
    else if IsOption(args[0]) then None
    else ReadArgs(args[1..], pending.(codec := None),
                  acc.(outputs := acc.outputs + [OutputSpec(args[0], pending.codec)]))
  }

  function ReadCommand(command: seq<string>): Option<Invocation>
  {
    if |command| == 0 then None
    else ReadArgs(command[1..], Pending(None, None, None), Invocation(false, [], []))
  }

  /** The command overwrites the output, reads the manifest with the concat
      demuxer in unsafe-path mode, and copies the streams into the output. */
  lemma ConcatCommandMeaning(ffmpeg: string, manifestPath: string, output: string)
    requires !IsOption(output)
    ensures ReadCommand(ConcatCommand(ffmpeg, manifestPath, output)) == Some(Invocation(
      true,
      [InputSpec(manifestPath, Some("concat"), Some("0"))],
      [OutputSpec(output, Some("copy"))]))
  {
    var c := ConcatCommand(ffmpeg, manifestPath, output);
    var args := c[1..];
    assert args == ["-y", "-f", "concat", "-safe", "0", "-i", manifestPath, "-c", "copy", output];
    var p0 := Pending(None, None, None);
    var p1 := Pending(Some("concat"), None, None);
    var p2 := Pending(Some("concat"), Some("0"), None);
    var input := [InputSpec(manifestPath, Some("concat"), Some("0"))];
    var output' := [OutputSpec(output, Some("copy"))];
    var done := Invocation(true, input, output');
    assert ReadArgs(args[9..], p0.(codec := Some("copy")), Invocation(true, input, [])) == Some(done) by {
      assert args[9..] == [output] && args[9..][1..] == [];
      assert output != "-y" && output != "-f" && output != "-safe" && output != "-c" && output != "-i" by {
        assert IsOption("-y") && IsOption("-f") && IsOption("-safe") && IsOption("-c") && IsOption("-i");
      }
      assert ReadArgs([], p0, done) == Some(done);
      assert [] + output' == output';
    }
    assert ReadArgs(args[7..], p0, Invocation(true, input, [])) == Some(done) by {
      assert args[7..] == ["-c", "copy", output] && args[7..][2..] == args[9..];
    }
    assert ReadArgs(args[5..], p2, Invocation(true, [], [])) == Some(done) by {
      assert args[5..] == ["-i", manifestPath, "-c", "copy", output] && args[5..][2..] == args[7..];
      assert [] + input == input;
    }
    assert ReadArgs(args[3..], p1, Invocation(true, [], [])) == Some(done) by {
      assert args[3..] == ["-safe", "0", "-i", manifestPath, "-c", "copy", output] && args[3..][2..] == args[5..];
    }
    assert ReadArgs(args[1..], p0, Invocation(true, [], [])) == Some(done) by {
      assert args[1..] == ["-f", "concat", "-safe", "0", "-i", manifestPath, "-c", "copy", output];
      assert args[1..][2..] == args[3..];
    }
    assert ReadArgs(args, p0, Invocation(false, [], [])) == Some(done);
  }

  // ---------------------------------------------------------------------------
  // The merge

  /** The first input path that does not exist, in list order. */
  function FirstMissing(fs: FileSystem, paths: seq<string>): (r: Option<string>)
    ensures r.None? <==> forall i :: 0 <= i < |paths| ==> Exists(fs, paths[i])
    ensures r.Some? ==> !Exists(fs, r.value)
    ensures r.Some? ==> exists i :: 0 <= i < |paths| && paths[i] == r.value && (forall j :: 0 <= j < i ==> Exists(fs, paths[j]))
  {
    if |paths| == 0 then None
    else if !Exists(fs, paths[0]) then Some(paths[0])
    else
      var r := FirstMissing(fs, paths[1..]);
      assert forall i :: 1 <= i < |paths| ==> paths[i] == paths[1..][i - 1];
      r
  }

  /** The single-file path: `src` is opened first, then `dst` is opened for
      writing (and truncated) before `src` is read, so copying a file onto
      itself empties it. */
  function CopySingle(fs: FileSystem, source: string, output: string): (m: Merge)
    // a directory cannot be opened as the source
    ensures source in fs.dirs && source !in fs.files ==> m == Merge(Err(SourceIsDirectory(source)), fs, None, None)
    // an output that cannot be opened for writing fails with nothing written
    ensures source in fs.files && !Writable(fs, output) ==> m == Merge(Err(OutputNotWritable(output)), fs, None, None)
    // otherwise the output holds the source's bytes, or nothing when it is the source
    ensures source in fs.files && Writable(fs, output) ==>
              && m.result == Ok(output)
              && IsFile(m.fs, output)
              && m.fs.files[output] == (if source == output then [] else fs.files[source])
    ensures m.fs.dirs == fs.dirs
    ensures forall q :: q != output ==> (q in m.fs.files <==> q in fs.files) && (q in fs.files ==> m.fs.files[q] == fs.files[q])
    ensures m.manifest.None? && m.command.None?
  {
    if source in fs.dirs && source !in fs.files then Merge(Err(SourceIsDirectory(source)), fs, None, None)
    else if !Writable(fs, output) then Merge(Err(OutputNotWritable(output)), fs, None, None)
    else
      var content := if source == output || source !in fs.files then [] else fs.files[source];
      Merge(Ok(output), WriteFile(fs, output, content), None, None)
  }

  /** The general path: write the manifest as the source writes it (quotes
      unescaped), run ffmpeg, and always remove the manifest afterwards. */
  function RunConcat(fs: FileSystem, paths: seq<string>, output: string, ffmpeg: string, tools: Tooling): (m: Merge)
    // the manifest lists each absolute path on its own line, in order
    ensures m.manifest == Some(ManifestAsWrittenOf(Map(tools.absPath, paths)))
    ensures m.command == Some(ConcatCommand(ffmpeg, tools.manifestPath, output))
    // the exit code alone decides, and success names the output
    ensures m.result.Ok? <==> tools.run(m.command.value, m.manifest.value).exitCode == 0
    ensures m.result.Ok? ==> m.result.value == output
    ensures m.result.Err? ==> m.result == Err(ProcessFailed(tools.run(m.command.value, m.manifest.value).exitCode))
    // what ffmpeg wrote stays at the output; the manifest is gone
    ensures output != tools.manifestPath && tools.run(m.command.value, m.manifest.value).output.Some? ==>
              IsFile(m.fs, output) && m.fs.files[output] == tools.run(m.command.value, m.manifest.value).output.value
    ensures !IsFile(m.fs, tools.manifestPath) && m.fs.dirs == fs.dirs
    ensures forall q :: q != output && q != tools.manifestPath ==>
              (q in m.fs.files <==> q in fs.files) && (q in fs.files ==> m.fs.files[q] == fs.files[q])
  {
    var manifest := ManifestAsWrittenOf(Map(tools.absPath, paths));
    var command := ConcatCommand(ffmpeg, tools.manifestPath, output);
    var run := tools.run(command, manifest);
    var written := if run.output.Some? then WriteFile(fs, output, run.output.value) else fs;
    var cleaned := RemoveFile(written, tools.manifestPath);
    var result := if run.exitCode != 0 then Err(ProcessFailed(run.exitCode)) else Ok(output);
    Merge(result, cleaned, Some(manifest), Some(command))
  }

  /** `merge_audio_files_async(file_paths, output_path)`. */
  function MergeAudioFiles(arg: PathsArgument, output: string, fs: FileSystem, tools: Tooling): (m: Merge)
    // validation: a non-list or an empty list is rejected, and nothing is written
    ensures (arg.NotAList? || arg.paths == []) ==> m == Merge(Err(InvalidInput), fs, None, None)
    // ffmpeg not installed: `find_ffmpeg` raises before the inputs are
    // checked, and nothing is written
    ensures arg.PathList? && arg.paths != [] && tools.ffmpeg.None? ==> m == Merge(Err(FfmpegNotFound), fs, None, None)
    // a missing input is reported before anything is written
    ensures arg.PathList? && arg.paths != [] && tools.ffmpeg.Some? && FirstMissing(fs, arg.paths).Some? ==>
              m == Merge(Err(InputNotFound(FirstMissing(fs, arg.paths).value)), fs, None, None)
    ensures m.result.Err? && m.result.error.InputNotFound? ==> !Exists(fs, m.result.error.path)
    // success returns exactly the output path
    ensures m.result.Ok? ==> m.result.value == output
    // one regular input file: its bytes are copied and no process runs; an
    // output that cannot be opened for writing fails and nothing changes
    ensures arg.PathList? && |arg.paths| == 1 && tools.ffmpeg.Some? && arg.paths[0] != ""
            && IsFile(fs, arg.paths[0]) && arg.paths[0] != output && Writable(fs, output) ==>
              m.result == Ok(output) && m.fs == WriteFile(fs, output, fs.files[arg.paths[0]])
              && m.command.None?
    ensures arg.PathList? && |arg.paths| == 1 && tools.ffmpeg.Some? && arg.paths[0] != ""
            && IsFile(fs, arg.paths[0]) && !Writable(fs, output) ==>
              m == Merge(Err(OutputNotWritable(output)), fs, None, None)
    // copying the one input onto itself leaves it empty
    ensures arg.PathList? && arg.paths == [output] && tools.ffmpeg.Some? && output != ""
            && IsFile(fs, output) && Writable(fs, output) ==>
              m.result == Ok(output) && m.fs == WriteFile(fs, output, [])
    // several inputs: the manifest lists each absolute path in order, the
    // command is the concat invocation, the exit code decides, and the
    // manifest is gone afterwards
    ensures arg.PathList? && |arg.paths| >= 2 && tools.ffmpeg.Some? && FirstMissing(fs, arg.paths).None? ==>
              && m.manifest == Some(ManifestAsWrittenOf(Map(tools.absPath, arg.paths)))
              && m.command == Some(ConcatCommand(tools.ffmpeg.value, tools.manifestPath, output))
              && (m.result.Ok? <==> tools.run(m.command.value, m.manifest.value).exitCode == 0)
              && !IsFile(m.fs, tools.manifestPath)
    ensures m.result.Err? && m.result.error.ProcessFailed? ==> m.result.error.exitCode != 0
    // apart from the output and the manifest, no file changes
    ensures m.fs.dirs == fs.dirs
    ensures forall q :: q != output && q != tools.manifestPath ==>
              (q in m.fs.files <==> q in fs.files) && (q in fs.files ==> m.fs.files[q] == fs.files[q])
  {
    if arg.NotAList? || |arg.paths| == 0 then Merge(Err(InvalidInput), fs, None, None)
    else if tools.ffmpeg.None? then Merge(Err(FfmpegNotFound), fs, None, None)
    else
      match FirstMissing(fs, arg.paths)
      case Some(p) => Merge(Err(InputNotFound(p)), fs, None, None)
      case None =>
        if |arg.paths| == 1 then CopySingle(fs, arg.paths[0], output)
        else RunConcat(fs, arg.paths, output, tools.ffmpeg.value, tools)
  }

  /** The first missing input is what the merge reports. */
  lemma MissingInputReported(paths: seq<string>, output: string, fs: FileSystem, tools: Tooling, p: string)
    requires paths != [] && tools.ffmpeg.Some? && FirstMissing(fs, paths) == Some(p)
    ensures MergeAudioFiles(PathList(paths), output, fs, tools).result == Err(InputNotFound(p))
  {
  }
}

=== FILE: files.dfy ===
/** An abstract filesystem: regular files with their bytes, and directories.
    Paths are plain strings; `os.path` predicates are read off the two maps. */
module Files {
  import opened Common

  datatype FileSystem = FileSystem(files: map<string, Bytes>, dirs: set<string>)

  /** `os.path.exists`: the empty path never exists. */
  predicate Exists(fs: FileSystem, p: string)
  {
    p != "" && (p in fs.files || p in fs.dirs)
  }

  /** `os.path.isfile`. */
  predicate IsFile(fs: FileSystem, p: string)
  {
    p in fs.files
  }

  /** `os.path.isdir`, which accepts a trailing slash. */
  predicate IsDir(fs: FileSystem, p: string)
  {
    p in fs.dirs || (|p| > 1 && p[|p| - 1] == '/' && p[..|p| - 1] in fs.dirs)
  }

  /** The directory text with exactly one trailing separator, as
      `os.path.join(directory, name)` places names under it. */
  function DirPrefix(directory: string): string
  {
    if |directory| > 0 && directory[|directory| - 1] == '/' then directory else directory + "/"
  }

  /** The last component of a path. */
  function BaseName(p: string): string
    decreases |p|
  {
    if |p| == 0 then []
    else if p[|p| - 1] == '/' then []
    else BaseName(p[..|p| - 1]) + [p[|p| - 1]]
  }

  /** `p` lies under `directory`: directly when not recursive, at any depth
      when recursive (`**` matches zero or more directories). */
  predicate Under(directory: string, p: string, recursive: bool)
  {
    var d := DirPrefix(directory);
    |p| > |d| && p[..|d|] == d && (recursive || '/' !in p[|d|..])
  }

  /** The entries `glob.glob` returns for `os.path.join(directory, pattern)`
      (or `directory/**/pattern` when recursive); `matches` is the pattern's
      verdict on an entry's name. */
  function Glob(fs: FileSystem, directory: string, matches: string -> bool, recursive: bool): set<string>
  {
    set p | p in fs.files.Keys + fs.dirs && Under(directory, p, recursive) && matches(BaseName(p))
  }

  /** The text before the last separator of `p`, if it has one. */
  function Parent(p: string): Option<string>
    decreases |p|
  {
    if |p| == 0 then None
    else if p[|p| - 1] == '/' then Some(p[..|p| - 1])
    else Parent(p[..|p| - 1])
  }

  /** A name without a separator placed under `directory` has that
      directory as its parent. */
  lemma {:induction false} ParentOfName(directory: string, name: string)
    requires '/' !in name
    ensures Parent(directory + "/" + name) == Some(directory)
    decreases |name|
  {
    var p := directory + "/" + name;
    if |name| == 0 {
      assert p[..|p| - 1] == directory;
    } else {
      assert p[|p| - 1] == name[|name| - 1];
      assert p[..|p| - 1] == directory + "/" + name[..|name| - 1];
      ParentOfName(directory, name[..|name| - 1]);
    }
  }

  /** `open(p, "wb")` can create or truncate `p`: the path is not empty, does
      not name a directory or end in a separator, and the directory it lies in
      exists (a name without a separator lies in the working directory, and
      the root always exists). */
  predicate Writable(fs: FileSystem, p: string)
  {
    && p != ""
    && p[|p| - 1] != '/'
    && p !in fs.dirs
    && match Parent(p)
       case None => true
       case Some(d) => d == "" || IsDir(fs, d)
  }

  /** Write (create or truncate) a file. */
  function WriteFile(fs: FileSystem, p: string, content: Bytes): (r: FileSystem)
    ensures IsFile(r, p) && r.files[p] == content
    ensures r.dirs == fs.dirs
    ensures forall q :: q != p ==> (q in r.files <==> q in fs.files)
    ensures forall q :: q != p && q in fs.files ==> r.files[q] == fs.files[q]
  {
    fs.(files := fs.files[p := content])
  }

  /** Remove a file. */
  function RemoveFile(fs: FileSystem, p: string): (r: FileSystem)
    ensures !IsFile(r, p) && r.dirs == fs.dirs
    ensures forall q :: q != p ==> (q in r.files <==> q in fs.files)
    ensures forall q :: q != p && q in fs.files ==> r.files[q] == fs.files[q]
  {
    fs.(files := fs.files - {p})
  }
}

=== FILE: llm_output.dfy ===
/** Post-processing of a language model's reply, shared by the metadata,
    script, persona and storyline services: markdown fences are removed, the
    rest is trimmed and read as JSON. */
module LlmOutput {
  import opened Common
  import Text

  const Fence: string := "```"
  const JsonFence: string := Fence + "json"

  /** `reply.replace("```json", "").replace("```", "").strip()`. */
  function StripFences(reply: string): string
  {
    Text.Trim(Text.ReplaceAll(Text.ReplaceAll(reply, JsonFence, ""), Fence, ""))
  }

  /** What is left of a reply has no surrounding whitespace and is no longer
      than the reply. */
  lemma StripFencesShape(reply: string)
    ensures var r := StripFences(reply);
            r == [] || (!Text.IsSpace(r[0]) && !Text.IsSpace(r[|r| - 1]))
    ensures |StripFences(reply)| <= |reply|
  {
    var unfenced := Text.ReplaceAll(Text.ReplaceAll(reply, JsonFence, ""), Fence, "");
    Text.TrimEnds(unfenced);
    RemovalShrinks(reply, JsonFence);
    RemovalShrinks(Text.ReplaceAll(reply, JsonFence, ""), Fence);
  }

  /** Removing a non-empty pattern never lengthens the text. */
  lemma {:induction false} RemovalShrinks(s: string, p: string)
    requires |p| > 0
    ensures |Text.ReplaceAll(s, p, "")| <= |s|
    decreases |s|
  {
    if |s| >= |p| {
      if s[..|p|] == p {
        RemovalShrinks(s[|p|..], p);
      } else {
        RemovalShrinks(s[1..], p);
      }
    }
  }

  predicate NoBackticks(s: string)
  {
    forall k :: 0 <= k < |s| ==> s[k] != '`'
  }

  predicate AllSpace(s: string)
  {
    Text.AllDropped(s, Text.IsSpace)
  }

  /** A pattern that starts with a backtick is not found in text without one. */
  lemma NoBackticksUnchanged(s: string, p: string, r: string)
    requires |p| > 0 && p[0] == '`' && NoBackticks(s)
    ensures Text.ReplaceAll(s, p, r) == s
  {
    Text.ReplaceSkipsPrefix(s, [], p, r);
    assert s + [] == s;
  }

  lemma SpaceIsNoBacktick(s: string)
    requires AllSpace(s)
    ensures NoBackticks(s)
  {
    forall k | 0 <= k < |s| ensures s[k] != '`' {
      assert Text.IsSpace(s[k]);
    }
  }

  lemma NoBackticksConcat(a: string, b: string)
    requires NoBackticks(a) && NoBackticks(b)
    ensures NoBackticks(a + b)
  {
    forall k | 0 <= k < |a + b| ensures (a + b)[k] != '`' {
      if k < |a| { assert (a + b)[k] == a[k]; } else { assert (a + b)[k] == b[k - |a|]; }
    }
  }

  /** A reply without backticks is only trimmed. */
  lemma StripFencesPlain(reply: string)
    requires NoBackticks(reply)
    ensures StripFences(reply) == Text.Trim(reply)
  {
    NoBackticksUnchanged(reply, JsonFence, "");
    NoBackticksUnchanged(reply, Fence, "");
  }

  /** A closing fence followed by whitespace holds no opening `json` fence. */
  lemma ClosingFenceIsNotOpening(post: string)
    requires AllSpace(post)
    ensures !Text.Occurs(Fence + post, JsonFence)
  {
    var s := Fence + post;
    forall i | 0 <= i <= |s| ensures !Text.OccursAt(s, JsonFence, i) {
      if i + |JsonFence| <= |s| {
        assert s[i + 3] == post[i];
        assert Text.IsSpace(post[i]);
        assert JsonFence[3] == 'j';
        assert s[i..i + |JsonFence|][3] == s[i + 3];
      }
    }
  }

  /** A fenced JSON block, with any whitespace around and inside the fences,
      comes out as the block's content. */
  lemma StripFencesFenced(pre: string, mid: string, payload: string, post: string, tail: string)
    requires AllSpace(pre) && AllSpace(mid) && AllSpace(post) && AllSpace(tail)
    requires NoBackticks(payload)
    requires payload == [] || (!Text.IsSpace(payload[0]) && !Text.IsSpace(payload[|payload| - 1]))
    ensures StripFences(pre + JsonFence + mid + payload + post + Fence + tail) == payload
  {
    SpaceIsNoBacktick(pre);
    SpaceIsNoBacktick(mid);
    SpaceIsNoBacktick(post);
    SpaceIsNoBacktick(tail);
    NoBackticksConcat(mid, payload);
    NoBackticksConcat(mid + payload, post);
    var body := mid + payload + post;
    var reply := pre + JsonFence + mid + payload + post + Fence + tail;
    assert reply == pre + JsonFence + body + Fence + tail;
    OpeningFenceRemoved(pre, body, tail);
    ClosingFenceRemoved(pre + body, tail);
    assert (pre + body) + tail == (pre + mid) + payload + (post + tail);
    Text.StripFindsCore(pre + mid, payload, post + tail, Text.IsSpace);
  }

  /** The first pass removes the opening fence and keeps the closing one. */
  lemma OpeningFenceRemoved(pre: string, body: string, tail: string)
    requires NoBackticks(pre) && NoBackticks(body) && AllSpace(tail)
    ensures Text.ReplaceAll(pre + JsonFence + body + Fence + tail, JsonFence, "") == pre + body + Fence + tail
  {
    assert pre + JsonFence + body + Fence + tail == pre + (JsonFence + (body + (Fence + tail)));
    Text.ReplaceSkipsPrefix(pre, JsonFence + (body + (Fence + tail)), JsonFence, "");
    Text.ReplaceLeading(body + (Fence + tail), JsonFence, "");
    Text.ReplaceSkipsPrefix(body, Fence + tail, JsonFence, "");
    ClosingFenceIsNotOpening(tail);
    Text.ReplaceAbsent(Fence + tail, JsonFence, "");
    assert "" + (body + (Fence + tail)) == body + (Fence + tail);
  }

  /** The second pass removes the closing fence. */
  lemma ClosingFenceRemoved(text: string, tail: string)
    requires NoBackticks(text) && NoBackticks(tail)
    ensures Text.ReplaceAll(text + Fence + tail, Fence, "") == text + tail
  {
    assert text + Fence + tail == text + (Fence + tail);
    Text.ReplaceSkipsPrefix(text, Fence + tail, Fence, "");
    Text.ReplaceLeading(tail, Fence, "");
    NoBackticksUnchanged(tail, Fence, "");
  }

  /** The script, persona and storyline services: the cleaned reply parsed as
      JSON, or, when it does not parse, the cleaned text itself. */
  function ParsedOrText(reply: string, parse: string -> Option<Json>): (r: Json)
  {
    match parse(StripFences(reply))
    case Some(j) => j
    case None => JStr(StripFences(reply))
  }

  /** A reply that is a fenced JSON block whose content parses gives the
      parsed value. */
  lemma FencedPayloadParsed(pre: string, mid: string, payload: string, post: string, tail: string,
                            parse: string -> Option<Json>, j: Json)
    requires AllSpace(pre) && AllSpace(mid) && AllSpace(post) && AllSpace(tail)
    requires NoBackticks(payload)
    requires payload == [] || (!Text.IsSpace(payload[0]) && !Text.IsSpace(payload[|payload| - 1]))
    requires parse(payload) == Some(j)
    ensures ParsedOrText(pre + JsonFence + mid + payload + post + Fence + tail, parse) == j
  {
    StripFencesFenced(pre, mid, payload, post, tail);
  }

  /** A reply without backticks that does not parse comes back as its
      trimmed text, a JSON string. */
  lemma PlainTextKept(reply: string, parse: string -> Option<Json>)
    requires NoBackticks(reply) && parse(Text.Trim(reply)).None?
    ensures ParsedOrText(reply, parse) == JStr(Text.Trim(reply))
  {
    StripFencesPlain(reply);
  }
}

=== FILE: metadata.dfy ===
/** `generate_metadata_for_storyline` (modules/metadata/service.py): the
    prompt is built by ordered placeholder replacement, the chat reply is
    cleaned of markdown fences and read as JSON, and any failure yields empty
    metadata. */
module Metadata {
  import opened Common
  import Text
  import Utils
  import LlmOutput

  /** `StoryMetadata`: tags are declared but never filled in. */
  datatype StoryMetadata = StoryMetadata(title: string, description: string, tags: seq<string>)

  const Empty: StoryMetadata := StoryMetadata("", "", [])

  const LanguageSlot: string := "{language}"
  const StorylineSlot: string := "{storyline}"

  // METADATA_PROMPT, cut at its placeholders and at the one brace of its
  // JSON example, so that each piece is free of '{'.
  const Head: string :=
    "\nWrite a compelling " + "and relevant title " + "and description for " + "the following " + "storyline. Write in "
  const Middle: string := " only. \n\n"
  const TailBeforeBrace: string := "\n\nOutput JSON:\n" + "```json\n"
  const TailAfterBrace: string :=
    "\n   \"title\": " + "\"<compelling title " + "in hindi>\",\n" + "  \"description\": " + "<brief and direct " + "description of the " + "storyline>\"\n}\n```\n"
  const Tail: string := TailBeforeBrace + "{" + TailAfterBrace

  const Template: string := Head + LanguageSlot + Middle + StorylineSlot + Tail

  /** `METADATA_PROMPT.replace("{language}", language).replace("{storyline}", storyline)`. */
  function Prompt(storyline: string, language: string): string
  {
    Text.ReplaceAll(Text.ReplaceAll(Template, LanguageSlot, language), StorylineSlot, storyline)
  }

  /** The prompt is `format_prompt` with `language` supplied before `storyline`. */
  lemma PromptIsOrderedFormat(storyline: string, language: string)
    ensures Prompt(storyline, language)
         == Utils.FormatPrompt(Template, [("language", language), ("storyline", storyline)])
  {
    var args := [("language", language), ("storyline", storyline)];
    assert Utils.Placeholder("language") == LanguageSlot;
    assert Utils.Placeholder("storyline") == StorylineSlot;
    assert args[1..] == [("storyline", storyline)];
    assert args[1..][1..] == [];
    var once := Text.ReplaceAll(Template, LanguageSlot, language);
    assert Utils.FormatPrompt(Template, args) == Utils.FormatPrompt(once, args[1..]);
    assert Utils.FormatPrompt(once, args[1..]) == Utils.FormatPrompt(Prompt(storyline, language), []);
  }

  predicate NoBrace(s: string)
  {
    forall k :: 0 <= k < |s| ==> s[k] != '{'
  }

  lemma NoBraceConcat(a: string, b: string)
    requires NoBrace(a) && NoBrace(b)
    ensures NoBrace(a + b)
  {
    forall k | 0 <= k < |a + b| ensures (a + b)[k] != '{' {
      if k < |a| { assert (a + b)[k] == a[k]; } else { assert (a + b)[k] == b[k - |a|]; }
    }
  }

  lemma PiecesHaveNoBrace()
    ensures NoBrace(Head) && NoBrace(Middle) && NoBrace(TailBeforeBrace) && NoBrace(TailAfterBrace)
    ensures NoBrace("storyline}") && TailAfterBrace[0] == '\n'
  {
    NoBraceConcat("\nWrite a compelling ", "and relevant title ");
    NoBraceConcat("\nWrite a compelling " + "and relevant title ", "and description for ");
    NoBraceConcat("\nWrite a compelling " + "and relevant title " + "and description for ", "the following ");
    NoBraceConcat("\nWrite a compelling " + "and relevant title " + "and description for " + "the following ", "storyline. Write in ");
    NoBraceConcat("\n\nOutput JSON:\n", "```json\n");
    var t1 := "\n   \"title\": " + "\"<compelling title ";
    NoBraceConcat("\n   \"title\": ", "\"<compelling title ");
    NoBraceConcat(t1, "in hindi>\",\n");
    var t2 := t1 + "in hindi>\",\n";
    NoBraceConcat(t2, "  \"description\": ");
    var t3 := t2 + "  \"description\": ";
    NoBraceConcat(t3, "<brief and direct ");
    var t4 := t3 + "<brief and direct ";
    NoBraceConcat(t4, "description of the ");
    var t5 := t4 + "description of the ";
    NoBraceConcat(t5, "storyline>\"\n}\n```\n");
  }

  /** Text without a brace is left alone by either replacement. */
  lemma Untouched(s: string, slot: string, value: string)
    requires NoBrace(s) && |slot| > 0 && slot[0] == '{'
    ensures Text.ReplaceAll(s, slot, value) == s
  {
    Text.ReplaceSkipsPrefix(s, [], slot, value);
    assert s + [] == s;
  }

  /** A brace followed by a line break never starts a placeholder. */
  lemma BraceUntouched(before: string, after: string, slot: string, value: string)
    requires NoBrace(before) && NoBrace(after) && |after| > 0 && after[0] == '\n'
    requires |slot| >= 2 && slot[0] == '{' && slot[1] != '\n'
    ensures Text.ReplaceAll(before + "{" + after, slot, value) == before + "{" + after
  {
    assert before + "{" + after == before + (['{'] + after);
    Text.ReplaceSkipsPrefix(before, ['{'] + after, slot, value);
    Text.ReplaceNotAt('{', after, slot, value);
    Untouched(after, slot, value);
  }

  /** The first pass fills in the language and leaves the storyline slot. */
  lemma LanguagePassIn(head: string, middle: string, tail: string, language: string)
    requires NoBrace(head) && NoBrace(middle)
    requires Text.ReplaceAll(tail, LanguageSlot, language) == tail
    ensures Text.ReplaceAll(head + LanguageSlot + middle + StorylineSlot + tail, LanguageSlot, language)
         == head + language + middle + StorylineSlot + tail
  {
    var rest := StorylineSlot + tail;
    assert head + LanguageSlot + middle + StorylineSlot + tail == head + (LanguageSlot + (middle + rest));
    Text.ReplaceSkipsPrefix(head, LanguageSlot + (middle + rest), LanguageSlot, language);
    Text.ReplaceLeading(middle + rest, LanguageSlot, language);
    Text.ReplaceSkipsPrefix(middle, rest, LanguageSlot, language);
    SlotSurvivesLanguagePass(tail, language);
    assert head + language + middle + StorylineSlot + tail == head + (language + (middle + rest));
  }

  /** `{storyline}` does not contain `{language}`. */
  lemma SlotSurvivesLanguagePass(tail: string, language: string)
    requires Text.ReplaceAll(tail, LanguageSlot, language) == tail
    ensures Text.ReplaceAll(StorylineSlot + tail, LanguageSlot, language) == StorylineSlot + tail
  {
    PiecesHaveNoBrace();
    assert StorylineSlot + tail == ['{'] + ("storyline}" + tail);
    Text.ReplaceNotAt('{', "storyline}" + tail, LanguageSlot, language);
    Text.ReplaceSkipsPrefix("storyline}", tail, LanguageSlot, language);
  }

  /** The second pass fills in the storyline everywhere, including inside the
      language value. */
  lemma StorylinePassIn(head: string, middle: string, tail: string, storyline: string, language: string)
    requires NoBrace(head) && NoBrace(middle) && |middle| > 0 && middle[0] == ' '
    requires Text.ReplaceAll(tail, StorylineSlot, storyline) == tail
    ensures Text.ReplaceAll(head + language + middle + StorylineSlot + tail, StorylineSlot, storyline)
         == head + Text.ReplaceAll(language, StorylineSlot, storyline) + middle + storyline + tail
  {
    assert StorylineSlot[0] == '{' && ' ' !in StorylineSlot;
    SlotPassIn(head, language, middle, StorylineSlot, tail, storyline);
  }

  /** Replacing a slot in `head + value + middle + slot + tail`, where
      neither `head` nor `middle` holds the slot's first character and the
      tail is left alone, expands the value and fills the slot. */
  lemma SlotPassIn(head: string, value: string, middle: string, slot: string, tail: string, r: string)
    requires |slot| > 0 && |middle| > 0 && middle[0] !in slot
    requires forall k :: 0 <= k < |head| ==> head[k] != slot[0]
    requires forall k :: 0 <= k < |middle| ==> middle[k] != slot[0]
    requires Text.ReplaceAll(tail, slot, r) == tail
    ensures Text.ReplaceAll(head + value + middle + slot + tail, slot, r)
         == head + Text.ReplaceAll(value, slot, r) + middle + r + tail
  {
    var rest := middle + (slot + tail);
    var expanded := Text.ReplaceAll(value, slot, r);
    assert head + value + middle + slot + tail == head + (value + rest);
    assert Text.ReplaceAll(slot + tail, slot, r) == r + tail by {
      Text.ReplaceLeading(tail, slot, r);
    }
    assert Text.ReplaceAll(rest, slot, r) == middle + (r + tail) by {
      Text.ReplaceSkipsPrefix(middle, slot + tail, slot, r);
    }
    assert Text.ReplaceAll(value + rest, slot, r) == expanded + (middle + (r + tail)) by {
      Text.ReplaceConcat(value, rest, slot, r);
    }
    assert Text.ReplaceAll(head + (value + rest), slot, r) == head + (expanded + (middle + (r + tail))) by {
      Text.ReplaceSkipsPrefix(head, value + rest, slot, r);
    }
    assert head + (expanded + (middle + (r + tail))) == head + expanded + middle + r + tail;
  }

  /** The prompt's shape: the storyline is inserted verbatim, even when it
      contains `{language}`, while a `{storyline}` inside the language value
      is expanded, because `{language}` is replaced first. */
  lemma PromptShape(storyline: string, language: string)
    ensures Prompt(storyline, language)
         == Head + Text.ReplaceAll(language, StorylineSlot, storyline) + Middle + storyline + Tail
  {
    PiecesHaveNoBrace();
    BraceUntouched(TailBeforeBrace, TailAfterBrace, LanguageSlot, language);
    BraceUntouched(TailBeforeBrace, TailAfterBrace, StorylineSlot, storyline);
    LanguagePassIn(Head, Middle, Tail, language);
    StorylinePassIn(Head, Middle, Tail, storyline, language);
  }

  /** A language without `{storyline}` appears verbatim. */
  lemma PromptPlain(storyline: string, language: string)
    requires !Text.Occurs(language, StorylineSlot)
    ensures Prompt(storyline, language) == Head + language + Middle + storyline + Tail
  {
    PromptShape(storyline, language);
    Text.ReplaceAbsent(language, StorylineSlot, storyline);
  }

  /** A field of the parsed reply as pydantic reads a `str` field: absent
      gives the default "", a string is kept, anything else fails validation. */
  function TextField(fields: map<string, Json>, key: string): (r: Option<string>)
  {
    if key !in fields then Some("")
    else match fields[key]
      case JStr(s) => Some(s)
      case _ => None
  }

  /** The call. `chat` is the model's reply to a prompt (`None` when the call
      raises) and `parse` is `json.loads` (`None` on a decoding error). */
  function GenerateMetadata(storyline: string, language: string,
                            chat: string -> Option<string>, parse: string -> Option<Json>): (m: StoryMetadata)
    // tags are never filled in
    ensures m.tags == []
    // any failure gives empty metadata
    ensures chat(Prompt(storyline, language)).None? ==> m == Empty
    ensures chat(Prompt(storyline, language)).Some? ==>
              parse(LlmOutput.StripFences(chat(Prompt(storyline, language)).value)).None? ==> m == Empty
    // a parsed object gives its title and description, "" for an absent key
    ensures chat(Prompt(storyline, language)).Some? ==>
            parse(LlmOutput.StripFences(chat(Prompt(storyline, language)).value)).Some? ==>
              var j := parse(LlmOutput.StripFences(chat(Prompt(storyline, language)).value)).value;
              if j.JObj? && TextField(j.fields, "title").Some? && TextField(j.fields, "description").Some?
              then m == StoryMetadata(TextField(j.fields, "title").value, TextField(j.fields, "description").value, [])
              else m == Empty
  {
    match chat(Prompt(storyline, language))
    case None => Empty
    case Some(reply) =>
      match parse(LlmOutput.StripFences(reply))
      case None => Empty
      case Some(j) =>
        if !j.JObj? then Empty
        else
          match (TextField(j.fields, "title"), TextField(j.fields, "description"))
          case (Some(t), Some(d)) => StoryMetadata(t, d, [])
          case _ => Empty
  }

  /** A reply that is an object with both keys as strings, wrapped in a
      fenced block, gives exactly those two strings. */
  lemma FencedReplyGivesFields(storyline: string, language: string,
                               chat: string -> Option<string>, parse: string -> Option<Json>,
                               payload: string, title: string, description: string)
    requires LlmOutput.NoBackticks(payload)
    requires payload == [] || (!Text.IsSpace(payload[0]) && !Text.IsSpace(payload[|payload| - 1]))
    requires chat(Prompt(storyline, language)) == Some(LlmOutput.JsonFence + "\n" + payload + "\n" + LlmOutput.Fence)
    requires parse(payload) == Some(JObj(map["title" := JStr(title), "description" := JStr(description)]))
    ensures GenerateMetadata(storyline, language, chat, parse) == StoryMetadata(title, description, [])
  {
    var reply := LlmOutput.JsonFence + "\n" + payload + "\n" + LlmOutput.Fence;
    assert reply == [] + LlmOutput.JsonFence + "\n" + payload + "\n" + LlmOutput.Fence + [];
    assert LlmOutput.AllSpace("\n");
    LlmOutput.StripFencesFenced([], "\n", payload, "\n", []);
  }
}

=== FILE: numerals.dfy ===
/** Integer text: rendering (`str(n)`, `f"{n:03}"`) and Python's `int(text, base)`
    for bases 10 and 16. */
module Numerals {
  import opened Common
  import Text

  /** The lower-case character for a digit value below 16. */
  function DigitChar(d: nat): char
    requires d < 16
  {
    if d < 10 then ('0' as int + d) as char else ('a' as int + d - 10) as char
  }

  /** The value of one digit character in base 16 or below, if it is one. */
  function DigitValue(c: char): Option<nat>
  {
    if '0' <= c <= '9' then Some(c as int - '0' as int)
    else if 'a' <= c <= 'f' then Some(c as int - 'a' as int + 10)
    else if 'A' <= c <= 'F' then Some(c as int - 'A' as int + 10)
    else None
  }

  predicate IsDigitOf(c: char, base: nat)
  {
    DigitValue(c).Some? && DigitValue(c).value < base
  }

  predicate AllDigits(s: string, base: nat)
  {
    forall k :: 0 <= k < |s| ==> IsDigitOf(s[k], base)
  }

  /** The number a run of digits denotes, most significant digit first. */
  function ValueOf(s: string, base: nat): nat
    requires AllDigits(s, base)
  {
    if |s| == 0 then 0
    else ValueOf(s[..|s| - 1], base) * base + DigitValue(s[|s| - 1]).value
  }

  /** The decimal digits of `n`, with no leading zeros (`str(n)`). */
  function Digits(n: nat): (s: string)
    ensures |s| >= 1 && AllDigits(s, 10)
    decreases n
  {
    if n < 10 then [DigitChar(n)] else Digits(n / 10) + [DigitChar(n % 10)]
  }

  lemma DigitCharValue(d: nat)
    requires d < 16
    ensures DigitValue(DigitChar(d)) == Some(d)
  {
  }

  /** Reading back the digits of a number gives the number. */
  lemma {:induction false} DigitsValue(n: nat)
    ensures ValueOf(Digits(n), 10) == n
    decreases n
  {
    if n < 10 {
      DigitCharValue(n);
      ValueOfSnoc([], DigitChar(n), 10);
      assert [] + [DigitChar(n)] == Digits(n);
    } else {
      var q, d := n / 10, n % 10;
      assert Digits(n) == Digits(q) + [DigitChar(d)];
      DigitsValue(q);
      DigitCharValue(d);
      ValueOfSnoc(Digits(q), DigitChar(d), 10);
      assert q * 10 + d == n;
    }
  }

  /** Appending a digit multiplies the value by the base and adds the digit. */
  lemma ValueOfSnoc(p: string, c: char, base: nat)
    requires AllDigits(p, base) && IsDigitOf(c, base)
    ensures AllDigits(p + [c], base)
    ensures ValueOf(p + [c], base) == ValueOf(p, base) * base + DigitValue(c).value
  {
    var s := p + [c];
    assert s[..|s| - 1] == p;
  }

  function Zeros(k: nat): (z: string)
    ensures |z| == k && forall i :: 0 <= i < k ==> z[i] == '0'
  {
    if k == 0 then [] else ['0'] + Zeros(k - 1)
  }

  /** Leading zeros do not change the value of a digit run. */
  lemma {:induction false} LeadingZerosValue(k: nat, s: string, base: nat)
    requires 2 <= base && AllDigits(s, base)
    ensures AllDigits(Zeros(k) + s, base)
    ensures ValueOf(Zeros(k) + s, base) == ValueOf(s, base)
    decreases |s|
  {
    var t := Zeros(k) + s;
    assert AllDigits(t, base) by {
      forall i | 0 <= i < |t| ensures IsDigitOf(t[i], base) {
        if i < k { assert t[i] == '0'; } else { assert t[i] == s[i - k]; }
      }
    }
    if |s| == 0 {
      assert t == Zeros(k);
      ZerosValue(k, base);
    } else {
      assert t[..|t| - 1] == Zeros(k) + s[..|s| - 1];
      assert t[|t| - 1] == s[|s| - 1];
      LeadingZerosValue(k, s[..|s| - 1], base);
    }
  }

  lemma {:induction false} ZerosValue(k: nat, base: nat)
    requires 2 <= base
    ensures AllDigits(Zeros(k), base) && ValueOf(Zeros(k), base) == 0
  {
    if k > 0 {
      ZerosValue(k - 1, base);
      assert Zeros(k)[..k - 1] == Zeros(k - 1);
    }
  }

  /** `f"{n:0{width}}"` for a non-negative `n`: decimal digits, left-padded
      with zeros to at least `width` characters. */
  function ZeroPad(n: nat, width: nat): (s: string)
    ensures |s| >= width && AllDigits(s, 10)
    ensures ValueOf(s, 10) == n
  {
    var d := Digits(n);
    var z := if |d| < width then width - |d| else 0;
    DigitsValue(n);
    LeadingZerosValue(z, d, 10);
    Zeros(z) + d
  }

  /** The most decimal digits `int` and `str` convert: since Python 3.11
      both raise `ValueError` beyond it (`sys.get_int_max_str_digits()`). The
      limit does not apply to base 16, a power of two. */
  const MaxStrDigits: nat := 4300

  function Abs(i: int): nat
  {
    if i < 0 then -i else i
  }

  /** `str(i)` does not raise. */
  predicate Printable(i: int)
  {
    |Digits(Abs(i))| <= MaxStrDigits
  }

  /** Python's `str(i)`. */
  function IntToText(i: int): string
    requires Printable(i)
  {
    if i < 0 then "-" + Digits(-i) else Digits(i)
  }

  // ---------------------------------------------------------------------------
  // int(text, base)

  /** A digit run with single underscores between digits (PEP 515). */
  predicate GroupedDigits(s: string, base: nat)
  {
    && |s| > 0
    && IsDigitOf(s[0], base)
    && IsDigitOf(s[|s| - 1], base)
    && (forall k :: 0 <= k < |s| ==> IsDigitOf(s[k], base) || s[k] == '_')
    && (forall k :: 1 <= k < |s| ==> s[k - 1] != '_' || s[k] != '_')
  }

  function DropUnderscores(s: string): (r: string)
    ensures |r| <= |s|
  {
    if |s| == 0 then []
    else (if s[0] == '_' then [] else [s[0]]) + DropUnderscores(s[1..])
  }

  lemma {:induction false} DropUnderscoresDigits(s: string, base: nat)
    requires forall k :: 0 <= k < |s| ==> IsDigitOf(s[k], base) || s[k] == '_'
    ensures AllDigits(DropUnderscores(s), base)
    decreases |s|
  {
    if |s| > 0 {
      DropUnderscoresDigits(s[1..], base);
    }
  }

  lemma {:induction false} DropUnderscoresNone(s: string, base: nat)
    requires AllDigits(s, base)
    ensures DropUnderscores(s) == s
    decreases |s|
  {
    if |s| > 0 {
      DropUnderscoresNone(s[1..], base);
      assert s == [s[0]] + s[1..];
    }
  }

  /** The value of a grouped digit run. */
  function GroupedValue(s: string, base: nat): nat
    requires GroupedDigits(s, base)
  {
    DropUnderscoresDigits(s, base);
    ValueOf(DropUnderscores(s), base)
  }

  /** The unsigned part of an integer literal: for base 16 an optional `0x`
      prefix, which may be followed by one underscore; for base 10 at most
      `MaxStrDigits` digits. */
  function ParseMagnitude(s: string, base: nat): Option<nat>
  {
    if base == 16 && |s| >= 2 && s[0] == '0' && (s[1] == 'x' || s[1] == 'X') then
      var rest := if |s| > 2 && s[2] == '_' then s[3..] else s[2..];
      if GroupedDigits(rest, base) then Some(GroupedValue(rest, base)) else None
    else if GroupedDigits(s, base) then
      if base == 10 && |DropUnderscores(s)| > MaxStrDigits then None else Some(GroupedValue(s, base))
    else None
  }

  /** Python's `int(text, base)` for base 10 or 16: surrounding whitespace,
      an optional sign, then the digits; `None` is the `ValueError`. */
  function ParseInt(text: string, base: nat): (r: Option<int>)
    ensures r.Some? ==> Text.Trim(text) != []
  {
    ParseSigned(Text.Trim(text), base)
  }

  /** A literal without surrounding whitespace: an optional sign, then the
      magnitude. */
  function ParseSigned(t: string, base: nat): Option<int>
  {
    if |t| > 0 && (t[0] == '+' || t[0] == '-') then
      match ParseMagnitude(t[1..], base)
      case Some(m) => var v := m as int; Some(if t[0] == '-' then -v else v)
      case None => None
    else
      match ParseMagnitude(t, base)
      case Some(m) => Some(m)
      case None => None
  }

  /** Text without whitespace is its own `strip()`. */
  lemma TrimNoSpace(t: string)
    requires forall k :: 0 <= k < |t| ==> !Text.IsSpace(t[k])
    ensures Text.Trim(t) == t
  {
    Text.StripFindsCore([], t, [], Text.IsSpace);
    assert [] + t + [] == t;
  }

  /** Decimal digits are plain ASCII digits. */
  lemma DigitsAreAscii(n: nat)
    ensures forall k :: 0 <= k < |Digits(n)| ==> '0' <= Digits(n)[k] <= '9'
  {
    var d := Digits(n);
    forall k | 0 <= k < |d| ensures '0' <= d[k] <= '9' {
      assert IsDigitOf(d[k], 10);
    }
  }

  lemma MagnitudeOfDigits(n: nat)
    requires |Digits(n)| <= MaxStrDigits
    ensures ParseMagnitude(Digits(n), 10) == Some(n)
  {
    var d := Digits(n);
    DigitsAreAscii(n);
    assert GroupedDigits(d, 10);
    DigitsValue(n);
    DropUnderscoresNone(d, 10);
    assert GroupedValue(d, 10) == n;
  }

  /** Unsigned text that is its own `strip()` parses to its magnitude. */
  lemma ParsePlain(t: string, base: nat, m: nat)
    requires Text.Trim(t) == t && |t| > 0 && t[0] != '+' && t[0] != '-'
    requires ParseMagnitude(t, base) == Some(m)
    ensures ParseInt(t, base) == Some(m)
  {
  }

  /** A minus sign before a magnitude negates it. */
  lemma ParseMinus(t: string, base: nat, m: nat)
    requires Text.Trim(t) == t && |t| > 0 && t[0] == '-'
    requires ParseMagnitude(t[1..], base) == Some(m)
    ensures ParseInt(t, base) == Some(-(m as int))
  {
  }

  /** `str(n)` has no surrounding whitespace and starts with a digit. */
  lemma DigitsTrimmed(n: nat)
    ensures Text.Trim(Digits(n)) == Digits(n)
    ensures '0' <= Digits(n)[0] <= '9'
  {
    var d := Digits(n);
    DigitsAreAscii(n);
    forall k | 0 <= k < |d| ensures !Text.IsSpace(d[k]) {
      assert '0' <= d[k] <= '9';
    }
    TrimNoSpace(d);
  }

  /** `"-" + str(n)` has no surrounding whitespace. */
  lemma NegatedTrimmed(n: nat)
    ensures Text.Trim("-" + Digits(n)) == "-" + Digits(n)
  {
    var d := Digits(n);
    var text := "-" + d;
    DigitsAreAscii(n);
    forall k | 0 <= k < |text| ensures !Text.IsSpace(text[k]) {
      if k > 0 { assert text[k] == d[k - 1]; }
    }
    TrimNoSpace(text);
  }

  /** `int(str(n))` is `n` for a non-negative `n`. */
  lemma ParseDigits(n: nat)
    requires |Digits(n)| <= MaxStrDigits
    ensures ParseInt(Digits(n), 10) == Some(n)
  {
    DigitsTrimmed(n);
    MagnitudeOfDigits(n);
    ParsePlain(Digits(n), 10, n);
  }

  /** `int("-" + str(n))` is `-n`. */
  lemma ParseNegated(n: nat)
    requires |Digits(n)| <= MaxStrDigits
    ensures ParseInt("-" + Digits(n), 10) == Some(-(n as int))
  {
    var text := "-" + Digits(n);
    NegatedTrimmed(n);
    MagnitudeOfDigits(n);
    assert text[1..] == Digits(n);
    ParseMinus(text, 10, n);
  }

  /** `int(str(i))` is `i` for every integer `str` can write. */
  lemma ParseIntRoundTrip(i: int)
    requires Printable(i)
    ensures ParseInt(IntToText(i), 10) == Some(i)
  {
    if i < 0 {
      ParseNegativeText(i);
    } else {
      ParseNonNegativeText(i);
    }
  }

  lemma ParseNegativeText(i: int)
    requires i < 0 && Printable(i)
    ensures ParseInt(IntToText(i), 10) == Some(i)
  {
    var n := Abs(i);
    assert IntToText(i) == "-" + Digits(n);
    ParseNegated(n);
  }

  lemma ParseNonNegativeText(i: int)
    requires 0 <= i && Printable(i)
    ensures ParseInt(IntToText(i), 10) == Some(i)
  {
    var n := Abs(i);
    assert IntToText(i) == Digits(n);
    ParseDigits(n);
  }

  /** A decimal literal of more than `MaxStrDigits` digits is refused, even
      when its value is small (leading zeros count). */
  lemma ParseRefusesLongDecimal(s: string)
    requires AllDigits(s, 10) && |s| > MaxStrDigits
    ensures ParseInt(s, 10).None?
  {
    forall k | 0 <= k < |s| ensures !Text.IsSpace(s[k]) && '0' <= s[k] <= '9' {
      assert IsDigitOf(s[k], 10);
    }
    TrimNoSpace(s);
    LongDecimalMagnitude(s);
  }

  /** The 4300-digit limit, for the magnitude alone. */
  lemma LongDecimalMagnitude(s: string)
    requires AllDigits(s, 10) && |s| > MaxStrDigits
    ensures ParseMagnitude(s, 10).None?
  {
    DropUnderscoresNone(s, 10);
    assert GroupedDigits(s, 10) by {
      forall k | 0 <= k < |s| ensures s[k] != '_' {
        assert IsDigitOf(s[k], 10);
      }
    }
  }

  /** Surrounding whitespace never changes what `int` reads. */
  lemma ParseIgnoresSurroundingSpace(text: string, base: nat)
    ensures ParseInt(Text.Trim(text), base) == ParseInt(text, base)
  {
    Text.StripIdempotent(text, Text.IsSpace);
  }
}

=== FILE: pagination.dfy ===
/** `get_pagination` (shared/pagination.py): page, limit and search text from
    the query string. A query string is modelled as a map from parameter name
    to its value. */
module Paging {
  import opened Common
  import Numerals

  datatype Pagination = Pagination(page: int, limit: int, userQuery: Option<string>)

  /** The `ValueError` of `int()` on a parameter that is not an integer. */
  datatype PagingError = NotAnInteger(parameter: string, text: string)

  function Lookup(query: map<string, string>, name: string, default: string): string
  {
    if name in query then query[name] else default
  }

  function GetPagination(query: map<string, string>): (r: Result<Pagination, PagingError>)
    // page is read before limit; either failing to parse raises
    ensures Numerals.ParseInt(Lookup(query, "page", "1"), 10).None? ==>
              r == Err(NotAnInteger("page", Lookup(query, "page", "1")))
    ensures Numerals.ParseInt(Lookup(query, "page", "1"), 10).Some? &&
            Numerals.ParseInt(Lookup(query, "limit", "10"), 10).None? ==>
              r == Err(NotAnInteger("limit", Lookup(query, "limit", "10")))
    // any text `int` reads is accepted, signs, whitespace and leading zeros
    // included
    ensures r.Ok? <==> Numerals.ParseInt(Lookup(query, "page", "1"), 10).Some?
                       && Numerals.ParseInt(Lookup(query, "limit", "10"), 10).Some?
    // no range check: whatever integers were given are passed on
    ensures r.Ok? ==>
              && Numerals.ParseInt(Lookup(query, "page", "1"), 10) == Some(r.value.page)
              && Numerals.ParseInt(Lookup(query, "limit", "10"), 10) == Some(r.value.limit)
              && (r.value.userQuery.Some? <==> "q" in query)
              && ("q" in query ==> r.value.userQuery.value == query["q"])
  {
    var pageText := Lookup(query, "page", "1");
    var limitText := Lookup(query, "limit", "10");
    match Numerals.ParseInt(pageText, 10)
    case None => Err(NotAnInteger("page", pageText))
    case Some(page) =>
      match Numerals.ParseInt(limitText, 10)
      case None => Err(NotAnInteger("limit", limitText))
      case Some(limit) =>
        Ok(Pagination(page, limit, if "q" in query then Some(query["q"]) else None))
  }

  /** Absent parameters give page 1, limit 10 and no search text. */
  lemma Defaults()
    ensures GetPagination(map[]) == Ok(Pagination(1, 10, None))
  {
    Numerals.ParseIntRoundTrip(1);
    Numerals.ParseIntRoundTrip(10);
    assert Numerals.IntToText(1) == "1";
    assert Numerals.IntToText(10) == "10";
  }

  /** Any integers written as `str(n)` come back unchanged, zero and negative
      ones included. */
  lemma RoundTrip(page: int, limit: int)
    requires Numerals.Printable(page) && Numerals.Printable(limit)
    ensures GetPagination(map["page" := Numerals.IntToText(page), "limit" := Numerals.IntToText(limit)])
         == Ok(Pagination(page, limit, None))
  {
    var query := map["page" := Numerals.IntToText(page), "limit" := Numerals.IntToText(limit)];
    assert Lookup(query, "page", "1") == Numerals.IntToText(page);
    assert Lookup(query, "limit", "10") == Numerals.IntToText(limit);
    Numerals.ParseIntRoundTrip(page);
    Numerals.ParseIntRoundTrip(limit);
    assert "q" !in query;
  }

  /** A page number of more than 4300 decimal digits is refused by `int`,
      whatever its value. */
  lemma LongPageIsRejected(digits: string)
    requires Numerals.AllDigits(digits, 10) && |digits| > Numerals.MaxStrDigits
    ensures GetPagination(map["page" := digits]) == Err(NotAnInteger("page", digits))
  {
    Numerals.ParseRefusesLongDecimal(digits);
  }
}

=== FILE: records.dfy ===
/** The stored records the routes read and write (shared/database.py,
    shared/models/story.py, shared/models/user.py), as immutable values. A
    table is a sequence of rows in storage order; nullable columns are
    options. UUIDs are their 128-bit values and times are seconds on the
    server's clock. */
module Records {
  import opened Common
  import Uuids

  /** A UUID is a 128-bit value. */
  type Uuid = u: nat | u < Uuids.Bound
  type Time = int

  const Day: int := 86400

  /** A row of `stories`. */
  datatype Story = Story(
    id: Uuid,
    creatorId: Option<Uuid>,
    userInput: Option<string>,
    language: Option<string>,
    title: Option<string>,
    description: Option<string>,
    audioSrc: Option<string>,
    imageSrc: Option<string>,
    status: Option<string>,
    createdAt: Time,
    deletedAt: Option<Time>)

  /** A row of `users`; `role` is the one column that is never null. */
  datatype User = User(
    id: Uuid,
    firstName: Option<string>,
    lastName: Option<string>,
    email: Option<string>,
    passwordHash: Option<string>,
    source: Option<string>,
    sourceId: Option<string>,
    role: string,
    createdAt: Time,
    deletedAt: Option<Time>)

  /** A row of `subscriptions`. */
  datatype Subscription = Subscription(
    id: Uuid,
    userId: Option<Uuid>,
    displayName: Option<string>,
    expiresAt: Option<Time>,
    credits: real,
    createdAt: Time,
    deletedAt: Option<Time>)

  const DefaultRole: string := "user"
  const DefaultCredits: real := 20.0
  const EarlyAdopter: string := "Early Adopter"

  /** The unique index on `users.email`: no two rows share a non-null email. */
  predicate UniqueEmails(users: seq<User>)
  {
    forall i, j :: 0 <= i < j < |users| && users[i].email.Some? ==> users[i].email != users[j].email
  }

  predicate UserIdTaken(users: seq<User>, id: Uuid)
  {
    exists i :: 0 <= i < |users| && users[i].id == id
  }

  predicate SubscriptionIdTaken(subscriptions: seq<Subscription>, id: Uuid)
  {
    exists i :: 0 <= i < |subscriptions| && subscriptions[i].id == id
  }

  /** The two tables the account routes write. */
  datatype Store = Store(users: seq<User>, subscriptions: seq<Subscription>)

  /** The first user whose email is `email` (`WHERE email = ...`, deleted
      rows included); `None` compares as SQL `IS NULL`. */
  function FindByEmail(users: seq<User>, email: Option<string>): (r: Option<nat>)
    ensures r.None? <==> forall i :: 0 <= i < |users| ==> users[i].email != email
    ensures r.Some? ==> r.value < |users| && users[r.value].email == email
    ensures r.Some? ==> forall i :: 0 <= i < r.value ==> users[i].email != email
  {
    if |users| == 0 then None
    else if users[0].email == email then Some(0)
    else match FindByEmail(users[1..], email)
      case None => None
      case Some(i) => Some(i + 1)
  }

  /** A row whose address is not on file keeps the addresses unique. */
  lemma AppendKeepsEmailsUnique(users: seq<User>, u: User)
    requires UniqueEmails(users)
    requires u.email.Some? ==> FindByEmail(users, u.email).None?
    ensures UniqueEmails(users + [u])
  {
    var after := users + [u];
    forall i, j | 0 <= i < j < |after| && after[i].email.Some?
      ensures after[i].email != after[j].email
    {
      assert after[i] == users[i];
      if j < |users| {
        assert after[j] == users[j];
      }
    }
  }

  /** Changing rows without touching their addresses keeps them unique. */
  lemma SameEmailsKeepUnique(users: seq<User>, after: seq<User>)
    requires UniqueEmails(users) && |after| == |users|
    requires forall j :: 0 <= j < |users| ==> after[j].email == users[j].email
    ensures UniqueEmails(after)
  {
  }

  /** A new subscription with the column defaults. */
  function NewSubscription(id: Uuid, userId: Uuid, now: Time, days: int): Subscription
  {
    Subscription(id, Some(userId), Some(EarlyAdopter), Some(now + days * Day), DefaultCredits, now, None)
  }
}

=== FILE: requests.dfy ===
/** The body checks of the two generation endpoints: `request_voice_generation`
    (routers/voice.py) and `request_script_generation` (routers/script.py).
    A body is what `await req.json()` decodes, `None` when it is not JSON. */
module Requests {
  import opened Common
  import opened Files
  import VoiceItems
  import VoiceService
  import LlmOutput
  import Text

  const EmptyBody: HttpError := HttpError(Unprocessable, "empty request body")

  /** `not body`: decoded, but a falsy JSON value. */
  predicate EmptyJson(body: Option<Json>)
  {
    body.Some? && !Truthy(body.value)
  }

  /** A body `.get` can be called on: a non-empty object. */
  predicate FilledObject(body: Option<Json>)
  {
    body.Some? && Truthy(body.value) && body.value.JObj?
  }

  // ---------------------------------------------------------------------------
  // POST /voice

  /** What the voice pipeline is called with. */
  datatype VoiceCall = VoiceCall(script: seq<Json>, language: string)

  /** A value that `x in dict` can hash: not a list or an object. */
  predicate Hashable(v: Json)
  {
    !v.JArr? && !v.JObj?
  }

  /** The checks of routers/voice.py in their order; the first failure decides. */
  function CheckVoiceBody(body: Option<Json>, languageCodes: map<string, string>): (r: Result<VoiceCall, HttpError>)
    // the pipeline is reached exactly when every check passes
    ensures r.Ok? <==>
              && FilledObject(body)
              && Get(body.value.fields, "script").JArr? && Get(body.value.fields, "script").items != []
              && Get(body.value.fields, "language").JStr? && Get(body.value.fields, "language").s != ""
              && Get(body.value.fields, "language").s in languageCodes
    ensures r.Ok? ==> r.value == VoiceCall(Get(body.value.fields, "script").items, Get(body.value.fields, "language").s)
    // undecodable body, or a body without `.get`: an unhandled exception
    ensures body.None? ==> r.Err? && r.error.status == InternalError
    ensures EmptyJson(body) ==> r == Err(EmptyBody)
    ensures body.Some? && Truthy(body.value) && !body.value.JObj? ==> r.Err? && r.error.status == InternalError
    // the script checks: presence (an empty list included) before type
    ensures FilledObject(body) && !Truthy(Get(body.value.fields, "script")) ==>
              r == Err(HttpError(BadRequest, "'script' is required"))
    ensures FilledObject(body) && Truthy(Get(body.value.fields, "script")) && !Get(body.value.fields, "script").JArr? ==>
              r == Err(HttpError(BadRequest, "'script' should be a list of dialog objects."))
    // the language checks, once the script is a non-empty list
    ensures FilledObject(body) && Get(body.value.fields, "script").JArr? && Get(body.value.fields, "script").items != [] ==>
              var language := Get(body.value.fields, "language");
              && (!Truthy(language) ==> r == Err(HttpError(BadRequest, "'language' is required")))
              && (Truthy(language) && !Hashable(language) ==> r.Err? && r.error.status == InternalError)
              && (Truthy(language) && Hashable(language) && !(language.JStr? && language.s in languageCodes) ==>
                    r == Err(HttpError(BadRequest, "unknown value for 'language'")))
  {
    match body
    case None => Err(Crash("JSONDecodeError"))
    case Some(b) =>
      if !Truthy(b) then Err(EmptyBody)
      else if !b.JObj? then Err(Crash("AttributeError: object has no attribute 'get'"))
      else
        var script := Get(b.fields, "script");
        var language := Get(b.fields, "language");
        if !Truthy(script) then Err(HttpError(BadRequest, "'script' is required"))
        else if !script.JArr? then Err(HttpError(BadRequest, "'script' should be a list of dialog objects."))
        else if !Truthy(language) then Err(HttpError(BadRequest, "'language' is required"))
        else if !Hashable(language) then Err(Crash("TypeError: unhashable type"))
        else if !(language.JStr? && language.s in languageCodes) then
          Err(HttpError(BadRequest, "unknown value for 'language'"))
        else Ok(VoiceCall(script.items, language.s))
  }

  /** The endpoint: checks, then the pipeline, whose failures are 500s. */
  method RequestVoiceGeneration(body: Option<Json>, requestId: string, fs: FileSystem, env: VoiceItems.Env)
    returns (r: Result<string, HttpError>, fs': FileSystem)
    // a failed check answers before anything is touched
    ensures CheckVoiceBody(body, env.languageCodes).Err? ==>
              r == Err(CheckVoiceBody(body, env.languageCodes).error) && fs' == fs
    // otherwise the answer is the pipeline's, with errors turned into 500s
    ensures CheckVoiceBody(body, env.languageCodes).Ok? ==>
              var call := CheckVoiceBody(body, env.languageCodes).value;
              var run := VoiceService.GenerateVoice(call.script, call.language, requestId, fs, env);
              && fs' == run.1
              && (r.Ok? <==> run.0.Ok?)
              && (r.Ok? ==> r.value == VoiceService.CompiledPath(requestId))
              && (r.Err? ==> r.error.status == InternalError)
  {
    var checked := CheckVoiceBody(body, env.languageCodes);
    if checked.Err? {
      return Err(checked.error), fs;
    }
    var result, written := VoiceService.GenerateVoiceForScript(checked.value.script, checked.value.language, requestId, fs, env);
    fs' := written;
    match result {
      case Ok(path) => r := Ok(path);
      case Err(_) => r := Err(Crash("voice generation failed"));
    }
  }

  // ---------------------------------------------------------------------------
  // POST /script

  /** The checks of routers/script.py: all three values are read first, then
      checked in the order outline, persona, language. */
  function CheckScriptBody(body: Option<Json>): (r: Result<(Json, Json, Json), HttpError>)
    ensures r.Ok? <==>
              && FilledObject(body)
              && Truthy(Get(body.value.fields, "story_outline"))
              && Truthy(Get(body.value.fields, "persona"))
              && Truthy(Get(body.value.fields, "language"))
    ensures r.Ok? ==> r.value == (Get(body.value.fields, "story_outline"),
                                  Get(body.value.fields, "persona"),
                                  Get(body.value.fields, "language"))
    ensures body.None? ==> r.Err? && r.error.status == InternalError
    ensures EmptyJson(body) ==> r == Err(EmptyBody)
    ensures body.Some? && Truthy(body.value) && !body.value.JObj? ==> r.Err? && r.error.status == InternalError
    ensures FilledObject(body) ==>
              var f := body.value.fields;
              && (!Truthy(Get(f, "story_outline")) ==>
                    r == Err(HttpError(BadRequest, "'story_outline' is required")))
              && (Truthy(Get(f, "story_outline")) && !Truthy(Get(f, "persona")) ==>
                    r == Err(HttpError(BadRequest, "'persona' is required")))
              && (Truthy(Get(f, "story_outline")) && Truthy(Get(f, "persona")) && !Truthy(Get(f, "language")) ==>
                    r == Err(HttpError(BadRequest, "'language' is required")))
  {
    match body
    case None => Err(Crash("JSONDecodeError"))
    case Some(b) =>
      if !Truthy(b) then Err(EmptyBody)
      else if !b.JObj? then Err(Crash("AttributeError: object has no attribute 'get'"))
      else
        var outline := Get(b.fields, "story_outline");
        var persona := Get(b.fields, "persona");
        var language := Get(b.fields, "language");
        if !Truthy(outline) then Err(HttpError(BadRequest, "'story_outline' is required"))
        else if !Truthy(persona) then Err(HttpError(BadRequest, "'persona' is required"))
        else if !Truthy(language) then Err(HttpError(BadRequest, "'language' is required"))
        else Ok((outline, persona, language))
  }

  /** The endpoint. `chat` is the model's reply for the three values (`None`
      when the call raises); `parse` is `json.loads`. The prompt is built
      with `str.replace`, so a language that is not a string raises before the
      model is asked. The reply is cleaned and parsed, and kept as text when
      it does not parse, as the script service does; the result is wrapped as
      `{"script": ...}`. */
  function RequestScriptGeneration(body: Option<Json>, chat: (Json, Json, Json) -> Option<string>,
                                   parse: string -> Option<Json>): (r: Result<Json, HttpError>)
    ensures CheckScriptBody(body).Err? ==> r == Err(CheckScriptBody(body).error)
    ensures CheckScriptBody(body).Ok? && !CheckScriptBody(body).value.2.JStr? ==>
              r.Err? && r.error.status == InternalError
    ensures CheckScriptBody(body).Ok? && CheckScriptBody(body).value.2.JStr? ==>
              var (o, p, l) := CheckScriptBody(body).value;
              && (chat(o, p, l).None? ==> r.Err? && r.error.status == InternalError)
              && (chat(o, p, l).Some? ==>
                    r == Ok(JObj(map["script" := LlmOutput.ParsedOrText(chat(o, p, l).value, parse)])))
  {
    match CheckScriptBody(body)
    case Err(e) => Err(e)
    case Ok((outline, persona, language)) =>
      if !language.JStr? then Err(Crash("TypeError: replace() argument 2 must be str"))
      else match chat(outline, persona, language)
      case None => Err(Crash("script generation failed"))
      case Some(reply) => Ok(JObj(map["script" := LlmOutput.ParsedOrText(reply, parse)]))
  }

  /** A valid body with a string language whose reply is a fenced JSON
      block that parses is answered with `{"script": <the parsed block>}`. */
  lemma FencedScriptIsParsed(body: Option<Json>, chat: (Json, Json, Json) -> Option<string>,
                             parse: string -> Option<Json>, pre: string, mid: string, payload: string,
                             post: string, tail: string, j: Json)
    requires CheckScriptBody(body).Ok? && CheckScriptBody(body).value.2.JStr?
    requires var (o, p, l) := CheckScriptBody(body).value;
             chat(o, p, l) == Some(pre + LlmOutput.JsonFence + mid + payload + post + LlmOutput.Fence + tail)
    requires LlmOutput.AllSpace(pre) && LlmOutput.AllSpace(mid) && LlmOutput.AllSpace(post) && LlmOutput.AllSpace(tail)
    requires LlmOutput.NoBackticks(payload)
    requires payload == [] || (!Text.IsSpace(payload[0]) && !Text.IsSpace(payload[|payload| - 1]))
    requires parse(payload) == Some(j)
    ensures RequestScriptGeneration(body, chat, parse) == Ok(JObj(map["script" := j]))
  {
    LlmOutput.FencedPayloadParsed(pre, mid, payload, post, tail, parse, j);
  }
}

=== FILE: sorting.dfy ===
/** Sorting by an integer key (Python's `list.sort(key=...)`), and the
    fact that makes a sort restore an order: a sorted permutation of a
    sequence with strictly increasing keys is that sequence. */
module Sorting {

  predicate SortedBy<T>(s: seq<T>, key: T -> int)
  {
    forall i, j :: 0 <= i < j < |s| ==> key(s[i]) <= key(s[j])
  }

  predicate StrictlyIncreasing<T>(s: seq<T>, key: T -> int)
  {
    forall i, j :: 0 <= i < j < |s| ==> key(s[i]) < key(s[j])
  }

  /** Insert `x` after every element whose key is not greater than its own. */
  function Insert<T>(x: T, s: seq<T>, key: T -> int): (r: seq<T>)
    requires SortedBy(s, key)
    ensures |r| == |s| + 1
    ensures multiset(r) == multiset(s) + multiset{x}
    ensures SortedBy(r, key)
  {
    if |s| == 0 then [x]
    else if key(x) < key(s[0]) then [x] + s
    else
      var rest := Insert(x, s[1..], key);
      assert s == [s[0]] + s[1..];
      assert forall k :: 0 <= k < |s[1..]| ==> key(s[0]) <= key(s[1..][k]) by {
        forall k | 0 <= k < |s[1..]| ensures key(s[0]) <= key(s[1..][k]) {
          assert s[1..][k] == s[k + 1];
        }
      }
      BoundKept(s[0], x, s[1..], rest, key);
      [s[0]] + rest
  }

  /** A lower bound on the keys of `s` and of `x` bounds every key of a
      rearrangement of `s` with `x` added. */
  lemma BoundKept<T>(lo: T, x: T, s: seq<T>, r: seq<T>, key: T -> int)
    requires multiset(r) == multiset(s) + multiset{x}
    requires key(lo) <= key(x)
    requires forall k :: 0 <= k < |s| ==> key(lo) <= key(s[k])
    ensures forall k :: 0 <= k < |r| ==> key(lo) <= key(r[k])
  {
    forall k | 0 <= k < |r| ensures key(lo) <= key(r[k]) {
      assert r[k] in multiset(r);
      if r[k] != x {
        assert r[k] in multiset(s);
        var j :| 0 <= j < |s| && s[j] == r[k];
      }
    }
  }

  /** Insertion sort by key. */
  function SortBy<T>(s: seq<T>, key: T -> int): (r: seq<T>)
    ensures |r| == |s|
    ensures multiset(r) == multiset(s)
    ensures SortedBy(r, key)
  {
    if |s| == 0 then []
    else
      assert s == s[..|s| - 1] + [s[|s| - 1]];
      Insert(s[|s| - 1], SortBy(s[..|s| - 1], key), key)
  }

  /** A sorted sequence holding the same elements as a sequence whose keys
      strictly increase is equal to it. */
  lemma {:induction false} SortedPermutationUnique<T>(a: seq<T>, b: seq<T>, key: T -> int)
    requires SortedBy(a, key) && StrictlyIncreasing(b, key)
    requires multiset(a) == multiset(b)
    ensures a == b
    decreases |a|
  {
    assert |a| == |b| by {
      assert |a| == |multiset(a)| == |multiset(b)| == |b|;
    }
    if |a| > 0 {
      FirstsAgree(a, b, key);
      TailsAgreeAsMultisets(a, b);
      assert SortedBy(a[1..], key) by { SortedTail(a, key); }
      assert StrictlyIncreasing(b[1..], key) by { IncreasingTail(b, key); }
      SortedPermutationUnique(a[1..], b[1..], key);
      assert a == [a[0]] + a[1..] && b == [b[0]] + b[1..];
    }
  }

  lemma TailsAgreeAsMultisets<T>(a: seq<T>, b: seq<T>)
    requires multiset(a) == multiset(b) && |a| > 0 && |b| > 0 && a[0] == b[0]
    ensures multiset(a[1..]) == multiset(b[1..])
  {
    assert a == [a[0]] + a[1..];
    assert b == [b[0]] + b[1..];
    assert multiset(a[1..]) == multiset(a) - multiset{a[0]};
    assert multiset(b[1..]) == multiset(b) - multiset{b[0]};
  }

  lemma SortedTail<T>(s: seq<T>, key: T -> int)
    requires SortedBy(s, key) && |s| > 0
    ensures SortedBy(s[1..], key)
  {
    forall i, j | 0 <= i < j < |s| - 1 ensures key(s[1..][i]) <= key(s[1..][j]) {
      assert s[1..][i] == s[i + 1] && s[1..][j] == s[j + 1];
    }
  }

  lemma IncreasingTail<T>(s: seq<T>, key: T -> int)
    requires StrictlyIncreasing(s, key) && |s| > 0
    ensures StrictlyIncreasing(s[1..], key)
  {
    forall i, j | 0 <= i < j < |s| - 1 ensures key(s[1..][i]) < key(s[1..][j]) {
      assert s[1..][i] == s[i + 1] && s[1..][j] == s[j + 1];
    }
  }

  /** Both sequences start with the element of least key. */
  lemma FirstsAgree<T>(a: seq<T>, b: seq<T>, key: T -> int)
    requires SortedBy(a, key) && StrictlyIncreasing(b, key)
    requires multiset(a) == multiset(b) && |a| > 0 && |b| > 0
    ensures a[0] == b[0]
  {
    assert a[0] in multiset(b);
    var j :| 0 <= j < |b| && b[j] == a[0];
    assert b[0] in multiset(a);
    var k :| 0 <= k < |a| && a[k] == b[0];
    assert key(a[0]) <= key(a[k]);
    assert key(b[j]) <= key(b[0]);
    assert j == 0;
  }

  /** Sorting any rearrangement of a sequence with strictly increasing keys
      gives back that sequence. */
  lemma SortRestoresOrder<T>(shuffled: seq<T>, original: seq<T>, key: T -> int)
    requires StrictlyIncreasing(original, key)
    requires multiset(shuffled) == multiset(original)
    ensures SortBy(shuffled, key) == original
  {
    SortedPermutationUnique(SortBy(shuffled, key), original, key);
  }

  ghost predicate Distinct<T>(s: seq<T>)
  {
    forall i, j :: 0 <= i < j < |s| ==> s[i] != s[j]
  }

  /** In a duplicate-free sequence every element occurs once. */
  lemma {:induction false} DistinctCount<T>(s: seq<T>, x: T)
    requires Distinct(s)
    ensures multiset(s)[x] == if x in s then 1 else 0
    decreases |s|
  {
    if |s| > 0 {
      var rest := s[1..];
      assert Distinct(rest) by {
        forall i, j | 0 <= i < j < |rest| ensures rest[i] != rest[j] {
          assert rest[i] == s[i + 1] && rest[j] == s[j + 1];
        }
      }
      DistinctCount(rest, x);
      assert s == [s[0]] + rest;
      assert s[0] !in rest by {
        forall j | 0 <= j < |rest| ensures rest[j] != s[0] {
          assert rest[j] == s[j + 1];
        }
      }
      assert x in s <==> x == s[0] || x in rest;
    }
  }

  /** Two duplicate-free sequences with the same elements are permutations
      of each other. */
  lemma SameElementsSameMultiset<T>(a: seq<T>, b: seq<T>)
    requires Distinct(a) && Distinct(b)
    requires forall x :: x in a <==> x in b
    ensures multiset(a) == multiset(b)
  {
    forall x ensures multiset(a)[x] == multiset(b)[x] {
      DistinctCount(a, x);
      DistinctCount(b, x);
    }
  }
}

=== FILE: stories.dfy ===
/** The story routes of routers/story.py over the `stories` table: the
    caller's paged listing, the partial update, and the soft delete. The
    caller is the authenticated user's id. */
module Stories {
  import opened Common
  import opened Records
  import Sorting
  import Paging
  import Uuids

  /** The filter both listing queries use: the caller's own, not deleted. */
  predicate Visible(s: Story, uid: Uuid)
  {
    s.creatorId == Some(uid) && s.deletedAt.None?
  }

  /** The rows the filter selects, in storage order. */
  function Owned(stories: seq<Story>, uid: Uuid): (r: seq<Story>)
    ensures |r| <= |stories|
    ensures forall s :: s in r ==> s in stories && Visible(s, uid)
  {
    if |stories| == 0 then []
    else (if Visible(stories[0], uid) then [stories[0]] else []) + Owned(stories[1..], uid)
  }

  /** Every live story of the caller is selected. */
  lemma {:induction false} OwnedSelectsAll(stories: seq<Story>, uid: Uuid, s: Story)
    requires s in stories && Visible(s, uid)
    ensures s in Owned(stories, uid)
  {
    if s != stories[0] {
      assert s in stories[1..];
      OwnedSelectsAll(stories[1..], uid, s);
    }
  }

  function CreatedAt(s: Story): int
  {
    s.createdAt
  }

  /** The caller's live stories ordered by creation time, oldest first.
      Stories created at the same time keep their storage order. */
  function Listing(stories: seq<Story>, uid: Uuid): (r: seq<Story>)
    ensures multiset(r) == multiset(Owned(stories, uid)) && |r| == |Owned(stories, uid)|
    ensures Sorting.SortedBy(r, CreatedAt)
    ensures forall s :: s in r ==> s in stories && Visible(s, uid)
  {
    var r := Sorting.SortBy(Owned(stories, uid), CreatedAt);
    assert forall s :: s in r <==> s in multiset(r);
    r
  }

  /** The listing holds exactly the caller's live stories. */
  lemma ListingMembers(stories: seq<Story>, uid: Uuid)
    ensures forall s :: s in Listing(stories, uid) <==> s in stories && Visible(s, uid)
  {
    var r := Listing(stories, uid);
    forall s | s in stories && Visible(s, uid)
      ensures s in r
    {
      OwnedSelectsAll(stories, uid, s);
      assert s in multiset(Owned(stories, uid));
    }
  }

  // ---------------------------------------------------------------------------
  // GET /story/list

  /** asyncpg binds `OFFSET` and `LIMIT` as 32-bit integers and refuses a
      larger value before the query is sent. */
  const Int32Max: int := 0x7fff_ffff

  /** The page and limit a listing accepts: both positive, the limit and
      the offset `(page - 1) * limit` within 32 bits. */
  predicate Servable(p: Paging.Pagination)
  {
    p.page >= 1 && 1 <= p.limit <= Int32Max && Mul(p.page - 1, p.limit) <= Int32Max
  }

  datatype StoryPage = StoryPage(stories: seq<Story>, totalPages: nat)

  /** `a * b` as repeated addition. The paging facts are stated with it so
      that they stay linear; `MulIsProduct` ties it to `*`. */
  function Mul(a: nat, b: nat): nat
  {
    if a == 0 then 0 else b + Mul(a - 1, b)
  }

  lemma {:induction false} MulIsProduct(a: nat, b: nat)
    ensures Mul(a, b) == a * b
  {
    if a > 0 {
      MulIsProduct(a - 1, b);
    }
  }

  lemma {:induction false} MulGrows(a: nat, b: nat, c: nat)
    requires a <= b
    ensures Mul(a, c) <= Mul(b, c)
  {
    if a < b {
      MulGrows(a, b - 1, c);
    }
  }

  /** `math.ceil(count / limit)` for a positive limit: the fewest pages of
      `limit` rows that hold `count` rows. */
  function CeilDiv(count: nat, limit: nat): (q: nat)
    requires limit > 0
    decreases count
    ensures count <= Mul(q, limit) < count + limit
  {
    if count == 0 then 0
    else if count <= limit then 1
    else 1 + CeilDiv(count - limit, limit)
  }

  /** The page count is the rounded-up quotient the division computes. */
  lemma CeilDivIsQuotient(count: nat, limit: nat)
    requires limit > 0
    ensures CeilDiv(count, limit) == (count + limit - 1) / limit
  {
    var q := CeilDiv(count, limit);
    MulIsProduct(q, limit);
    QuotientOfBounds(count + limit - 1, limit, q);
  }

  lemma QuotientOfBounds(n: nat, limit: nat, q: nat)
    requires limit > 0 && q * limit <= n < q * limit + limit
    ensures n / limit == q
  {
    var d := n / limit;
    assert d * limit <= n < d * limit + limit;
    if d < q {
      MulMonotone(d + 1, q, limit);
    } else if d > q {
      MulMonotone(q + 1, d, limit);
    }
  }

  lemma MulMonotone(a: nat, b: nat, c: nat)
    requires a <= b
    ensures a * c <= b * c
  {
  }

  /** `OFFSET offset LIMIT limit` over a non-negative offset and limit. */
  function Window<T>(xs: seq<T>, offset: nat, limit: nat): (w: seq<T>)
    ensures |w| <= limit
    ensures forall k :: 0 <= k < |w| ==> offset + k < |xs| && w[k] == xs[offset + k]
    ensures |w| == if offset >= |xs| then 0 else if offset + limit <= |xs| then limit else |xs| - offset
  {
    if offset >= |xs| then []
    else if offset + limit <= |xs| then xs[offset..offset + limit]
    else xs[offset..]
  }

  /** `list_stories_for_user`. A negative offset or limit is refused by the
      database, and a zero limit divides by zero when the page count is
      computed: each is a 500. */
  function ListStories(stories: seq<Story>, uid: Uuid, p: Paging.Pagination): (r: Result<StoryPage, HttpError>)
    // positive page and limit, with limit and offset both 32-bit parameters
    ensures r.Ok? <==> Servable(p)
    ensures r.Err? ==> r.error.status == InternalError
    // a page holds at most `limit` of the caller's live stories, oldest first
    ensures r.Ok? ==> |r.value.stories| <= p.limit
    ensures r.Ok? ==> forall s :: s in r.value.stories ==> s in stories && Visible(s, uid)
    ensures r.Ok? ==> Sorting.SortedBy(r.value.stories, CreatedAt)
    // page `page` is the window of the listing that starts `(page - 1) * limit` rows in
    ensures r.Ok? ==> r.value.stories == Window(Listing(stories, uid), Mul(p.page - 1, p.limit), p.limit)
    // the page count covers exactly the matching stories
    ensures r.Ok? ==> |Owned(stories, uid)| <= Mul(r.value.totalPages, p.limit) < |Owned(stories, uid)| + p.limit
  {
    if p.limit < 0 || (p.limit > 0 && p.page < 1) then Err(Crash("OFFSET and LIMIT must not be negative"))
    else if p.limit == 0 then Err(Crash("ZeroDivisionError: division by zero"))
    else if p.limit > Int32Max || Mul(p.page - 1, p.limit) > Int32Max then
      Err(Crash("DataError: value out of int32 range"))
    else
      var offset := Mul(p.page - 1, p.limit);
      Ok(StoryPage(PageOf(Listing(stories, uid), offset, p.limit), CeilDiv(|Owned(stories, uid)|, p.limit)))
  }

  /** One window of a sorted listing is sorted. */
  function PageOf(all: seq<Story>, offset: nat, limit: nat): (page: seq<Story>)
    requires Sorting.SortedBy(all, CreatedAt)
    ensures page == Window(all, offset, limit)
    ensures forall s :: s in page ==> s in all
    ensures Sorting.SortedBy(page, CreatedAt)
  {
    var page := Window(all, offset, limit);
    assert forall k :: 0 <= k < |page| ==> page[k] in all;
    assert Sorting.SortedBy(page, CreatedAt) by {
      forall i, j | 0 <= i < j < |page| ensures CreatedAt(page[i]) <= CreatedAt(page[j]) {
        assert page[i] == all[offset + i] && page[j] == all[offset + j];
      }
    }
    page
  }

  lemma PageArithmetic(k: nat, limit: nat)
    requires limit > 0
    ensures Mul(k / limit, limit) + k % limit == k && 0 <= k % limit < limit
  {
    MulIsProduct(k / limit, limit);
  }

  /** Every story of the listing is on page `k / limit + 1`, at position
      `k % limit`, and that page is within `total_pages`. Each page request
      is taken to break ties in creation time the same way. */
  lemma PagesCoverListing(stories: seq<Story>, uid: Uuid, limit: nat, q: Option<string>, k: nat)
    requires 0 < limit <= Int32Max && k < |Listing(stories, uid)| && |stories| <= Int32Max
    ensures var r := ListStories(stories, uid, Paging.Pagination(k / limit + 1, limit, q));
            && r.Ok?
            && k / limit + 1 <= r.value.totalPages
            && k % limit < |r.value.stories|
            && r.value.stories[k % limit] == Listing(stories, uid)[k]
  {
    PageArithmetic(k, limit);
    StoryOnItsPage(stories, uid, limit, q, k / limit, k % limit, k);
  }

  /** Position `k = page * limit + j` of the listing is position `j` of page
      `page + 1`, and that page is within `total_pages`, under the same
      shared tie order. */
  lemma StoryOnItsPage(stories: seq<Story>, uid: Uuid, limit: nat, q: Option<string>, page: nat, j: nat, k: nat)
    requires 0 < limit <= Int32Max && j < limit && Mul(page, limit) + j == k && k < |Listing(stories, uid)|
    requires |stories| <= Int32Max
    ensures var r := ListStories(stories, uid, Paging.Pagination(page + 1, limit, q));
            && r.Ok?
            && page + 1 <= r.value.totalPages
            && j < |r.value.stories|
            && r.value.stories[j] == Listing(stories, uid)[k]
  {
    var p := Paging.Pagination(page + 1, limit, q);
    var total := ListStories(stories, uid, p).value.totalPages;
    assert page < total by {
      assert |Listing(stories, uid)| == |Owned(stories, uid)| <= Mul(total, limit);
      if page >= total {
        MulGrows(total, page, limit);
      }
    }
    assert Mul(page, limit) <= Int32Max by {
      assert |Listing(stories, uid)| == |Owned(stories, uid)| <= |stories|;
    }
    StoryOnPage(stories, uid, p, Mul(page, limit), j);
  }

  /** The story at `offset + j` is at position `j` of the page at `offset`. */
  lemma StoryOnPage(stories: seq<Story>, uid: Uuid, p: Paging.Pagination, offset: nat, j: nat)
    requires Servable(p) && offset == Mul(p.page - 1, p.limit)
    requires j < p.limit && offset + j < |Listing(stories, uid)|
    ensures ListStories(stories, uid, p).Ok?
    ensures j < |ListStories(stories, uid, p).value.stories|
    ensures ListStories(stories, uid, p).value.stories[j] == Listing(stories, uid)[offset + j]
  {
    WindowIndex(Listing(stories, uid), offset, p.limit, j);
    ListStoriesWindow(stories, uid, p, offset);
  }

  /** A successful listing is the window at `(page - 1) * limit`. */
  lemma ListStoriesWindow(stories: seq<Story>, uid: Uuid, p: Paging.Pagination, offset: nat)
    requires Servable(p) && offset == Mul(p.page - 1, p.limit)
    ensures ListStories(stories, uid, p).Ok?
    ensures ListStories(stories, uid, p).value.stories == Window(Listing(stories, uid), offset, p.limit)
  {
  }

  lemma WindowIndex<T>(xs: seq<T>, offset: nat, limit: nat, j: nat)
    requires j < limit && offset + j < |xs|
    ensures j < |Window(xs, offset, limit)| && Window(xs, offset, limit)[j] == xs[offset + j]
  {
  }

  /** Pages past `total_pages` are empty. */
  lemma PagesPastTheEnd(stories: seq<Story>, uid: Uuid, p: Paging.Pagination)
    requires p.limit > 0
    requires ListStories(stories, uid, p).Ok? && p.page > ListStories(stories, uid, p).value.totalPages
    ensures ListStories(stories, uid, p).value.stories == []
  {
    var total := ListStories(stories, uid, p).value.totalPages;
    var offset := Mul(p.page - 1, p.limit);
    assert |Listing(stories, uid)| <= offset by {
      assert |Listing(stories, uid)| <= Mul(total, p.limit);
      MulGrows(total, p.page - 1, p.limit);
    }
    ListStoriesWindow(stories, uid, p, offset);
    WindowPastEnd(Listing(stories, uid), offset, p.limit);
  }

  lemma WindowPastEnd<T>(xs: seq<T>, offset: nat, limit: nat)
    requires offset >= |xs|
    ensures Window(xs, offset, limit) == []
  {
  }

  // ---------------------------------------------------------------------------
  // PATCH /story/{story_id} and DELETE /story/{story_id}

  const InvalidStoryId: HttpError := HttpError(BadRequest, "invalid story id")

  predicate Matches(s: Story, id: Uuid, uid: Uuid)
  {
    s.id == id && Visible(s, uid)
  }

  /** The row the `... LIMIT 1` lookup finds: the first with that id that the
      caller owns and has not deleted. */
  function FindOwned(stories: seq<Story>, id: Uuid, uid: Uuid): (r: Option<nat>)
    ensures r.None? <==> forall i :: 0 <= i < |stories| ==> !Matches(stories[i], id, uid)
    ensures r.Some? ==> r.value < |stories| && Matches(stories[r.value], id, uid)
    ensures r.Some? ==> forall i :: 0 <= i < r.value ==> !Matches(stories[i], id, uid)
  {
    if |stories| == 0 then None
    else if Matches(stories[0], id, uid) then Some(0)
    else match FindOwned(stories[1..], id, uid)
      case None => None
      case Some(i) => Some(i + 1)
  }

  /** `UpdateStoryPayload`. */
  datatype StoryUpdate = StoryUpdate(title: Option<string>, description: Option<string>, imageSrc: Option<string>)

  /** A payload value that `if payload.x:` lets through. */
  predicate Given(v: Option<string>)
  {
    v.Some? && v.value != ""
  }

  /** The three guarded overwrites. */
  function Overwrite(s: Story, u: StoryUpdate): (r: Story)
    ensures Given(u.title) ==> r.title == u.title
    ensures !Given(u.title) ==> r.title == s.title
    ensures Given(u.description) ==> r.description == u.description
    ensures !Given(u.description) ==> r.description == s.description
    ensures Given(u.imageSrc) ==> r.imageSrc == u.imageSrc
    ensures !Given(u.imageSrc) ==> r.imageSrc == s.imageSrc
    // no other column changes
    ensures r == s.(title := r.title, description := r.description, imageSrc := r.imageSrc)
  {
    var t := if Given(u.title) then u.title else s.title;
    var d := if Given(u.description) then u.description else s.description;
    var i := if Given(u.imageSrc) then u.imageSrc else s.imageSrc;
    s.(title := t, description := d, imageSrc := i)
  }

  /** Applying the same payload twice changes nothing more. */
  lemma OverwriteIdempotent(s: Story, u: StoryUpdate)
    ensures Overwrite(Overwrite(s, u), u) == Overwrite(s, u)
  {
  }

  /** A payload with nothing given leaves the story as it was. */
  lemma EmptyPayloadKeepsStory(s: Story, u: StoryUpdate)
    requires !Given(u.title) && !Given(u.description) && !Given(u.imageSrc)
    ensures Overwrite(s, u) == s
  {
  }

  const Updated: string := "Story record updated"

  /** The update as the route means it: three guarded overwrites, committed. */
  function UpdateStory(stories: seq<Story>, storyId: string, uid: Uuid, u: StoryUpdate)
    : (r: (Result<string, HttpError>, seq<Story>))
    // an id that is not a UUID raises before any lookup
    ensures Uuids.ParseUuid(storyId).None? ==> r.0.Err? && r.0.error.status == InternalError && r.1 == stories
    ensures Uuids.ParseUuid(storyId).Some? && FindOwned(stories, Uuids.ParseUuid(storyId).value, uid).None? ==>
              r == (Err(InvalidStoryId), stories)
    // the found story is overwritten and every other row is kept
    ensures Uuids.ParseUuid(storyId).Some? && FindOwned(stories, Uuids.ParseUuid(storyId).value, uid).Some? ==>
              var i := FindOwned(stories, Uuids.ParseUuid(storyId).value, uid).value;
              && r.0 == Ok(Updated)
              && |r.1| == |stories|
              && r.1[i] == Overwrite(stories[i], u)
              && forall j :: 0 <= j < |stories| && j != i ==> r.1[j] == stories[j]
  {
    match Uuids.ParseUuid(storyId)
    case None => (Err(Crash("ValueError: badly formed hexadecimal UUID string")), stories)
    case Some(id) =>
      match FindOwned(stories, id, uid)
      case None => (Err(InvalidStoryId), stories)
      case Some(i) => (Ok(Updated), stories[i := Overwrite(stories[i], u)])
  }

  /** The update as written: after the three overwrites it reads
      `payload.visibility`, a field the payload model does not declare, so the
      handler raises before the commit and the session is closed unsaved. */
  function UpdateStoryAsWritten(stories: seq<Story>, storyId: string, uid: Uuid, u: StoryUpdate)
    : (r: (Result<string, HttpError>, seq<Story>))
    ensures r.1 == stories
    ensures Uuids.ParseUuid(storyId).Some? && FindOwned(stories, Uuids.ParseUuid(storyId).value, uid).None? ==>
              r.0 == Err(InvalidStoryId)
    ensures r.0.Err? && (r.0.error.status == InternalError || r.0 == Err(InvalidStoryId))
  {
    match Uuids.ParseUuid(storyId)
    case None => (Err(Crash("ValueError: badly formed hexadecimal UUID string")), stories)
    case Some(id) =>
      match FindOwned(stories, id, uid)
      case None => (Err(InvalidStoryId), stories)
      case Some(_) => (Err(Crash("AttributeError: 'UpdateStoryPayload' object has no attribute 'visibility'")), stories)
  }

  /** The two disagree on every update of a story the caller may edit: the
      route as written never updates anything. */
  lemma UpdateAsWrittenNeverUpdates(stories: seq<Story>, uid: Uuid, u: StoryUpdate, id: Uuid)
    requires FindOwned(stories, id, uid).Some?
    ensures UpdateStory(stories, Uuids.CanonicalText(id), uid, u).0 == Ok(Updated)
    ensures UpdateStoryAsWritten(stories, Uuids.CanonicalText(id), uid, u)
         == (Err(Crash("AttributeError: 'UpdateStoryPayload' object has no attribute 'visibility'")), stories)
  {
    Uuids.CanonicalRoundTrip(id);
  }

  /** `soft_delete_story_by_id`: only `deleted_at` is set; the id is returned. */
  function SoftDeleteStory(stories: seq<Story>, storyId: string, uid: Uuid, now: Time)
    : (r: (Result<Uuid, HttpError>, seq<Story>))
    ensures Uuids.ParseUuid(storyId).None? ==> r.0.Err? && r.0.error.status == InternalError && r.1 == stories
    ensures Uuids.ParseUuid(storyId).Some? && FindOwned(stories, Uuids.ParseUuid(storyId).value, uid).None? ==>
              r == (Err(InvalidStoryId), stories)
    ensures Uuids.ParseUuid(storyId).Some? && FindOwned(stories, Uuids.ParseUuid(storyId).value, uid).Some? ==>
              var i := FindOwned(stories, Uuids.ParseUuid(storyId).value, uid).value;
              && r.0 == Ok(Uuids.ParseUuid(storyId).value)
              && |r.1| == |stories|
              && r.1[i] == stories[i].(deletedAt := Some(now))
              && forall j :: 0 <= j < |stories| && j != i ==> r.1[j] == stories[j]
  {
    match Uuids.ParseUuid(storyId)
    case None => (Err(Crash("ValueError: badly formed hexadecimal UUID string")), stories)
    case Some(id) =>
      match FindOwned(stories, id, uid)
      case None => (Err(InvalidStoryId), stories)
      case Some(i) => (Ok(id), MarkDeleted(stories, i, now))
  }

  /** Row `i` with `deleted_at` set and every other row as it was. */
  function MarkDeleted(stories: seq<Story>, i: nat, now: Time): (r: seq<Story>)
    requires i < |stories|
    ensures |r| == |stories| && r[i] == stories[i].(deletedAt := Some(now))
    ensures forall j :: 0 <= j < |stories| && j != i ==> r[j] == stories[j]
  {
    stories[i := stories[i].(deletedAt := Some(now))]
  }

  /** The primary key: no two rows share an id. */
  predicate UniqueIds(stories: seq<Story>)
  {
    forall i, j :: 0 <= i < j < |stories| ==> stories[i].id != stories[j].id
  }

  /** After a soft delete the story is gone from the caller's listing, and
      nothing else in it changed. */
  lemma SoftDeleteLeavesListing(stories: seq<Story>, storyId: string, uid: Uuid, now: Time)
    requires UniqueIds(stories)
    requires SoftDeleteStory(stories, storyId, uid, now).0.Ok?
    ensures var id := SoftDeleteStory(stories, storyId, uid, now).0.value;
            var after := SoftDeleteStory(stories, storyId, uid, now).1;
            forall s :: s in Listing(after, uid) <==> s in Listing(stories, uid) && s.id != id
  {
    var id := Uuids.ParseUuid(storyId).value;
    var i := FindOwned(stories, id, uid).value;
    var after := SoftDeleteStory(stories, storyId, uid, now).1;
    ListingMembers(stories, uid);
    ListingMembers(after, uid);
    forall s ensures s in after && Visible(s, uid) <==> s in stories && Visible(s, uid) && s.id != id {
      if s in after && Visible(s, uid) {
        var j :| 0 <= j < |after| && after[j] == s;
        assert j != i;
        assert stories[j] == s;
      }
      if s in stories && Visible(s, uid) && s.id != id {
        var j :| 0 <= j < |stories| && stories[j] == s;
        assert j != i;
        assert after[j] == s;
      }
    }
  }

  /** Deleting the same story again is refused. */
  lemma SecondDeleteRefused(stories: seq<Story>, storyId: string, uid: Uuid, now: Time, later: Time)
    requires UniqueIds(stories)
    requires SoftDeleteStory(stories, storyId, uid, now).0.Ok?
    ensures SoftDeleteStory(SoftDeleteStory(stories, storyId, uid, now).1, storyId, uid, later).0 == Err(InvalidStoryId)
  {
    var id := Uuids.ParseUuid(storyId).value;
    var i := FindOwned(stories, id, uid).value;
    var after := SoftDeleteStory(stories, storyId, uid, now).1;
    forall j | 0 <= j < |after| ensures !Matches(after[j], id, uid) {
      if j != i {
        assert after[j] == stories[j];
        assert stories[j].id != stories[i].id by {
          assert j < i || i < j;
        }
      }
    }
  }
}

=== FILE: text.dfy ===
/** Python string primitives the handlers rely on: `str.replace`, `str.split`,
    `str.strip`, `str.lower`, as functions over sequences. */
module Text {

  /** `p` occurs in `s` at position `i`. */
  predicate OccursAt<T(==)>(s: seq<T>, p: seq<T>, i: int)
  {
    0 <= i && i + |p| <= |s| && s[i..i + |p|] == p
  }

  predicate Occurs<T(==)>(s: seq<T>, p: seq<T>)
  {
    exists i | 0 <= i <= |s| :: OccursAt(s, p, i)
  }

  /** `s.replace(p, r)`: a left-to-right scan that replaces each
      non-overlapping occurrence of `p`; an empty `p` matches between every
      two characters and at both ends. */
  function ReplaceAll<T(==)>(s: seq<T>, p: seq<T>, r: seq<T>): seq<T>
    decreases |s|
  {
    if |p| == 0 then
      (if |s| == 0 then r else r + [s[0]] + ReplaceAll(s[1..], p, r))
    else if |s| < |p| then s
    else if s[..|p|] == p then r + ReplaceAll(s[|p|..], p, r)
    else [s[0]] + ReplaceAll(s[1..], p, r)
  }

  /** `s.split(sep)` for a non-empty separator. */
  function SplitOn<T(==)>(s: seq<T>, sep: seq<T>): (parts: seq<seq<T>>)
    requires |sep| > 0
    ensures |parts| >= 1
    decreases |s|
  {
    if |s| < |sep| then [s]
    else if s[..|sep|] == sep then [[]] + SplitOn(s[|sep|..], sep)
    else
      var rest := SplitOn(s[1..], sep);
      [[s[0]] + rest[0]] + rest[1..]
  }

  /** Text without the one-element separator is one part. */
  lemma {:induction false} SplitNone<T>(b: seq<T>, c: T)
    requires c !in b
    ensures SplitOn(b, [c]) == [b]
    decreases |b|
  {
    if |b| >= 1 {
      assert b[..1] != [c] by { assert b[..1][0] == b[0]; }
      SplitNone(b[1..], c);
      assert [b[0]] + b[1..] == b;
    }
  }

  /** A prefix without the separator is glued to the first part. */
  lemma {:induction false} SplitAtFirst<T>(a: seq<T>, rest: seq<T>, c: T)
    requires c !in a && |rest| >= 1 && rest[0] == c
    ensures SplitOn(a + rest, [c]) == [a] + SplitOn(rest[1..], [c])
    decreases |a|
  {
    if |a| == 0 {
      assert a + rest == rest;
      assert rest[..1] == [c];
    } else {
      var s := a + rest;
      assert s[..1] != [c] by { assert s[..1][0] == a[0]; }
      assert s[1..] == a[1..] + rest;
      SplitAtFirst(a[1..], rest, c);
      assert [a[0]] + a[1..] == a;
    }
  }

  /** The part before the first separator comes first. */
  lemma SplitFirstPart<T>(a: seq<T>, c: T, b: seq<T>)
    requires c !in a
    ensures SplitOn(a + [c] + b, [c])[0] == a
  {
    SplitAtFirst(a, [c] + b, c);
    assert a + [c] + b == a + ([c] + b);
  }

  /** `a c b` with no `c` in either part splits into `[a, b]`. */
  lemma SplitAround<T>(a: seq<T>, c: T, b: seq<T>)
    requires c !in a && c !in b
    ensures SplitOn(a + [c] + b, [c]) == [a, b]
  {
    SplitNone(b, c);
    SplitAtFirst(a, [c] + b, c);
    assert a + [c] + b == a + ([c] + b);
    assert ([c] + b)[1..] == b;
  }

  /** `sep.join(parts)`. */
  function Join<T>(parts: seq<seq<T>>, sep: seq<T>): seq<T>
  {
    if |parts| == 0 then []
    else if |parts| == 1 then parts[0]
    else parts[0] + sep + Join(parts[1..], sep)
  }

  /** Splitting and joining again with the same separator gives back the text. */
  lemma {:induction false} JoinSplit<T>(s: seq<T>, sep: seq<T>)
    requires |sep| > 0
    ensures Join(SplitOn(s, sep), sep) == s
    decreases |s|
  {
    if |s| < |sep| {
    } else if s[..|sep|] == sep {
      JoinSplit(s[|sep|..], sep);
      var rest := SplitOn(s[|sep|..], sep);
      assert SplitOn(s, sep) == [[]] + rest;
      assert s == s[..|sep|] + s[|sep|..];
    } else {
      JoinSplit(s[1..], sep);
      var rest := SplitOn(s[1..], sep);
      var parts := [[s[0]] + rest[0]] + rest[1..];
      assert SplitOn(s, sep) == parts;
      if |rest| == 1 {
        assert Join(parts, sep) == [s[0]] + rest[0];
      } else {
        assert parts[1..] == rest[1..];
        assert Join(rest, sep) == rest[0] + sep + Join(rest[1..], sep);
      }
      assert s == [s[0]] + s[1..];
    }
  }

  /** No piece of a split contains the separator. */
  lemma {:induction false} SplitPiecesAvoidSeparator<T>(s: seq<T>, sep: seq<T>)
    requires |sep| > 0
    ensures forall k :: 0 <= k < |SplitOn(s, sep)| ==> !Occurs(SplitOn(s, sep)[k], sep)
    decreases |s|
  {
    var parts := SplitOn(s, sep);
    if |s| < |sep| {
      assert parts == [s];
      forall i | OccursAt(s, sep, i) ensures false {
      }
    } else if s[..|sep|] == sep {
      SplitPiecesAvoidSeparator(s[|sep|..], sep);
      var rest := SplitOn(s[|sep|..], sep);
      assert parts == [[]] + rest;
      forall k | 0 <= k < |parts| ensures !Occurs(parts[k], sep) {
        if k == 0 {
          forall i | OccursAt(parts[0], sep, i) ensures false {
          }
        } else {
          assert parts[k] == rest[k - 1];
        }
      }
    } else {
      SplitPiecesAvoidSeparator(s[1..], sep);
      var rest := SplitOn(s[1..], sep);
      assert parts == [[s[0]] + rest[0]] + rest[1..];
      assert !Occurs(rest[0], sep);
      JoinSplit(s[1..], sep);
      forall k | 0 <= k < |parts| ensures !Occurs(parts[k], sep) {
        if k == 0 {
          var head := [s[0]] + rest[0];
          forall i | OccursAt(head, sep, i) ensures false {
            if i == 0 {
              // the occurrence would start at the front of s, which the scan ruled out
              PrefixOfPrefix(head, s, rest, sep);
            } else {
              assert head[i..i + |sep|] == rest[0][i - 1..i - 1 + |sep|];
              assert OccursAt(rest[0], sep, i - 1);
            }
          }
        } else {
          assert parts[k] == rest[k];
        }
      }
    }
  }

  /** Helper: a separator at the front of the first piece would also be at the
      front of the text. */
  lemma PrefixOfPrefix<T>(head: seq<T>, s: seq<T>, rest: seq<seq<T>>, sep: seq<T>)
    requires |s| >= 1 && |rest| >= 1 && |sep| > 0
    requires head == [s[0]] + rest[0]
    requires Join(rest, sep) == s[1..]
    requires OccursAt(head, sep, 0)
    ensures |s| >= |sep| && s[..|sep|] == sep
  {
    if |rest| == 1 {
      assert rest[0] == s[1..];
    } else {
      assert Join(rest, sep) == rest[0] + sep + Join(rest[1..], sep);
      assert rest[0] == s[1..][..|rest[0]|];
    }
    assert head == s[..|head|];
    assert s[..|sep|] == head[..|sep|];
  }

  /** `str.replace` is the same as splitting on the pattern and joining with
      the replacement. */
  lemma {:induction false} ReplaceIsSplitJoin<T>(s: seq<T>, p: seq<T>, r: seq<T>)
    requires |p| > 0
    ensures ReplaceAll(s, p, r) == Join(SplitOn(s, p), r)
    decreases |s|
  {
    if |s| < |p| {
    } else if s[..|p|] == p {
      ReplaceIsSplitJoin(s[|p|..], p, r);
      assert SplitOn(s, p) == [[]] + SplitOn(s[|p|..], p);
    } else {
      ReplaceIsSplitJoin(s[1..], p, r);
      var rest := SplitOn(s[1..], p);
      var parts := [[s[0]] + rest[0]] + rest[1..];
      assert SplitOn(s, p) == parts;
      if |rest| > 1 {
        assert parts[1..] == rest[1..];
        assert Join(rest, r) == rest[0] + r + Join(rest[1..], r);
      }
    }
  }

  /** Replacing a pattern by itself changes nothing. */
  lemma {:induction false} ReplaceBySelf<T>(s: seq<T>, p: seq<T>)
    ensures ReplaceAll(s, p, p) == s
    decreases |s|
  {
    if |p| == 0 {
      if |s| > 0 {
        ReplaceBySelf(s[1..], p);
        assert s == [s[0]] + s[1..];
      }
    } else if |s| < |p| {
    } else if s[..|p|] == p {
      ReplaceBySelf(s[|p|..], p);
      assert s == s[..|p|] + s[|p|..];
    } else {
      ReplaceBySelf(s[1..], p);
      assert s == [s[0]] + s[1..];
    }
  }

  /** Text with no occurrence of a non-empty pattern is left untouched. */
  lemma {:induction false} ReplaceAbsent<T>(s: seq<T>, p: seq<T>, r: seq<T>)
    requires |p| > 0 && !Occurs(s, p)
    ensures ReplaceAll(s, p, r) == s
    decreases |s|
  {
    if |s| >= |p| {
      assert !OccursAt(s, p, 0);
      forall i | OccursAt(s[1..], p, i) ensures false {
        assert s[1..][i..i + |p|] == s[i + 1..i + 1 + |p|];
        assert OccursAt(s, p, i + 1);
      }
      ReplaceAbsent(s[1..], p, r);
      assert s == [s[0]] + s[1..];
    }
  }

  /** A prefix that does not contain the pattern's first element is copied as is. */
  lemma {:induction false} ReplaceSkipsPrefix<T>(a: seq<T>, t: seq<T>, p: seq<T>, r: seq<T>)
    requires |p| > 0
    requires forall k :: 0 <= k < |a| ==> a[k] != p[0]
    ensures ReplaceAll(a + t, p, r) == a + ReplaceAll(t, p, r)
    decreases |a|
  {
    if |a| == 0 {
      assert a + t == t;
    } else {
      var s := a + t;
      var tail := a[1..];
      assert s[1..] == tail + t;
      ReplaceSkipsPrefix(tail, t, p, r);
      if |s| < |p| {
        assert |t| < |p|;
        assert ReplaceAll(t, p, r) == t;
      } else {
        assert s[..|p|][0] == a[0];
        assert s[..|p|] != p;
        assert ReplaceAll(s, p, r) == [s[0]] + ReplaceAll(s[1..], p, r);
      }
      assert a == [a[0]] + tail;
    }
  }

  /** A text that starts with the pattern has that occurrence replaced first. */
  lemma ReplaceLeading<T>(t: seq<T>, p: seq<T>, r: seq<T>)
    requires |p| > 0
    ensures ReplaceAll(p + t, p, r) == r + ReplaceAll(t, p, r)
  {
    assert (p + t)[..|p|] == p;
    assert (p + t)[|p|..] == t;
  }

  /** An element equal to the pattern's first one, followed by an element
      that does not continue the pattern, is copied as is. */
  lemma ReplaceNotAt<T>(c: T, t: seq<T>, p: seq<T>, r: seq<T>)
    requires |p| >= 2 && |t| >= 1 && t[0] != p[1]
    ensures ReplaceAll([c] + t, p, r) == [c] + ReplaceAll(t, p, r)
  {
    var s := [c] + t;
    assert s[1..] == t;
    if |s| >= |p| {
      assert s[..|p|][1] == t[0];
    }
  }

  /** Replacing in a concatenation replaces in each part when the second part
      starts with an element the pattern does not contain, so that no
      occurrence straddles the seam. */
  lemma {:induction false} ReplaceConcat<T>(a: seq<T>, b: seq<T>, p: seq<T>, r: seq<T>)
    requires |p| > 0 && |b| > 0 && b[0] !in p
    ensures ReplaceAll(a + b, p, r) == ReplaceAll(a, p, r) + ReplaceAll(b, p, r)
    decreases |a|
  {
    var s := a + b;
    if |a| == 0 {
      assert s == b;
    } else if |a| >= |p| && a[..|p|] == p {
      assert s[..|p|] == p;
      assert s[|p|..] == a[|p|..] + b;
      ReplaceConcat(a[|p|..], b, p, r);
    } else if |s| < |p| {
      assert ReplaceAll(b, p, r) == b;
    } else {
      if |a| < |p| {
        assert s[|a|] == b[0];
        assert s[..|p|][|a|] == b[0];
        assert ReplaceAll(a, p, r) == a;
        assert ReplaceAll(a[1..], p, r) == a[1..];
      } else {
        assert s[..|p|] == a[..|p|];
      }
      assert s[..|p|] != p;
      assert s[1..] == a[1..] + b;
      ReplaceConcat(a[1..], b, p, r);
      assert a == [a[0]] + a[1..];
    }
  }

  // ---------------------------------------------------------------------------
  // Whitespace and stripping

  /** Python's `str.isspace` for one character. */
  predicate IsSpace(c: char)
  {
    || c == ' ' || c == '\t' || c == '\n' || c == '\r' || c == '\U{000B}' || c == '\U{000C}'
    || ('\U{001C}' <= c <= '\U{001F}') || c == '\U{0085}' || c == '\U{00A0}' || c == '\U{1680}'
    || ('\U{2000}' <= c <= '\U{200A}') || c == '\U{2028}' || c == '\U{2029}' || c == '\U{202F}'
    || c == '\U{205F}' || c == '\U{3000}'
  }

  function StripLeft(s: string, drop: char -> bool): (r: string)
    ensures |r| <= |s| && r == s[|s| - |r|..]
    ensures forall k :: 0 <= k < |s| - |r| ==> drop(s[k])
    ensures r == [] || !drop(r[0])
    decreases |s|
  {
    if |s| > 0 && drop(s[0]) then StripLeft(s[1..], drop) else s
  }

  function StripRight(s: string, drop: char -> bool): (r: string)
    ensures |r| <= |s| && r == s[..|r|]
    ensures forall k :: |r| <= k < |s| ==> drop(s[k])
    ensures r == [] || !drop(r[|r| - 1])
    decreases |s|
  {
    if |s| > 0 && drop(s[|s| - 1]) then StripRight(s[..|s| - 1], drop) else s
  }

  /** `s.strip(chars)`: drop the longest leading and trailing runs of `drop`
      characters. */
  function Strip(s: string, drop: char -> bool): string
  {
    StripRight(StripLeft(s, drop), drop)
  }

  /** `s.strip()`. */
  function Trim(s: string): string
  {
    Strip(s, IsSpace)
  }

  predicate AllDropped(s: string, drop: char -> bool)
  {
    forall k :: 0 <= k < |s| ==> drop(s[k])
  }

  lemma {:induction false} StripLeftPast(pre: string, x: string, drop: char -> bool)
    requires AllDropped(pre, drop)
    requires x == [] || !drop(x[0])
    ensures StripLeft(pre + x, drop) == x
    decreases |pre|
  {
    if |pre| == 0 {
      assert pre + x == x;
    } else {
      assert (pre + x)[0] == pre[0];
      assert (pre + x)[1..] == pre[1..] + x;
      StripLeftPast(pre[1..], x, drop);
    }
  }

  lemma {:induction false} StripRightPast(x: string, post: string, drop: char -> bool)
    requires AllDropped(post, drop)
    requires x == [] || !drop(x[|x| - 1])
    ensures StripRight(x + post, drop) == x
    decreases |post|
  {
    if |post| == 0 {
      assert x + post == x;
    } else {
      var s := x + post;
      assert s[|s| - 1] == post[|post| - 1];
      assert s[..|s| - 1] == x + post[..|post| - 1];
      StripRightPast(x, post[..|post| - 1], drop);
    }
  }

  /** Stripping finds exactly the core between droppable margins: a text made
      of droppable margins around a core whose ends are not droppable strips
      to that core. */
  lemma StripFindsCore(pre: string, core: string, post: string, drop: char -> bool)
    requires AllDropped(pre, drop) && AllDropped(post, drop)
    requires core == [] || (!drop(core[0]) && !drop(core[|core| - 1]))
    ensures Strip(pre + core + post, drop) == core
  {
    if core == [] {
      assert pre + core + post == pre + post;
      assert AllDropped(pre + post, drop);
      StripLeftPast(pre + post, [], drop);
      assert pre + post + [] == pre + post;
    } else {
      assert pre + core + post == pre + (core + post);
      StripLeftPast(pre, core + post, drop);
      StripRightPast(core, post, drop);
    }
  }

  /** The leading whitespace run that `s.strip()` removes. */
  function LeadingSpace(s: string): string
  {
    s[..|s| - |StripLeft(s, IsSpace)|]
  }

  /** The trailing whitespace run that `s.strip()` removes. */
  function TrailingSpace(s: string): string
  {
    var t := StripLeft(s, IsSpace);
    t[|StripRight(t, IsSpace)|..]
  }

  /** `s.strip()` is the part of `s` between a leading and a trailing run of
      whitespace, and it neither starts nor ends with whitespace; with
      `StripFindsCore`, that part is the only one with both properties. */
  lemma TrimShape(s: string)
    ensures Trim(s) == [] || (!IsSpace(Trim(s)[0]) && !IsSpace(Trim(s)[|Trim(s)| - 1]))
    ensures s == LeadingSpace(s) + Trim(s) + TrailingSpace(s)
    ensures AllDropped(LeadingSpace(s), IsSpace) && AllDropped(TrailingSpace(s), IsSpace)
  {
    TrimEnds(s);
    TrimSplits(s);
    TrimRunsAreSpace(s);
  }

  lemma TrimSplits(s: string)
    ensures s == LeadingSpace(s) + Trim(s) + TrailingSpace(s)
  {
    var t := StripLeft(s, IsSpace);
    var r := StripRight(t, IsSpace);
    SplitAtRuns(s, |s| - |t|, t, r);
    assert Trim(s) == r;
  }

  lemma TrimRunsAreSpace(s: string)
    ensures AllDropped(LeadingSpace(s), IsSpace) && AllDropped(TrailingSpace(s), IsSpace)
  {
    var t := StripLeft(s, IsSpace);
    LeftRun(s, |s| - |t|, IsSpace);
    RightRun(t, |StripRight(t, IsSpace)|, IsSpace);
  }

  /** `s.strip()` neither starts nor ends with whitespace. */
  lemma TrimEnds(s: string)
    ensures Trim(s) == [] || (!IsSpace(Trim(s)[0]) && !IsSpace(Trim(s)[|Trim(s)| - 1]))
  {
    var t := StripLeft(s, IsSpace);
    var r := StripRight(t, IsSpace);
    if r != [] {
      assert r[0] == t[0];
    }
  }

  /** A prefix of dropped characters, as `StripLeft` states it, is a run. */
  lemma LeftRun(s: string, n: nat, drop: char -> bool)
    requires n <= |s| && forall k :: 0 <= k < n ==> drop(s[k])
    ensures AllDropped(s[..n], drop)
  {
    var head := s[..n];
    forall k | 0 <= k < |head| ensures drop(head[k]) {
      assert head[k] == s[k];
    }
  }

  /** A suffix of dropped characters, as `StripRight` states it, is a run. */
  lemma RightRun(t: string, n: nat, drop: char -> bool)
    requires n <= |t| && forall k :: n <= k < |t| ==> drop(t[k])
    ensures AllDropped(t[n..], drop)
  {
    var tail := t[n..];
    forall k | 0 <= k < |tail| ensures drop(tail[k]) {
      assert tail[k] == t[n + k];
    }
  }

  /** A prefix `r` of the suffix `t` of `s` splits `s` in three. */
  lemma SplitAtRuns(s: string, n: nat, t: string, r: string)
    requires n <= |s| && t == s[n..] && |r| <= |t| && r == t[..|r|]
    ensures s == s[..n] + r + t[|r|..]
  {
    assert s == s[..n] + t;
    assert t == r + t[|r|..];
  }

  /** Stripping twice is stripping once. */
  lemma StripIdempotent(s: string, drop: char -> bool)
    ensures Strip(Strip(s, drop), drop) == Strip(s, drop)
  {
    var t := Strip(s, drop);
    StripFindsCore([], t, [], drop);
    assert [] + t + [] == t;
  }

  // ---------------------------------------------------------------------------
  // Whitespace splitting

  /** The leading run of non-space characters. */
  function WordAtFront(s: string): (w: string)
    ensures |w| <= |s| && w == s[..|w|]
    ensures forall k :: 0 <= k < |w| ==> !IsSpace(w[k])
    ensures |w| < |s| ==> IsSpace(s[|w|])
    decreases |s|
  {
    if |s| == 0 || IsSpace(s[0]) then [] else [s[0]] + WordAtFront(s[1..])
  }

  /** `s.split()`: the maximal runs of non-space characters, in order. */
  function Words(s: string): (ws: seq<string>)
    ensures forall k :: 0 <= k < |ws| ==> ws[k] != [] && forall j :: 0 <= j < |ws[k]| ==> !IsSpace(ws[k][j])
    decreases |s|
  {
    if |s| == 0 then []
    else if IsSpace(s[0]) then Words(s[1..])
    else
      var w := WordAtFront(s);
      [w] + Words(s[|w|..])
  }

  /** A word followed by a space (or by nothing) is read whole. */
  lemma {:induction false} WordAtFrontOf(w: string, rest: string)
    requires forall k :: 0 <= k < |w| ==> !IsSpace(w[k])
    requires rest == [] || IsSpace(rest[0])
    ensures WordAtFront(w + rest) == w
    decreases |w|
  {
    if |w| == 0 {
      assert w + rest == rest;
    } else {
      assert (w + rest)[1..] == w[1..] + rest;
      WordAtFrontOf(w[1..], rest);
      assert w == [w[0]] + w[1..];
    }
  }

  /** Leading whitespace does not change the words. */
  lemma {:induction false} WordsSkipSpaces(sp: string, s: string)
    requires AllDropped(sp, IsSpace)
    ensures Words(sp + s) == Words(s)
    decreases |sp|
  {
    if |sp| == 0 {
      assert sp + s == s;
    } else {
      assert (sp + s)[1..] == sp[1..] + s;
      WordsSkipSpaces(sp[1..], s);
    }
  }

  /** A text that starts with a whole word splits into that word and the
      words of the rest. */
  lemma WordsOfWord(w: string, rest: string)
    requires w != [] && forall k :: 0 <= k < |w| ==> !IsSpace(w[k])
    requires rest == [] || IsSpace(rest[0])
    ensures Words(w + rest) == [w] + Words(rest)
  {
    WordAtFrontOf(w, rest);
    assert (w + rest)[|w|..] == rest;
  }

  /** Two words with whitespace between them split into exactly those two. */
  lemma TwoWords(a: string, gap: string, b: string)
    requires a != [] && forall k :: 0 <= k < |a| ==> !IsSpace(a[k])
    requires b != [] && forall k :: 0 <= k < |b| ==> !IsSpace(b[k])
    requires gap != [] && AllDropped(gap, IsSpace)
    ensures Words(a + gap + b) == [a, b]
  {
    assert a + gap + b == a + (gap + b);
    WordsOfWord(a, gap + b);
    WordsSkipSpaces(gap, b);
    assert b + [] == b;
    WordsOfWord(b, []);
    assert Words([]) == [];
  }

  function Concat(ws: seq<string>): string
  {
    if |ws| == 0 then [] else ws[0] + Concat(ws[1..])
  }

  function RemoveSpaces(s: string): string
  {
    if |s| == 0 then [] else (if IsSpace(s[0]) then [] else [s[0]]) + RemoveSpaces(s[1..])
  }

  lemma {:induction false} RemoveSpacesAppend(a: string, b: string)
    ensures RemoveSpaces(a + b) == RemoveSpaces(a) + RemoveSpaces(b)
    decreases |a|
  {
    if |a| == 0 {
      assert a + b == b;
    } else {
      assert (a + b)[0] == a[0];
      assert (a + b)[1..] == a[1..] + b;
      RemoveSpacesAppend(a[1..], b);
    }
  }

  /** The words of a text, put back together, are the text without its
      whitespace: splitting loses nothing but the separators. */
  lemma {:induction false} WordsCoverText(s: string)
    ensures Concat(Words(s)) == RemoveSpaces(s)
    decreases |s|
  {
    if |s| > 0 {
      if IsSpace(s[0]) {
        WordsCoverText(s[1..]);
      } else {
        var w := WordAtFront(s);
        WordsCoverText(s[|w|..]);
        assert s == w + s[|w|..];
        RemoveSpacesAppend(w, s[|w|..]);
        WordHasNoSpaces(w);
      }
    }
  }

  lemma {:induction false} WordHasNoSpaces(w: string)
    requires forall k :: 0 <= k < |w| ==> !IsSpace(w[k])
    ensures RemoveSpaces(w) == w
    decreases |w|
  {
    if |w| > 0 {
      WordHasNoSpaces(w[1..]);
    }
  }

  // ---------------------------------------------------------------------------
  // Case

  function LowerChar(c: char): char
  {
    if 'A' <= c <= 'Z' then (c as int + 32) as char else c
  }

  /** `s.lower()` on the ASCII letters. */
  function Lower(s: string): (r: string)
    ensures |r| == |s|
    ensures forall k :: 0 <= k < |s| ==> r[k] == LowerChar(s[k])
  {
    if |s| == 0 then [] else [LowerChar(s[0])] + Lower(s[1..])
  }

  /** `a` and `b` spell the same word up to the case of ASCII letters. */
  predicate SameIgnoringCase(a: string, b: string)
  {
    |a| == |b| && forall k :: 0 <= k < |a| ==> LowerChar(a[k]) == LowerChar(b[k])
  }

  /** Comparing the lowered text with a lower-case word is a case-insensitive
      comparison, in both directions. */
  lemma LowerMatchesIgnoringCase(a: string, word: string)
    requires Lower(word) == word
    ensures Lower(a) == word <==> SameIgnoringCase(a, word)
  {
    if SameIgnoringCase(a, word) {
      forall k | 0 <= k < |a| ensures Lower(a)[k] == word[k] {
        assert Lower(word)[k] == LowerChar(word[k]);
      }
    }
    if Lower(a) == word {
      forall k | 0 <= k < |a| ensures LowerChar(a[k]) == LowerChar(word[k]) {
        assert Lower(word)[k] == LowerChar(word[k]);
        assert LowerChar(LowerChar(a[k])) == LowerChar(a[k]);
      }
    }
  }
}

=== FILE: transactions.dfy ===
/** `reset_user_suubscription` (routers/transactions.py): a superadmin
    gives a user the "Early Adopter" subscription unless the user already
    has one. */
module Transactions {
  import opened Common
  import opened Records
  import Uuids
  import AuthMiddleware

  const SuperAdmin: string := "superadmin"
  const ResetDays: int := 120

  /** The two successful replies: the message for a user who already has a
      subscription, or the subscription just created. */
  datatype Reply = AlreadySubscribed | Subscribed(subscription: Subscription)

  predicate HasSubscription(subscriptions: seq<Subscription>, uid: Uuid)
  {
    exists i :: 0 <= i < |subscriptions| && subscriptions[i].userId == Some(uid)
  }

  /** The route body for an authenticated caller. `subId` is the database's
      `uuid4` default for the new row; the insert fails on a taken id, and
      on a user id that is not in `users` (the foreign key). */
  function Reset(caller: AuthMiddleware.AuthUser, userId: string, store: Store, subId: Uuid, now: Time)
    : (out: (Result<Reply, HttpError>, Store))
    // only a superadmin gets past the first line, and only they change anything
    ensures caller.role != SuperAdmin ==> out == (Err(HttpError(Forbidden, "Forbidden")), store)
    ensures out.0.Err? || out.0 == Ok(AlreadySubscribed) ==> out.1 == store
    ensures caller.role == SuperAdmin && Uuids.ParseUuid(userId).None? ==>
              out.0.Err? && out.0.error.status == InternalError
    // a user who has a subscription keeps exactly the subscriptions they had
    ensures caller.role == SuperAdmin && Uuids.ParseUuid(userId).Some?
            && HasSubscription(store.subscriptions, Uuids.ParseUuid(userId).value) ==>
              out == (Ok(AlreadySubscribed), store)
    // otherwise exactly one subscription is added, running 120 days from now
    ensures out.0.Ok? && out.0.value.Subscribed? ==>
              && caller.role == SuperAdmin && Uuids.ParseUuid(userId).Some?
              && !HasSubscription(store.subscriptions, Uuids.ParseUuid(userId).value)
              && UserIdTaken(store.users, Uuids.ParseUuid(userId).value)
              && out.0.value.subscription == NewSubscription(subId, Uuids.ParseUuid(userId).value, now, ResetDays)
              && out.1 == Store(store.users, store.subscriptions + [out.0.value.subscription])
    // and that happens whenever the user exists and the new row's id is free
    ensures caller.role == SuperAdmin && Uuids.ParseUuid(userId).Some?
            && !HasSubscription(store.subscriptions, Uuids.ParseUuid(userId).value)
            && UserIdTaken(store.users, Uuids.ParseUuid(userId).value)
            && !SubscriptionIdTaken(store.subscriptions, subId) ==>
              out.0 == Ok(Subscribed(NewSubscription(subId, Uuids.ParseUuid(userId).value, now, ResetDays)))
    // an unknown user or a taken id fails the insert
    ensures caller.role == SuperAdmin && Uuids.ParseUuid(userId).Some?
            && !HasSubscription(store.subscriptions, Uuids.ParseUuid(userId).value)
            && (!UserIdTaken(store.users, Uuids.ParseUuid(userId).value) || SubscriptionIdTaken(store.subscriptions, subId)) ==>
              out.0.Err? && out.0.error.status == InternalError
    ensures out.0.Err? ==> out.0.error.status in {Forbidden, InternalError}
  {
    if caller.role != SuperAdmin then (Err(HttpError(Forbidden, "Forbidden")), store)
    else match Uuids.ParseUuid(userId)
      case None => (Err(Crash("ValueError: badly formed hexadecimal UUID string")), store)
      case Some(uid) =>
        if HasSubscription(store.subscriptions, uid) then (Ok(AlreadySubscribed), store)
        else if !UserIdTaken(store.users, uid) then (Err(Crash("IntegrityError: subscriptions_user_id_fkey")), store)
        else if SubscriptionIdTaken(store.subscriptions, subId) then (Err(Crash("IntegrityError: subscriptions_pkey")), store)
        else
          var s := NewSubscription(subId, uid, now, ResetDays);
          (Ok(Subscribed(s)), Store(store.users, store.subscriptions + [s]))
  }

  /** The route as the framework runs it: the caller is authenticated first
      and a failure there is the answer. */
  function ResetRoute(header: Option<string>, codecs: AuthMiddleware.Codecs, userId: string, store: Store,
                      subId: Uuid, now: Time): (out: (Result<Reply, HttpError>, Store))
    ensures AuthMiddleware.GetCurrentUser(header, store.users, codecs).Err? ==>
              out == (Err(AuthMiddleware.GetCurrentUser(header, store.users, codecs).error), store)
    ensures AuthMiddleware.GetCurrentUser(header, store.users, codecs).Ok? ==>
              out == Reset(AuthMiddleware.GetCurrentUser(header, store.users, codecs).value, userId, store, subId, now)
  {
    match AuthMiddleware.GetCurrentUser(header, store.users, codecs)
    case Err(e) => (Err(e), store)
    case Ok(caller) => Reset(caller, userId, store, subId, now)
  }

  /** Whatever the header, only an authenticated superadmin changes the
      store: a failed authentication and any other role leave it as it was. */
  lemma OnlySuperAdminWrites(header: Option<string>, codecs: AuthMiddleware.Codecs, userId: string, store: Store,
                             subId: Uuid, now: Time)
    requires ResetRoute(header, codecs, userId, store, subId, now).1 != store
    ensures AuthMiddleware.GetCurrentUser(header, store.users, codecs).Ok?
    ensures AuthMiddleware.GetCurrentUser(header, store.users, codecs).value.role == SuperAdmin
    ensures ResetRoute(header, codecs, userId, store, subId, now).0.Ok?
  {
  }

  /** Resetting twice is resetting once: the second call finds the
      subscription the first one made and changes nothing. */
  lemma {:induction false} ResetIdempotent(caller: AuthMiddleware.AuthUser, userId: string, store: Store,
                                           subId: Uuid, subId2: Uuid, now: Time, later: Time)
    requires Reset(caller, userId, store, subId, now).0.Ok?
    ensures var once := Reset(caller, userId, store, subId, now).1;
            Reset(caller, userId, once, subId2, later) == (Ok(AlreadySubscribed), once)
  {
    ResetSubscribes(caller, userId, store, subId, now);
    assert caller.role == SuperAdmin;
  }

  /** After a successful reset the user has a subscription. */
  lemma ResetSubscribes(caller: AuthMiddleware.AuthUser, userId: string, store: Store, subId: Uuid, now: Time)
    requires Reset(caller, userId, store, subId, now).0.Ok?
    ensures Uuids.ParseUuid(userId).Some?
    ensures HasSubscription(Reset(caller, userId, store, subId, now).1.subscriptions, Uuids.ParseUuid(userId).value)
  {
    var out := Reset(caller, userId, store, subId, now);
    if out.0.value.Subscribed? {
      var uid := Uuids.ParseUuid(userId).value;
      assert out.1.subscriptions == store.subscriptions + [NewSubscription(subId, uid, now, ResetDays)];
      assert out.1.subscriptions[|store.subscriptions|].userId == Some(uid);
    }
  }
}

=== FILE: utils.dfy ===
/** The string and file helpers of shared/utils.py. */
module Utils {
  import opened Common
  import opened Files
  import Text

  /** The placeholder `{key}` that `format_prompt` looks for. */
  function Placeholder(key: string): string
  {
    "{" + key + "}"
  }

  /** `format_prompt(prompt, args)`: for each key in argument order, replace
      every `{key}` by its value in the text produced so far. */
  function FormatPrompt(prompt: string, args: seq<(string, string)>): string
    decreases |args|
  {
    if |args| == 0 then prompt
    else FormatPrompt(Text.ReplaceAll(prompt, Placeholder(args[0].0), args[0].1), args[1..])
  }

  /** With no arguments the prompt comes back unchanged. */
  lemma FormatNoArguments(prompt: string)
    ensures FormatPrompt(prompt, []) == prompt
  {
  }

  /** A prompt in which no supplied key's placeholder appears is returned
      unchanged, whatever other braces it holds. */
  lemma {:induction false} FormatUntouched(prompt: string, args: seq<(string, string)>)
    requires forall i :: 0 <= i < |args| ==> !Text.Occurs(prompt, Placeholder(args[i].0))
    ensures FormatPrompt(prompt, args) == prompt
    decreases |args|
  {
    if |args| > 0 {
      Text.ReplaceAbsent(prompt, Placeholder(args[0].0), args[0].1);
      assert forall i :: 0 <= i < |args[1..]| ==> args[1..][i] == args[i + 1];
      FormatUntouched(prompt, args[1..]);
    }
  }

  /** One key: the prompt is cut at each occurrence of its placeholder and the
      pieces are joined again with the value, so every occurrence is
      replaced and nothing else changes. */
  lemma FormatOneKey(prompt: string, key: string, value: string)
    ensures FormatPrompt(prompt, [(key, value)]) == Text.Join(Text.SplitOn(prompt, Placeholder(key)), value)
    ensures Text.Join(Text.SplitOn(prompt, Placeholder(key)), Placeholder(key)) == prompt
  {
    assert [(key, value)][1..] == [];
    Text.ReplaceIsSplitJoin(prompt, Placeholder(key), value);
    Text.JoinSplit(prompt, Placeholder(key));
  }

  /** Formatting with `a + b` is formatting with `a`, then formatting the
      result with `b`. */
  lemma {:induction false} FormatSequential(prompt: string, a: seq<(string, string)>, b: seq<(string, string)>)
    ensures FormatPrompt(prompt, a + b) == FormatPrompt(FormatPrompt(prompt, a), b)
    decreases |a|
  {
    if |a| == 0 {
      assert a + b == b;
    } else {
      assert (a + b)[0] == a[0];
      assert (a + b)[1..] == a[1..] + b;
      FormatSequential(Text.ReplaceAll(prompt, Placeholder(a[0].0), a[0].1), a[1..], b);
    }
  }

  /** The last key sees the whole text the earlier keys produced, their
      values included, and replaces its placeholder everywhere in it. */
  lemma FormatLastKey(prompt: string, args: seq<(string, string)>, key: string, value: string)
    ensures FormatPrompt(prompt, args + [(key, value)])
         == Text.ReplaceAll(FormatPrompt(prompt, args), Placeholder(key), value)
  {
    FormatSequential(prompt, args, [(key, value)]);
    assert [(key, value)][1..] == [];
  }

  /** A value is itself formatted by the keys after it: a prompt that is just
      one placeholder becomes its value, formatted with the later keys. */
  lemma FormatValueReformatted(key: string, value: string, rest: seq<(string, string)>)
    ensures FormatPrompt(Placeholder(key), [(key, value)] + rest) == FormatPrompt(value, rest)
  {
    assert ([(key, value)] + rest)[0] == (key, value);
    assert ([(key, value)] + rest)[1..] == rest;
    Text.ReplaceLeading([], Placeholder(key), value);
    assert Placeholder(key) + [] == Placeholder(key);
    assert value + [] == value;
  }

  /** An earlier key never sees a later value: when the prompt does not
      hold `{k1}`, a later value that does keeps it unreplaced. */
  lemma FormatEarlierKeyMissesLaterValue(prompt: string, k1: string, v1: string, k2: string, v2: string)
    requires !Text.Occurs(prompt, Placeholder(k1))
    ensures FormatPrompt(prompt, [(k1, v1), (k2, v2)]) == Text.ReplaceAll(prompt, Placeholder(k2), v2)
  {
    Text.ReplaceAbsent(prompt, Placeholder(k1), v1);
    FormatLastKey(prompt, [(k1, v1)], k2, v2);
    assert [(k1, v1)] + [(k2, v2)] == [(k1, v1), (k2, v2)];
    assert [(k1, v1)][1..] == [];
  }

  /** For example: a later key also rewrites text an earlier value
      introduced, while an earlier key never sees a later value. */
  lemma FormatOrderMatters()
    ensures FormatPrompt("{a}", [("a", "{b}"), ("b", "x")]) == "x"
    ensures FormatPrompt("{b}", [("b", "{a}"), ("a", "x")]) == "x"
    ensures FormatPrompt("{a}", [("b", "x"), ("a", "{b}")]) == "{b}"
  {
    var args := [("a", "{b}"), ("b", "x")];
    Text.ReplaceLeading([], "{a}", "{b}");
    assert "{a}" == "{a}" + [];
    assert args[1..] == [("b", "x")];
    Text.ReplaceLeading([], "{b}", "x");
    assert "{b}" == "{b}" + [];
    assert [("b", "x")][1..] == [];
    var args2 := [("b", "{a}"), ("a", "x")];
    assert args2[1..] == [("a", "x")];
    assert [("a", "x")][1..] == [];
    var args3 := [("b", "x"), ("a", "{b}")];
    assert args3[1..] == [("a", "{b}")];
    assert [("a", "{b}")][1..] == [];
    assert Text.ReplaceAll("{a}", "{b}", "x") == "{a}";
  }

  // ---------------------------------------------------------------------------
  // delete_files_by_pattern

  datatype DeleteError = DirectoryNotFound(directory: string)

  /** `delete_files_by_pattern(directory, pattern, recursive, dry_run)`.
      `matches` stands for the glob pattern, `removeFails` for the paths on
      which `os.remove` raises `OSError`; glob's enumeration order is left
      open. */
  method DeleteFilesByPattern(
    fs: FileSystem, directory: string, matches: string -> bool,
    recursive: bool, dryRun: bool, removeFails: string -> bool)
    returns (r: Result<seq<string>, DeleteError>, fs': FileSystem)
    ensures !IsDir(fs, directory) ==> r == Err(DirectoryNotFound(directory)) && fs' == fs
    ensures IsDir(fs, directory) ==> r.Ok?
    ensures r.Ok? ==> forall p :: p in r.value <==>
      p in Glob(fs, directory, matches, recursive) && IsFile(fs, p) && (dryRun || !removeFails(p))
    ensures r.Ok? ==> forall i, j :: 0 <= i < j < |r.value| ==> r.value[i] != r.value[j]
    ensures dryRun ==> fs' == fs
    ensures !dryRun && r.Ok? ==> fs'.dirs == fs.dirs && fs'.files == fs.files - set p | p in r.value
  {
    if !IsDir(fs, directory) {
      return Err(DirectoryNotFound(directory)), fs;
    }
    var found := Glob(fs, directory, matches, recursive);
    var pending := found;
    var deleted: seq<string> := [];
    fs' := fs;
    while pending != {}
      invariant pending <= found
      invariant forall p :: p in deleted <==>
        p in found - pending && IsFile(fs, p) && (dryRun || !removeFails(p))
      invariant forall i, j :: 0 <= i < j < |deleted| ==> deleted[i] != deleted[j]
      invariant dryRun ==> fs' == fs
      invariant !dryRun ==> fs'.dirs == fs.dirs && fs'.files == fs.files - set p | p in deleted
      decreases pending
    {
      var p :| p in pending;
      pending := pending - {p};
      if IsFile(fs', p) {
        if dryRun {
          deleted := deleted + [p];
        } else if !removeFails(p) {
          fs' := RemoveFile(fs', p);
          deleted := deleted + [p];
        }
      }
    }
    return Ok(deleted), fs';
  }
}

=== FILE: uuid.dfy ===
/** Python's `uuid.UUID(hex=text)`, which the story and subscription routes
    apply to ids taken from the path or the query string, and the two texts
    a UUID is written as (`u.hex` and `str(u)`). A UUID is its 128-bit value. */
module Uuids {
  import opened Common
  import Text
  import Numerals

  function Pow16(k: nat): (p: nat)
    ensures p >= 1
  {
    if k == 0 then 1 else 16 * Pow16(k - 1)
  }

  /** 2^128, one more than the largest UUID. */
  const Bound: nat := Pow16(32)

  predicate IsBrace(c: char)
  {
    c == '{' || c == '}'
  }

  /** The text that is left after the prefixes, braces and hyphens go. */
  function Cleaned(text: string): string
  {
    var t := Text.ReplaceAll(Text.ReplaceAll(text, "urn:", ""), "uuid:", "");
    Text.ReplaceAll(Text.Strip(t, IsBrace), "-", "")
  }

  /** `uuid.UUID(hex=text)`; `None` is the `ValueError`. The 32 characters
      left are read by `int(_, 16)`, so a sign, a `0x` prefix, underscores
      or surrounding whitespace are accepted as `int` accepts them, and the
      value must then lie in range. */
  function ParseUuid(text: string): (r: Option<nat>)
    ensures r.Some? ==> r.value < Bound
    ensures r.Some? <==>
              |Cleaned(text)| == 32 && Numerals.ParseInt(Cleaned(text), 16).Some?
              && 0 <= Numerals.ParseInt(Cleaned(text), 16).value < Bound
    ensures r.Some? ==> Numerals.ParseInt(Cleaned(text), 16) == Some(r.value as int)
  {
    var h := Cleaned(text);
    if |h| != 32 then None
    else match Numerals.ParseInt(h, 16)
      case None => None
      case Some(v) => if 0 <= v < Bound then Some(v as nat) else None
  }

  // ---------------------------------------------------------------------------
  // Rendering

  /** A lower-case hexadecimal character. */
  predicate IsLowerHex(c: char)
  {
    '0' <= c <= '9' || 'a' <= c <= 'f'
  }

  predicate LowerHex(s: string)
  {
    forall k :: 0 <= k < |s| ==> IsLowerHex(s[k])
  }

  /** `n` as exactly `width` lower-case hexadecimal digits. */
  function FixedHex(n: nat, width: nat): (s: string)
    requires n < Pow16(width)
    ensures |s| == width && LowerHex(s)
    ensures Numerals.AllDigits(s, 16) && Numerals.ValueOf(s, 16) == n
  {
    if width == 0 then []
    else
      var prefix := FixedHex(n / 16, width - 1);
      Numerals.DigitCharValue(n % 16);
      Numerals.ValueOfSnoc(prefix, Numerals.DigitChar(n % 16), 16);
      prefix + [Numerals.DigitChar(n % 16)]
  }

  /** `u.hex`. */
  function HexText(u: nat): string
    requires u < Bound
  {
    FixedHex(u, 32)
  }

  /** `str(u)`: the 8-4-4-4-12 hyphenated form. */
  function CanonicalText(u: nat): string
    requires u < Bound
  {
    Text.Join(Groups(HexText(u)), "-")
  }

  /** The five groups of 8, 4, 4, 4 and 12 digits. */
  function Groups(h: string): (gs: seq<string>)
    requires |h| == 32
    ensures |gs| == 5
  {
    [h[..8], h[8..12], h[12..16], h[16..20], h[20..]]
  }

  // ---------------------------------------------------------------------------
  // Round trips

  /** A pattern whose first character is not in the text is not replaced. */
  lemma Untouched(s: string, p: string)
    requires |p| > 0 && forall k :: 0 <= k < |s| ==> s[k] != p[0]
    ensures Text.ReplaceAll(s, p, "") == s
  {
    Text.ReplaceSkipsPrefix(s, [], p, "");
    assert s + [] == s;
  }

  /** Hexadecimal digits and hyphens have no prefixes and no braces to drop. */
  lemma PrefixesAndBracesKept(s: string)
    requires |s| > 0 && forall k :: 0 <= k < |s| ==> IsLowerHex(s[k]) || s[k] == '-'
    requires IsLowerHex(s[0]) && IsLowerHex(s[|s| - 1])
    ensures Text.Strip(Text.ReplaceAll(Text.ReplaceAll(s, "urn:", ""), "uuid:", ""), IsBrace) == s
  {
    NoPrefixes(s);
    BracesKept(s);
  }

  lemma NoPrefixes(s: string)
    requires forall k :: 0 <= k < |s| ==> IsLowerHex(s[k]) || s[k] == '-'
    ensures Text.ReplaceAll(Text.ReplaceAll(s, "urn:", ""), "uuid:", "") == s
  {
    forall k | 0 <= k < |s| ensures s[k] != 'u' {
      assert IsLowerHex(s[k]) || s[k] == '-';
    }
    Untouched(s, "urn:");
    Untouched(s, "uuid:");
  }

  lemma BracesKept(s: string)
    requires |s| > 0 && IsLowerHex(s[0]) && IsLowerHex(s[|s| - 1])
    ensures Text.Strip(s, IsBrace) == s
  {
    Text.StripFindsCore([], s, [], IsBrace);
    assert [] + s + [] == s;
  }

  /** Thirty-two lower-case digits read as `int(_, 16)` give their value. */
  lemma ParseHexDigits(h: string)
    requires |h| == 32 && LowerHex(h) && Numerals.AllDigits(h, 16)
    ensures Numerals.ParseInt(h, 16) == Some(Numerals.ValueOf(h, 16) as int)
  {
    forall k | 0 <= k < |h| ensures !Text.IsSpace(h[k]) && h[k] != '_' {
      assert IsLowerHex(h[k]);
    }
    Numerals.TrimNoSpace(h);
    assert IsLowerHex(h[0]) && IsLowerHex(h[1]);
    assert !(h[1] == 'x' || h[1] == 'X');
    Numerals.DropUnderscoresNone(h, 16);
    assert Numerals.GroupedDigits(h, 16);
  }

  /** `UUID(hex=u.hex)` is `u`. */
  lemma HexRoundTrip(u: nat)
    requires u < Bound
    ensures ParseUuid(HexText(u)) == Some(u)
  {
    var h := HexText(u);
    PrefixesAndBracesKept(h);
    Untouched(h, "-");
    assert Cleaned(h) == h;
    ParseHexDigits(h);
  }

  /** Hyphens are removed one group at a time. */
  lemma DropHyphen(a: string, rest: string)
    requires LowerHex(a)
    ensures Text.ReplaceAll(a + "-" + rest, "-", "") == a + Text.ReplaceAll(rest, "-", "")
  {
    forall k | 0 <= k < |a| ensures a[k] != '-' {
      assert IsLowerHex(a[k]);
    }
    assert a + "-" + rest == a + ("-" + rest);
    Text.ReplaceSkipsPrefix(a, "-" + rest, "-", "");
    Text.ReplaceLeading(rest, "-", "");
  }

  /** Joining hexadecimal groups with hyphens and removing the hyphens
      gives the groups back, run together. */
  lemma {:induction false} JoinedGroupsDropToHex(groups: seq<string>)
    requires forall i :: 0 <= i < |groups| ==> LowerHex(groups[i])
    ensures Text.ReplaceAll(Text.Join(groups, "-"), "-", "") == Text.Concat(groups)
  {
    if |groups| == 0 {
    } else if |groups| == 1 {
      var g := groups[0];
      forall k | 0 <= k < |g| ensures g[k] != '-' {
        assert IsLowerHex(g[k]);
      }
      Untouched(g, "-");
      assert Text.Concat(groups) == g + Text.Concat(groups[1..]);
    } else {
      JoinedGroupsDropToHex(groups[1..]);
      DropHyphen(groups[0], Text.Join(groups[1..], "-"));
    }
  }

  /** The joined text holds only hexadecimal digits and hyphens. */
  lemma {:induction false} JoinedChars(groups: seq<string>)
    requires forall i :: 0 <= i < |groups| ==> LowerHex(groups[i])
    ensures forall k :: 0 <= k < |Text.Join(groups, "-")| ==>
              IsLowerHex(Text.Join(groups, "-")[k]) || Text.Join(groups, "-")[k] == '-'
  {
    if |groups| > 1 {
      JoinedChars(groups[1..]);
      var rest := Text.Join(groups[1..], "-");
      var j := groups[0] + "-" + rest;
      forall k | 0 <= k < |j| ensures IsLowerHex(j[k]) || j[k] == '-' {
        if k < |groups[0]| { assert j[k] == groups[0][k]; }
        else if k > |groups[0]| { assert j[k] == rest[k - |groups[0]| - 1]; }
      }
    }
  }

  /** Five groups joined with hyphens, and run together. */
  lemma JoinFive(a: string, b: string, c: string, d: string, e: string)
    ensures Text.Join([a, b, c, d, e], "-") == a + ("-" + (b + ("-" + (c + ("-" + (d + ("-" + e)))))))
    ensures Text.Concat([a, b, c, d, e]) == a + (b + (c + (d + e)))
  {
    var g4 := [e];
    var g3 := [d] + g4;
    var g2 := [c] + g3;
    var g1 := [b] + g2;
    var gs := [a] + g1;
    assert gs == [a, b, c, d, e];
    assert Text.Join(g3, "-") == d + "-" + e by { assert g3[1..] == g4; }
    assert Text.Join(g2, "-") == c + "-" + Text.Join(g3, "-") by { assert g2[1..] == g3; }
    assert Text.Join(g1, "-") == b + "-" + Text.Join(g2, "-") by { assert g1[1..] == g2; }
    assert Text.Join(gs, "-") == a + "-" + Text.Join(g1, "-") by { assert gs[1..] == g1; }
    assert Text.Concat(g4) == e by { assert g4[1..] == []; }
    assert Text.Concat(g3) == d + Text.Concat(g4) by { assert g3[1..] == g4; }
    assert Text.Concat(g2) == c + Text.Concat(g3) by { assert g2[1..] == g3; }
    assert Text.Concat(g1) == b + Text.Concat(g2) by { assert g1[1..] == g2; }
    assert Text.Concat(gs) == a + Text.Concat(g1) by { assert gs[1..] == g1; }
  }

  lemma GroupsJoined(h: string)
    requires |h| == 32
    ensures Text.Join(Groups(h), "-")
         == h[..8] + ("-" + (h[8..12] + ("-" + (h[12..16] + ("-" + (h[16..20] + ("-" + h[20..])))))))
    ensures Text.Concat(Groups(h)) == h
  {
    JoinFive(h[..8], h[8..12], h[12..16], h[16..20], h[20..]);
    assert h[..8] + (h[8..12] + (h[12..16] + (h[16..20] + h[20..]))) == h;
  }

  lemma CanonicalDropsToHex(u: nat)
    requires u < Bound
    ensures Text.ReplaceAll(CanonicalText(u), "-", "") == HexText(u)
  {
    var h := HexText(u);
    JoinedGroupsDropToHex(Groups(h));
    GroupsJoined(h);
  }

  /** `UUID(hex=str(u))` is `u`: the ids the service prints are accepted. */
  lemma CanonicalRoundTrip(u: nat)
    requires u < Bound
    ensures ParseUuid(CanonicalText(u)) == Some(u)
  {
    var h := HexText(u);
    var c := CanonicalText(u);
    GroupsJoined(h);
    JoinedChars(Groups(h));
    var tail := "-" + (h[8..12] + ("-" + (h[12..16] + ("-" + (h[16..20] + ("-" + h[20..]))))));
    assert c == h[..8] + tail;
    assert |c| == 36;
    assert c[0] == h[0];
    assert c[35] == tail[27] == h[31];
    PrefixesAndBracesKept(c);
    CanonicalDropsToHex(u);
    ParseHexDigits(h);
  }

  /** Distinct UUIDs print differently. */
  lemma CanonicalInjective(u: nat, v: nat)
    requires u < Bound && v < Bound && CanonicalText(u) == CanonicalText(v)
    ensures u == v
  {
    CanonicalRoundTrip(u);
    CanonicalRoundTrip(v);
  }
}

=== FILE: voice_items.dfy ===
/** The per-line part of modules/voice/service.py: annotating a script line
    (`generate_voice_for_script`, lines 66-77) and what one `voice_worker`
    iteration makes of one queued item (lines 27-53). */
module VoiceItems {
  import opened Common
  import opened Files
  import Numerals
  import Ffmpeg

  /** An annotated script line: `{**item, "index", "request_id", "language"}`
      with the voice configuration already rewritten. `text` is `None` when
      the line had no `text` key. Other keys of the line travel along in the
      source but are never read, so they are not kept. */
  datatype Item = Item(
    text: Option<Json>,
    index: nat,
    requestId: string,
    language: string,
    voiceConfig: map<string, Json>)

  /** The rewrite of lines 74-76: `voice_model` is popped and stored as
      `speaker`, and `pace` is set to 1 whatever it was. */
  function MoveVoiceModel(config: map<string, Json>): (r: map<string, Json>)
    requires "voice_model" in config
    ensures "voice_model" !in r
    ensures "speaker" in r && r["speaker"] == config["voice_model"]
    ensures "pace" in r && r["pace"] == JNum(1.0)
    ensures forall k :: k != "voice_model" && k != "speaker" && k != "pace" ==>
              (k in r <==> k in config) && (k in config ==> r[k] == config[k])
  {
    (config - {"voice_model"})["speaker" := config["voice_model"]]["pace" := JNum(1.0)]
  }

  /** One line: `**item` needs an object, `item_with_args["voice_config"]`
      needs the key, and `.pop("voice_model")` needs an object holding that
      key; each failure is an exception (`None`). */
  function AnnotateLine(line: Json, index: nat, requestId: string, language: string): Option<Item>
  {
    if !line.JObj? || "voice_config" !in line.fields then None
    else
      var config := line.fields["voice_config"];
      if !config.JObj? || "voice_model" !in config.fields then None
      else
        var text := if "text" in line.fields then Some(line.fields["text"]) else None;
        Some(Item(text, index, requestId, language, MoveVoiceModel(config.fields)))
  }

  predicate Annotatable(line: Json)
  {
    line.JObj? && "voice_config" in line.fields
    && line.fields["voice_config"].JObj? && "voice_model" in line.fields["voice_config"].fields
  }

  /** Items `from..` of the annotated script, or the position of the first
      line that raised. */
  function AnnotateFrom(script: seq<Json>, from: nat, requestId: string, language: string): (r: Result<seq<Item>, nat>)
    requires from <= |script|
    ensures r.Ok? ==> |r.value| == |script| - from
                      && forall i :: 0 <= i < |r.value| ==>
                           Some(r.value[i]) == AnnotateLine(script[from + i], from + i, requestId, language)
    ensures r.Err? ==> from <= r.error < |script| && !Annotatable(script[r.error])
                       && forall j :: from <= j < r.error ==> Annotatable(script[j])
    ensures r.Ok? <==> forall j :: from <= j < |script| ==> Annotatable(script[j])
    decreases |script| - from
  {
    if from == |script| then Ok([])
    else
      match AnnotateLine(script[from], from, requestId, language)
      case None => Err(from)
      case Some(item) =>
        match AnnotateFrom(script, from + 1, requestId, language)
        case Err(j) => Err(j)
        case Ok(rest) => Ok([item] + rest)
  }

  /** The annotation loop of lines 66-77. */
  function Annotate(script: seq<Json>, requestId: string, language: string): (r: Result<seq<Item>, nat>)
    // line i becomes item i, with the shared request id and language
    ensures r.Ok? <==> forall j :: 0 <= j < |script| ==> Annotatable(script[j])
    ensures r.Ok? ==> |r.value| == |script| && forall i :: 0 <= i < |script| ==>
              && Annotatable(script[i])
              && r.value[i].index == i
              && r.value[i].requestId == requestId
              && r.value[i].language == language
              && var config := script[i].fields["voice_config"].fields;
                 && r.value[i].voiceConfig == MoveVoiceModel(config)
                 && r.value[i].text == (if "text" in script[i].fields then Some(script[i].fields["text"]) else None)
    // a line without an object `voice_config` holding `voice_model` aborts
    // the whole call, at the first such line
    ensures r.Err? ==> r.error < |script| && !Annotatable(script[r.error])
                       && forall j :: 0 <= j < r.error ==> Annotatable(script[j])
  {
    AnnotateFrom(script, 0, requestId, language)
  }

  // ---------------------------------------------------------------------------
  // One worker iteration

  /** The request `generate_sarvam_voice` sends for an item. */
  datatype TtsRequest = TtsRequest(text: Json, languageCode: string, config: map<string, Json>)

  /** What the call gives back: the decoded JSON body, or an exception
      (transport error, an HTTP status above 299, a body that is not JSON,
      a speaker that is not text). */
  datatype TtsReply = Replied(body: Json) | Raised

  /** The collaborators of the pipeline: `LANGUAGE_CODES`, the speech service
      (the reply to the request made for line i), `base64.b64decode`, and
      what the merger needs. */
  datatype Env = Env(
    languageCodes: map<string, string>,
    tts: (nat, TtsRequest) -> TtsReply,
    decode: string -> Option<Bytes>,
    tools: Ffmpeg.Tooling)

  /** An item the worker put on the results queue: its index and
      `voice_sample_path`. */
  datatype Outcome = Outcome(index: nat, path: string)

  /** What a worker does with an item: drops it (an exception was printed)
      or reports a path, having written the decoded audio there if any. */
  datatype ItemResult = Dropped | Reported(path: string, audio: Option<Bytes>)

  /** `/tmp/kahani/{req_id}__{index:03}.wav`. */
  function SegmentPath(requestId: string, index: nat): string
  {
    "/tmp/kahani/" + requestId + "__" + Numerals.ZeroPad(index, 3) + ".wav"
  }

  /** Two lines of one request never share a segment file. */
  lemma SegmentPathInjective(requestId: string, i: nat, j: nat)
    requires SegmentPath(requestId, i) == SegmentPath(requestId, j)
    ensures i == j
  {
    var prefix := "/tmp/kahani/" + requestId + "__";
    var a := Numerals.ZeroPad(i, 3);
    var b := Numerals.ZeroPad(j, 3);
    var s := SegmentPath(requestId, i);
    assert s == prefix + a + ".wav";
    assert SegmentPath(requestId, j) == prefix + b + ".wav";
    assert |a| == |b|;
    assert a == s[|prefix|..|prefix| + |a|];
    assert b == s[|prefix|..|prefix| + |b|];
  }

  /** The keyword arguments `VoiceConfig` accepts. */
  predicate ValidVoiceConfig(config: map<string, Json>)
  {
    forall k :: k in config ==> k in {"speaker", "pitch", "pace", "loudness"}
  }

  /** `audio_response.get("audios", [None])[0]`; `None` is the exception a
      body that is not an object, or an empty or unsubscriptable `audios`,
      raises. */
  function FirstAudio(body: Json): (r: Option<Json>)
    ensures body.JObj? && "audios" !in body.fields ==> r == Some(JNull)
    ensures body.JObj? && "audios" in body.fields && body.fields["audios"].JArr? ==>
              r == (if |body.fields["audios"].items| == 0 then None else Some(body.fields["audios"].items[0]))
    ensures !body.JObj? ==> r.None?
  {
    if !body.JObj? then None
    else if "audios" !in body.fields then Some(JNull)
    else
      match body.fields["audios"]
      case JArr(xs) => if |xs| == 0 then None else Some(xs[0])
      case JStr(s) => if |s| == 0 then None else Some(JStr([s[0]]))
      case _ => None
  }

  /** The checks before the call: `item["text"]`, the language code lookup,
      and `VoiceConfig(**voice_config)`. */
  predicate Ready(item: Item, env: Env)
  {
    item.text.Some? && item.language in env.languageCodes && ValidVoiceConfig(item.voiceConfig)
  }

  function ReplyTo(item: Item, env: Env): TtsReply
    requires item.text.Some? && item.language in env.languageCodes
  {
    env.tts(item.index, TtsRequest(item.text.value, env.languageCodes[item.language], item.voiceConfig))
  }

  predicate EmptyAudios(body: Json)
  {
    body.JObj? && "audios" in body.fields && body.fields["audios"] == JArr([])
  }

  predicate NoAudios(body: Json)
  {
    body.JObj? && "audios" !in body.fields
  }

  /** One pass of the worker loop over one item. */
  function Process(item: Item, env: Env): (r: ItemResult)
    // exceptions before the call: missing text, unknown language, a
    // configuration `VoiceConfig` does not accept
    ensures item.text.None? || item.language !in env.languageCodes || !ValidVoiceConfig(item.voiceConfig) ==>
              r.Dropped?
    // what is reported: the segment path with the decoded audio, or the
    // empty path with nothing written
    ensures r.Reported? && r.audio.Some? ==> r.path == SegmentPath(item.requestId, item.index)
    ensures r.Reported? ==> (r.path == "" <==> r.audio.None?)
    ensures r.Reported? ==>
              (item.text.Some? && item.language in env.languageCodes
               && env.tts(item.index, TtsRequest(item.text.value, env.languageCodes[item.language], item.voiceConfig)).Replied?)
    // exceptions from the call or from picking the first audio
    ensures Ready(item, env) && ReplyTo(item, env) == Raised ==> r.Dropped?
    ensures Ready(item, env) && ReplyTo(item, env).Replied? && !ReplyTo(item, env).body.JObj? ==> r.Dropped?
    ensures Ready(item, env) && ReplyTo(item, env).Replied? && EmptyAudios(ReplyTo(item, env).body) ==> r.Dropped?
    // a reply object without `audios` is reported with an empty path
    ensures Ready(item, env) && ReplyTo(item, env).Replied? && NoAudios(ReplyTo(item, env).body) ==>
              r == Reported("", None)
  {
    if item.text.None? || item.language !in env.languageCodes || !ValidVoiceConfig(item.voiceConfig) then Dropped
    else
      match env.tts(item.index, TtsRequest(item.text.value, env.languageCodes[item.language], item.voiceConfig))
      case Raised => Dropped
      case Replied(body) =>
        match FirstAudio(body)
        case None => Dropped
        case Some(first) =>
          if !Truthy(first) then Reported("", None)
          else if !first.JStr? then Dropped
          else
            match env.decode(first.s)
            case None => Dropped
            case Some(audio) => Reported(SegmentPath(item.requestId, item.index), Some(audio))
  }

  /** What the first audio of a reply decides: no first audio is an
      exception, a falsy one is reported with the empty path, a truthy text
      that decodes is written to the item's segment path, and anything else
      raises in the decoder. */
  lemma ProcessFirstAudio(item: Item, env: Env)
    requires Ready(item, env) && ReplyTo(item, env).Replied?
    ensures var first := FirstAudio(ReplyTo(item, env).body);
            && (first.None? ==> Process(item, env).Dropped?)
            && (first.Some? && !Truthy(first.value) ==> Process(item, env) == Reported("", None))
            && (first.Some? && Truthy(first.value) && first.value.JStr? && env.decode(first.value.s).Some? ==>
                  Process(item, env) == Reported(SegmentPath(item.requestId, item.index), env.decode(first.value.s)))
            && (first.Some? && Truthy(first.value) && (!first.value.JStr? || env.decode(first.value.s).None?) ==>
                  Process(item, env).Dropped?)
  {
  }

  /** The items of one request: item j has index j and the shared request id. */
  predicate Batch(items: seq<Item>, requestId: string)
  {
    forall j :: 0 <= j < |items| ==> items[j].index == j && items[j].requestId == requestId
  }

  /** The results of processing every item in script order: what a single
      worker would put on the results queue. */
  function Survivors(items: seq<Item>, env: Env): seq<Outcome>
  {
    if |items| == 0 then []
    else
      var last := items[|items| - 1];
      Survivors(items[..|items| - 1], env)
        + (match Process(last, env) case Dropped => [] case Reported(p, _) => [Outcome(last.index, p)])
  }

  function IndexOf(o: Outcome): int
  {
    o.index
  }

  /** The reported items of a batch are exactly its surviving items, once
      each, in increasing index order. */
  lemma {:induction false} SurvivorsMembers(items: seq<Item>, env: Env, requestId: string)
    requires Batch(items, requestId)
    ensures forall o :: o in Survivors(items, env) <==>
              o.index < |items| && Process(items[o.index], env).Reported? && o.path == Process(items[o.index], env).path
    ensures forall a, b :: 0 <= a < b < |Survivors(items, env)| ==>
              Survivors(items, env)[a].index < Survivors(items, env)[b].index
    ensures forall o :: o in Survivors(items, env) ==> o.index < |items|
    decreases |items|
  {
    SurvivorsIncrease(items, env, requestId);
    if |items| > 0 {
      var n := |items| - 1;
      var front := items[..n];
      assert Batch(front, requestId) by {
        forall j | 0 <= j < n ensures front[j] == items[j] { }
      }
      SurvivorsMembers(front, env, requestId);
      var extra := SurvivorOf(items[n], env);
      assert Survivors(items, env) == Survivors(front, env) + extra by {
        assert items[..|items| - 1] == front;
      }
      forall o
        ensures o in Survivors(items, env) <==>
                o.index < |items| && Process(items[o.index], env).Reported? && o.path == Process(items[o.index], env).path
      {
        assert o in Survivors(items, env) <==> o in Survivors(front, env) || o in extra;
        SurvivorOfMembers(items[n], env, o);
        if o.index < n {
          assert front[o.index] == items[o.index];
        }
      }
    }
  }

  /** What processing one item adds to the survivors. */
  function SurvivorOf(item: Item, env: Env): seq<Outcome>
  {
    match Process(item, env) case Dropped => [] case Reported(p, _) => [Outcome(item.index, p)]
  }

  lemma SurvivorOfMembers(item: Item, env: Env, o: Outcome)
    ensures o in SurvivorOf(item, env) <==>
            o.index == item.index && Process(item, env).Reported? && o.path == Process(item, env).path
  {
  }

  /** Survivors come in increasing index order, all below the batch size. */
  lemma {:induction false} SurvivorsIncrease(items: seq<Item>, env: Env, requestId: string)
    requires Batch(items, requestId)
    ensures forall a, b :: 0 <= a < b < |Survivors(items, env)| ==>
              Survivors(items, env)[a].index < Survivors(items, env)[b].index
    ensures forall o :: o in Survivors(items, env) ==> o.index < |items|
    decreases |items|
  {
    if |items| > 0 {
      var n := |items| - 1;
      var front := items[..n];
      assert Batch(front, requestId) by {
        forall j | 0 <= j < n ensures front[j] == items[j] { }
      }
      SurvivorsIncrease(front, env, requestId);
      var extra := SurvivorOf(items[n], env);
      assert Survivors(items, env) == Survivors(front, env) + extra by {
        assert items[..|items| - 1] == front;
      }
      assert forall o :: o in extra ==> o.index == n;
    }
  }

  /** The filesystem after a single worker had processed every item in
      script order. */
  function WriteSegments(fs: FileSystem, items: seq<Item>, env: Env): (r: FileSystem)
    ensures r.dirs == fs.dirs
  {
    if |items| == 0 then fs
    else Apply(WriteSegments(fs, items[..|items| - 1], env), Process(items[|items| - 1], env))
  }

  function Apply(fs: FileSystem, r: ItemResult): FileSystem
  {
    if r.Reported? && r.audio.Some? then WriteFile(fs, r.path, r.audio.value) else fs
  }

  predicate Writes(items: seq<Item>, env: Env, j: nat)
  {
    j < |items| && Process(items[j], env).Reported? && Process(items[j], env).audio.Some?
  }

  ghost predicate WrittenBy(items: seq<Item>, env: Env, done: set<nat>, p: string)
  {
    exists j | j in done :: Writes(items, env, j) && Process(items[j], env).path == p
  }

  /** `now` is `base` plus the segment files of the processed items `done`. */
  ghost predicate Reflects(base: FileSystem, now: FileSystem, items: seq<Item>, env: Env, done: set<nat>)
  {
    && now.dirs == base.dirs
    && (forall j | j in done && Writes(items, env, j) ::
          Process(items[j], env).path in now.files
          && now.files[Process(items[j], env).path] == Process(items[j], env).audio.value)
    && (forall p | !WrittenBy(items, env, done, p) ::
          (p in now.files <==> p in base.files) && (p in base.files ==> now.files[p] == base.files[p]))
  }

  /** Processing one more item keeps the description exact: segment paths
      of distinct items differ. */
  lemma ReflectsStep(base: FileSystem, now: FileSystem, items: seq<Item>, env: Env, requestId: string,
                     done: set<nat>, j: nat)
    requires Batch(items, requestId) && j < |items| && j !in done
    requires Reflects(base, now, items, env, done)
    ensures Reflects(base, Apply(now, Process(items[j], env)), items, env, done + {j})
  {
    var next := Apply(now, Process(items[j], env));
    if Writes(items, env, j) {
      var pj := Process(items[j], env).path;
      forall k | k in done && Writes(items, env, k)
        ensures Process(items[k], env).path != pj
      {
        if Process(items[k], env).path == pj {
          SegmentPathInjective(requestId, k, j);
        }
      }
    }
    forall p | !WrittenBy(items, env, done + {j}, p)
      ensures (p in next.files <==> p in base.files) && (p in base.files ==> next.files[p] == base.files[p])
    {
      assert !WrittenBy(items, env, done, p);
    }
  }

  /** Two filesystems described exactly by the same processed set are equal. */
  lemma ReflectsUnique(base: FileSystem, a: FileSystem, b: FileSystem, items: seq<Item>, env: Env, done: set<nat>)
    requires Reflects(base, a, items, env, done) && Reflects(base, b, items, env, done)
    ensures a == b
  {
    forall p ensures (p in a.files <==> p in b.files) && (p in a.files ==> a.files[p] == b.files[p]) {
      if WrittenBy(items, env, done, p) {
        var j :| j in done && Writes(items, env, j) && Process(items[j], env).path == p;
        assert p in a.files && a.files[p] == Process(items[j], env).audio.value;
        assert p in b.files && b.files[p] == Process(items[j], env).audio.value;
      } else {
        assert (p in a.files <==> p in base.files) && (p in base.files ==> a.files[p] == base.files[p]);
        assert (p in b.files <==> p in base.files) && (p in base.files ==> b.files[p] == base.files[p]);
      }
    }
    assert a.files == b.files;
  }

  function Range(n: nat): (r: set<nat>)
    ensures forall j: nat :: j in r <==> j < n
  {
    if n == 0 then {} else Range(n - 1) + {n - 1}
  }

  /** The sequential reference writes exactly the segment files of the
      written items. */
  lemma {:induction false} WriteSegmentsReflects(fs: FileSystem, items: seq<Item>, env: Env, requestId: string, k: nat)
    requires Batch(items, requestId) && k <= |items|
    ensures Reflects(fs, WriteSegments(fs, items[..k], env), items, env, Range(k))
    decreases k
  {
    if k == 0 {
      assert items[..0] == [];
      assert Range(0) == {};
    } else {
      WriteSegmentsReflects(fs, items, env, requestId, k - 1);
      assert items[..k][..k - 1] == items[..k - 1];
      assert items[..k][k - 1] == items[k - 1];
      ReflectsStep(fs, WriteSegments(fs, items[..k - 1], env), items, env, requestId, Range(k - 1), k - 1);
      assert Range(k - 1) + {k - 1} == Range(k);
    }
  }
}

=== FILE: voice_pool.dfy ===
/** The worker pool of `generate_voice_for_script` (modules/voice/service.py,
    lines 79-110). The workers are coroutines of one event loop: taking an
    item with `get_nowait` under the read lock cannot be interrupted, a
    worker is suspended only while it waits for the speech service, and it
    leaves its loop at the first empty queue. The loop below lets an
    arbitrary scheduler choose, step by step, which live worker moves. */
module VoicePool {
  import opened Common
  import opened Files
  import opened VoiceItems
  import Sorting

  const NumVoiceWorkers: nat := 4

  /** A worker between items, holding the item at a queue position, or gone. */
  datatype Worker = Ready | Working(position: nat) | Exited

  function Cost(w: Worker): nat
  {
    match w
    case Exited => 0
    case Ready => 1
    case Working(_) => 2
  }

  function TotalCost(ws: seq<Worker>): nat
  {
    if |ws| == 0 then 0 else Cost(ws[0]) + TotalCost(ws[1..])
  }

  lemma {:induction false} TotalCostUpdate(ws: seq<Worker>, w: nat, v: Worker)
    requires w < |ws|
    ensures TotalCost(ws[w := v]) == TotalCost(ws) - Cost(ws[w]) + Cost(v)
    decreases |ws|
  {
    if w > 0 {
      TotalCostUpdate(ws[1..], w - 1, v);
      assert ws[w := v][1..] == ws[1..][w - 1 := v];
    } else {
      assert ws[w := v][1..] == ws[1..];
    }
  }

  /** Bookkeeping of the pool: the queue holds positions `next..`; each
      earlier position is finished (`done`) or held by exactly one worker;
      a worker exits only once the queue is empty. */
  ghost predicate Scheduled(workers: seq<Worker>, next: nat, done: set<nat>, n: nat)
  {
    && |workers| == NumVoiceWorkers
    && next <= n
    && (forall w :: 0 <= w < |workers| && workers[w].Working? ==>
          workers[w].position < next && workers[w].position !in done)
    && (forall v, w :: 0 <= v < w < |workers| && workers[v].Working? && workers[w].Working? ==>
          workers[v].position != workers[w].position)
    && (forall j: nat :: j < next ==> j in done || exists w :: 0 <= w < |workers| && workers[w] == Working(j))
    && (forall j :: j in done ==> j < next)
    && (forall w :: 0 <= w < |workers| && workers[w].Exited? ==> next == n)
  }

  /** The results queue so far: one outcome per finished reported item. */
  ghost predicate Collected(outs: seq<Outcome>, items: seq<Item>, env: Env, done: set<nat>)
  {
    && (forall o :: o in outs ==>
          o.index in done && o.index < |items| && Process(items[o.index], env).Reported?
          && o.path == Process(items[o.index], env).path)
    && (forall j :: j in done && j < |items| && Process(items[j], env).Reported? ==>
          Outcome(j, Process(items[j], env).path) in outs)
    && (forall a, b :: 0 <= a < b < |outs| ==> outs[a].index != outs[b].index)
  }

  lemma TakeStep(workers: seq<Worker>, next: nat, done: set<nat>, n: nat, w: nat)
    requires Scheduled(workers, next, done, n) && w < |workers| && workers[w].Ready? && next < n
    ensures Scheduled(workers[w := Working(next)], next + 1, done, n)
  {
    var after := workers[w := Working(next)];
    forall j: nat | j < next + 1 && j !in done
      ensures exists v :: 0 <= v < |after| && after[v] == Working(j)
    {
      if j < next {
        var v :| 0 <= v < |workers| && workers[v] == Working(j);
        assert after[v] == Working(j);
      } else {
        assert after[w] == Working(j);
      }
    }
  }

  lemma FinishStep(workers: seq<Worker>, next: nat, done: set<nat>, n: nat, w: nat)
    requires Scheduled(workers, next, done, n) && w < |workers| && workers[w].Working?
    ensures workers[w].position < next && workers[w].position !in done
    ensures Scheduled(workers[w := Ready], next, done + {workers[w].position}, n)
  {
    var after := workers[w := Ready];
    forall i: nat | i < next && i !in done + {workers[w].position}
      ensures exists v :: 0 <= v < |after| && after[v] == Working(i)
    {
      var v :| 0 <= v < |workers| && workers[v] == Working(i);
      assert v != w;
      assert after[v] == Working(i);
    }
  }

  lemma ExitStep(workers: seq<Worker>, next: nat, done: set<nat>, n: nat, w: nat)
    requires Scheduled(workers, next, done, n) && w < |workers| && workers[w].Ready? && next == n
    ensures Scheduled(workers[w := Exited], next, done, n)
  {
    var after := workers[w := Exited];
    forall i: nat | i < next && i !in done
      ensures exists v :: 0 <= v < |after| && after[v] == Working(i)
    {
      var v :| 0 <= v < |workers| && workers[v] == Working(i);
      assert after[v] == Working(i);
    }
  }

  /** When every worker has exited, every position has been processed. */
  lemma AllDone(workers: seq<Worker>, next: nat, done: set<nat>, n: nat)
    requires Scheduled(workers, next, done, n)
    requires forall w :: 0 <= w < |workers| ==> workers[w].Exited?
    ensures done == Range(n)
  {
    assert workers[0].Exited?;
    forall j: nat | j < n ensures j in done {
      assert !exists w :: 0 <= w < |workers| && workers[w] == Working(j);
    }
  }

  lemma CollectStep(outs: seq<Outcome>, items: seq<Item>, env: Env, done: set<nat>, j: nat)
    requires Collected(outs, items, env, done) && j < |items| && j !in done
    ensures var r := Process(items[j], env);
            Collected(if r.Reported? then outs + [Outcome(j, r.path)] else outs, items, env, done + {j})
  {
  }

  /** The collected outcomes of a finished pool are the sequential survivors. */
  lemma CollectedAll(outs: seq<Outcome>, items: seq<Item>, env: Env, requestId: string)
    requires Batch(items, requestId) && Collected(outs, items, env, Range(|items|))
    ensures multiset(outs) == multiset(Survivors(items, env))
  {
    var survivors := Survivors(items, env);
    SurvivorsMembers(items, env, requestId);
    forall o ensures o in outs <==> o in survivors {
      if o in survivors {
        assert Outcome(o.index, o.path) == o;
      }
    }
    Sorting.SameElementsSameMultiset(outs, survivors);
  }

  /** Drain the queue `items` with `NumVoiceWorkers` workers. Whatever the
      schedule, every item is processed exactly once: the results queue
      holds the survivors of a sequential run in some order, and the
      filesystem holds exactly their segment files. */
  method DrainQueue(items: seq<Item>, env: Env, requestId: string, fs: FileSystem)
    returns (outs: seq<Outcome>, fs': FileSystem)
    requires Batch(items, requestId)
    ensures multiset(outs) == multiset(Survivors(items, env))
    ensures fs' == WriteSegments(fs, items, env)
  {
    var workers := seq(NumVoiceWorkers, _ => Ready);
    var next := 0;            // the queue holds items[next..]
    ghost var done: set<nat> := {};
    outs := [];
    fs' := fs;
    while exists w :: 0 <= w < |workers| && !workers[w].Exited?
      invariant Scheduled(workers, next, done, |items|)
      invariant Collected(outs, items, env, done)
      invariant Reflects(fs, fs', items, env, done)
      decreases 3 * (|items| - next) + TotalCost(workers)
    {
      var w :| 0 <= w < |workers| && !workers[w].Exited?;
      match workers[w]
      case Ready =>
        if next == |items| {
          ExitStep(workers, next, done, |items|, w);
          TotalCostUpdate(workers, w, Exited);
          workers := workers[w := Exited];
        } else {
          TakeStep(workers, next, done, |items|, w);
          TotalCostUpdate(workers, w, Working(next));
          workers := workers[w := Working(next)];
          next := next + 1;
        }
      case Working(j) =>
        FinishStep(workers, next, done, |items|, w);
        var r := Process(items[j], env);
        ReflectsStep(fs, fs', items, env, requestId, done, j);
        CollectStep(outs, items, env, done, j);
        if r.Reported? {
          outs := outs + [Outcome(j, r.path)];
        }
        fs' := Apply(fs', r);
        done := done + {j};
        TotalCostUpdate(workers, w, Ready);
        workers := workers[w := Ready];
    }
    AllDone(workers, next, done, |items|);
    WriteSegmentsReflects(fs, items, env, requestId, |items|);
    assert items[..|items|] == items;
    ReflectsUnique(fs, fs', WriteSegments(fs, items, env), items, env, done);
    CollectedAll(outs, items, env, requestId);
  }
}

=== FILE: voice_service.dfy ===
/** `generate_voice_for_script` (modules/voice/service.py, lines 56-131): a
    sequential reference of what the call computes, and the pipeline as the
    source runs it (annotation, queue, worker pool, sort, merge, dry-run
    cleanup), proved equal to it. */
module VoiceService {
  import opened Common
  import opened Files
  import opened VoiceItems
  import VoicePool
  import Sorting
  import Ffmpeg
  import Utils

  datatype VoiceError =
    | LineNotAnnotatable(line: nat)        // KeyError/TypeError/AttributeError while annotating
    | NoAudio                              // "failed to generate audio"
    | MergeFailed(error: Ffmpeg.MergeError) // re-raised from the merger

  const KahaniDirectory: string := "/tmp/kahani"
  const SegmentDirectory: string := KahaniDirectory + "/"

  /** `/tmp/kahani/compiled/{req_id}_compiled.wav`. */
  function CompiledPath(requestId: string): string
  {
    "/tmp/kahani/compiled/" + requestId + "_compiled.wav"
  }

  /** `os.makedirs("/tmp/kahani/compiled", exist_ok=True)`. */
  function MakeCompiledDirectory(fs: FileSystem): (r: FileSystem)
  {
    fs.(dirs := fs.dirs + {"/tmp", "/tmp/kahani", "/tmp/kahani/compiled"})
  }

  /** Once the compiled directory exists, the compiled file of a request id
      without a separator can be opened for writing, so a single segment is
      copied there. */
  lemma CompiledPathWritable(fs: FileSystem, requestId: string)
    requires '/' !in requestId && CompiledPath(requestId) !in fs.dirs
    ensures Writable(MakeCompiledDirectory(fs), CompiledPath(requestId))
  {
    var name := requestId + "_compiled.wav";
    assert '/' !in name by {
      assert forall k :: 0 <= k < |name| ==> name[k] == (if k < |requestId| then requestId[k] else "_compiled.wav"[k - |requestId|]);
    }
    assert CompiledPath(requestId) == "/tmp/kahani/compiled" + "/" + name;
    ParentOfName("/tmp/kahani/compiled", name);
  }

  /** The glob `{req_id}_*.wav` applied to a file name. */
  function CleanupPattern(requestId: string): string -> bool
  {
    name => |name| >= |requestId| + 5 && name[..|requestId| + 1] == requestId + "_"
            && name[|name| - 4..] == ".wav"
  }

  function Paths(outs: seq<Outcome>): (paths: seq<string>)
    ensures |paths| == |outs| && forall k :: 0 <= k < |outs| ==> paths[k] == outs[k].path
  {
    if |outs| == 0 then [] else [outs[0].path] + Paths(outs[1..])
  }

  lemma NoSurvivors(items: seq<Item>, env: Env, requestId: string)
    requires Batch(items, requestId)
    ensures |Survivors(items, env)| == 0 <==> forall i :: 0 <= i < |items| ==> Process(items[i], env).Dropped?
  {
    SurvivorsMembers(items, env, requestId);
    if exists i :: 0 <= i < |items| && !Process(items[i], env).Dropped? {
      var i :| 0 <= i < |items| && !Process(items[i], env).Dropped?;
      assert Outcome(i, Process(items[i], env).path) in Survivors(items, env);
    }
  }

  /** What the call computes, as one worker processing the script in order. */
  function GenerateVoice(script: seq<Json>, language: string, requestId: string, fs: FileSystem, env: Env)
    : (r: (Result<string, VoiceError>, FileSystem))
    // a line that cannot be annotated aborts before anything is written
    ensures Annotate(script, requestId, language).Err? ==>
              r == (Err(LineNotAnnotatable(Annotate(script, requestId, language).error)), fs)
    // the result names the compiled file, which depends on the request id only
    ensures r.0.Ok? ==> r.0.value == CompiledPath(requestId)
    // "failed to generate audio" exactly when every line was dropped
    ensures r.0 == Err(NoAudio) <==>
              Annotate(script, requestId, language).Ok?
              && forall i :: 0 <= i < |script| ==> Process(Annotate(script, requestId, language).value[i], env).Dropped?
  {
    match Annotate(script, requestId, language)
    case Err(line) => (Err(LineNotAnnotatable(line)), fs)
    case Ok(items) =>
      var written := WriteSegments(MakeCompiledDirectory(fs), items, env);
      var outs := Survivors(items, env);
      NoSurvivors(items, env, requestId);
      if |outs| == 0 then (Err(NoAudio), written)
      else
        var m := Ffmpeg.MergeAudioFiles(Ffmpeg.PathList(Paths(outs)), CompiledPath(requestId), written, env.tools);
        match m.result
        case Ok(path) => (Ok(path), m.fs)
        case Err(e) => (Err(MergeFailed(e)), m.fs)
  }

  /** The pipeline as the source runs it. Whatever order the workers finish
      in, sorting by index restores script order, so the call computes the
      sequential reference; the dry-run cleanup removes nothing. */
  method GenerateVoiceForScript(script: seq<Json>, language: string, requestId: string, fs: FileSystem, env: Env)
    returns (r: Result<string, VoiceError>, fs': FileSystem)
    ensures (r, fs') == GenerateVoice(script, language, requestId, fs, env)
  {
    var annotated := Annotate(script, requestId, language);
    if annotated.Err? {
      return Err(LineNotAnnotatable(annotated.error)), fs;
    }
    var items := annotated.value;
    var ready := MakeCompiledDirectory(fs);
    var outs, written := VoicePool.DrainQueue(items, env, requestId, ready);
    SurvivorsMembers(items, env, requestId);
    Sorting.SortRestoresOrder(outs, Survivors(items, env), IndexOf);
    var sorted := Sorting.SortBy(outs, IndexOf);
    assert sorted == Survivors(items, env);
    var paths := Paths(sorted);
    assert GenerateVoice(script, language, requestId, fs, env) ==
      (if |paths| == 0 then (Err(NoAudio), written)
       else
         var m := Ffmpeg.MergeAudioFiles(Ffmpeg.PathList(paths), CompiledPath(requestId), written, env.tools);
         match m.result
         case Ok(path) => (Ok(path), m.fs)
         case Err(e) => (Err(MergeFailed(e)), m.fs));
    if |paths| == 0 {
      return Err(NoAudio), written;
    }
    var m := Ffmpeg.MergeAudioFiles(Ffmpeg.PathList(paths), CompiledPath(requestId), written, env.tools);
    if m.result.Err? {
      return Err(MergeFailed(m.result.error)), m.fs;
    }
    assert KahaniDirectory in m.fs.dirs;
    assert IsDir(m.fs, SegmentDirectory) by {
      assert SegmentDirectory[..|SegmentDirectory| - 1] == KahaniDirectory;
    }
    var cleanup, cleaned := Utils.DeleteFilesByPattern(
      m.fs, SegmentDirectory, CleanupPattern(requestId), false, true, _ => false);
    assert cleanup.Ok?;
    return Ok(m.result.value), cleaned;
  }

  lemma FirstMissingIsEmpty(fs: FileSystem, paths: seq<string>)
    requires forall k :: 0 <= k < |paths| && paths[k] != "" ==> Exists(fs, paths[k])
    requires "" in paths
    ensures Ffmpeg.FirstMissing(fs, paths) == Some("")
  {
    var k :| 0 <= k < |paths| && paths[k] == "";
    assert !Exists(fs, paths[k]);
  }

  /** Every non-empty reported path names a segment file that was written,
      so the first missing input is an empty path, if there is one. */
  lemma MissingInputIsEmpty(items: seq<Item>, env: Env, requestId: string, fs: FileSystem, k: nat)
    requires Batch(items, requestId)
    requires k < |Survivors(items, env)| && Survivors(items, env)[k].path == ""
    ensures Ffmpeg.FirstMissing(WriteSegments(fs, items, env), Paths(Survivors(items, env))) == Some("")
  {
    var outs := Survivors(items, env);
    var paths := Paths(outs);
    var written := WriteSegments(fs, items, env);
    SurvivorsMembers(items, env, requestId);
    WriteSegmentsReflects(fs, items, env, requestId, |items|);
    assert items[..|items|] == items;
    forall k | 0 <= k < |paths| && paths[k] != "" ensures Exists(written, paths[k]) {
      assert outs[k] in outs;
      assert Writes(items, env, outs[k].index);
    }
    assert paths[k] == "";
    FirstMissingIsEmpty(written, paths);
  }

  /** A line reported with an empty path reaches the merger, which fails on
      it as a missing input: every other reported path names a segment file
      that was written. */
  lemma EmptyPathFailsMerge(script: seq<Json>, language: string, requestId: string, fs: FileSystem, env: Env, i: nat)
    requires Annotate(script, requestId, language).Ok? && env.tools.ffmpeg.Some?
    requires i < |script|
    requires Process(Annotate(script, requestId, language).value[i], env) == Reported("", None)
    ensures GenerateVoice(script, language, requestId, fs, env).0 == Err(MergeFailed(Ffmpeg.InputNotFound("")))
  {
    var items := Annotate(script, requestId, language).value;
    var ready := MakeCompiledDirectory(fs);
    MergeOfEmptyPath(items, env, requestId, ready, i);
    assert Survivors(items, env) != [];
  }

  /** The merge of a batch in which item `i` is reported with the empty path
      fails on that path. */
  lemma MergeOfEmptyPath(items: seq<Item>, env: Env, requestId: string, ready: FileSystem, i: nat)
    requires Batch(items, requestId) && env.tools.ffmpeg.Some?
    requires i < |items| && Process(items[i], env) == Reported("", None)
    ensures Survivors(items, env) != []
    ensures Ffmpeg.MergeAudioFiles(Ffmpeg.PathList(Paths(Survivors(items, env))), CompiledPath(requestId),
                                   WriteSegments(ready, items, env), env.tools).result
         == Err(Ffmpeg.InputNotFound(""))
  {
    var outs := Survivors(items, env);
    var paths := Paths(outs);
    var written := WriteSegments(ready, items, env);
    assert exists k :: 0 <= k < |outs| && outs[k].path == "" by {
      SurvivorsMembers(items, env, requestId);
      assert Outcome(i, "") in outs;
    }
    var k :| 0 <= k < |outs| && outs[k].path == "";
    assert Ffmpeg.FirstMissing(written, paths) == Some("") by {
      MissingInputIsEmpty(items, env, requestId, ready, k);
    }
    assert paths != [];
    Ffmpeg.MissingInputReported(paths, CompiledPath(requestId), written, env.tools, "");
  }
}
